=== FILE: README.md ===
# GNSS receiver GUI: telemetry core

This project models the telemetry core of two Tk front ends for a
software-defined GNSS receiver. The first is `sdr_gnss_ui_v_10_tcp_only.py`,
the TCP build. It reads a tracking stream and an NMEA 0183 stream from two
sockets. The second is `SDR_GNSS_UI.py`, the older build. It reads the
receiver's standard error and a local NMEA socket.

Both front ends turn text lines into derived state:

- a keyed buffer of satellite tracking rows, reconciled into a table;
- position fixes with a circular error probable (CEP) statistic;
- an RMS velocity statistic;
- a speed / acceleration / jerk state machine fed by GGA, RMC and VTG sentences;
- bounded plot windows.

The TCP build also rewrites GSV sentences before it forwards them. It jitters
the signal strengths and recomputes the checksum of section 5.3 of NMEA 0183.
The older build resolves the receiver executable's name before launching it.

Modules, one per file:

| module | what it models |
|---|---|
| `Wrappers` | `Option` and the `Step` record. A `Step` carries a state and whether a Python exception left the operation at that point. |
| `Text`, `Numeric` | The parts of Python's `str.split`, `strip`, `lstrip`/`rstrip`, `splitlines`, `float`, `str(int)`, `%02X` and `^` that the core uses. |
| `OrderedDict` | Python's insertion-ordered `dict`. Both the satellite buffer and the table's candidate map iterate in insertion order. |
| `Framing`, `Readers`, `LegacyReader` | Newline framing, the bounded retry loops of the socket readers, and the error events they queue. |
| `Tracking`, `Consumer` | ANSI stripping, line routing, the whitespace-token parsers, and the queue drain `process_queue`. |
| `Nmea`, `Kinematics` | `parse_gpgga` / `parse_grmc` / `parse_gnvtg` and the state machine of `process_line`. |
| `Stats`, `Percentile`, `PlotWindow`, `PositionFix` | `calculate_cep`, `calculate_vrms`, `reset_cep`, the 500-point plot windows, and `parse_position_status`. |
| `Table` | `update_table`. |
| `GsvAdjust` | `nmea_adjustment` and `adjust_snr`. |
| `Command` | The name normalisation of `validate_command`. |
| `Session` | `start_tcp_readers`, `stop_all`, `clear_data`, `update_ui` and one GUI tick. |

Exceptions are modelled as a `raised` flag next to the partial state left at
the point of the raise. The environment appears as parameters:

- the outcome of each connection attempt and the chunks received;
- the decoder;
- the geodesic distance;
- the jitter drawn for each field;
- `os.path.isfile`.

## Notes on the code

Some behaviours of the code are easy to misread, so they are spelled out here:

- The satellite buffer is keyed by tuple elements 0, 2 and 3, that is (CH, SIG,
  PRN), although its comment says (CH, SAT, SIG). The table matches rows by
  (CH, SAT, SIG). Two tuples with one table key but different buffer keys
  therefore both stay buffered. The second refresh after they arrive then
  shows three rows for them, whether or not the key values read back
  unchanged: see `Table.DuplicateKeysGrow`.
- `current_items` is keyed by the values read back from the shown rows, and
  Tkinter hands every value that `int()` accepts back as an `int`. The lookup
  key `(data[0], data[1], data[2])` holds the buffered strings. A satellite
  row's CH is always a run of digits, so no lookup ever finds a shown row:
  every refresh inserts each buffered row afresh and then deletes every row
  that was shown (`Table.RefreshReplaces`, `Session.UpdateUiShows`). The table
  still ends up showing the buffer in buffer order, under new item ids, and
  each key once when no two buffered tuples share a (CH, SAT, SIG).
- Were the key values to read back as the strings stored, a refresh over an
  unchanged buffer would rewrite every row in place (`Updated`) and insert or
  delete nothing (`Table.UpdateTableIdempotent`). The model states this as a
  conditional result, `AllReadBack`, which tracking rows never meet.
- The knots conversion factor is 0.5144444 in the TCP build and 0.514444 in
  the older one. Neither is exactly 1852/3600.
- `parse_gnvtg` takes field 7 of a VTG sentence, which NMEA 0183 defines as
  speed in km/h, and the caller converts it as knots.
- Retries sleep a fixed delay.
- Both plot windows are modelled as written, including their rebase after an
  overflow (see "## Findings"). Until a window first overflows, each stored
  time plus the base is the sample's own time. After that the newest stored
  time plus the base falls short of it by the previous base.

## Model

| member | source | states |
|---|---|---|
| Framing.Frame | sdr_gnss_ui_v_10_tcp_only.py:539-544 | No emitted line holds a newline, nor does the tail left in the buffer. The lines, each followed by a newline, and then the tail give back the buffer exactly. |
| Framing.FrameUnique | sdr_gnss_ui_v_10_tcp_only.py:540-541 | Splitting at the first newline until none is left is the only way to read a text as newline-free lines plus a newline-free tail. |
| Framing.FrameIncremental | sdr_gnss_ui_v_10_tcp_only.py:588-590 | Framing a text, then appending more text to the tail and framing again, yields the lines and tail of framing everything at once. No line is lost or split at a chunk boundary. |
| Framing.FrameChunksWhole | sdr_gnss_ui_v_10_tcp_only.py:531-544 | However the stream is cut into chunks, the receive loop emits the lines of the whole text and keeps its unterminated tail. |
| Readers.AsciiIgnore | sdr_gnss_ui_v_10_tcp_only.py:587 | ASCII decoding with errors ignored. The text is never longer than the bytes and every character is below 128. When every byte is ASCII, none is dropped. |
| Readers.RetryLoop | sdr_gnss_ui_v_10_tcp_only.py:522-555 | The retry loop makes at most `max` attempts and emits at most one error event. It sleeps fewer times than it attempts. A give-up event comes only after the last attempt, with `max - 1` sleeps. |
| Readers.AllRetryable | sdr_gnss_ui_v_10_tcp_only.py:546-551 | When every attempt is refused or times out, all attempts are made, with a sleep between each two, and exactly one give-up event is emitted. |
| Readers.FinalAttempt | sdr_gnss_ui_v_10_tcp_only.py:545-555 | An attempt that is not retryable ends the loop at once, without sleeping. A set stop flag ends it without an event, a normal end without an event, and any other exception with one socket-error event. |
| Readers.FeedConcat | sdr_gnss_ui_v_10_tcp_only.py:589-599 | Handing two batches of lines to the handler is handing the first and then, unless the handler raised, the second. |
| Readers.Receive | sdr_gnss_ui_v_10_tcp_only.py:583-599 | The receive loop never reports both a raising handler and an empty read that closed the stream. |
| Readers.ReceiveLines | sdr_gnss_ui_v_10_tcp_only.py:583-599 | The handler sees exactly the lines of the whole decoded text read before an empty chunk, in order, ending in the same state. |
| Readers.Connect | sdr_gnss_ui_v_10_tcp_only.py:523-555 | A set stop flag is exactly the attempt that stops. A refusal or timeout is retryable with its reason and state unchanged. Any other connection error fails with its reason. |
| Readers.Read | sdr_gnss_ui_v_10_tcp_only.py:520-555 | A reader makes at most 10 attempts, sleeps at most 9 times and queues at most one error. Giving up means 10 attempts and 9 sleeps. |
| Readers.ReadGivesUp | sdr_gnss_ui_v_10_tcp_only.py:546-551 | Ten refused or timed-out connections give 10 attempts, 9 sleeps and one give-up event. |
| Readers.EndOfStreamNoRetry | sdr_gnss_ui_v_10_tcp_only.py:531-545 | A first connection whose stream ends is not retried and reports no error. The state is what receiving its chunks left. |
| Readers.ErrorItems | sdr_gnss_ui_v_10_tcp_only.py:551-554 | Each error event becomes one `("error", message)` queue entry, in order. |
| Readers.TrackingReader | sdr_gnss_ui_v_10_tcp_only.py:518-562 | The tracking reader only appends to the queue: whatever was queued before stays in front, unchanged. |
| Readers.QueueGrows | sdr_gnss_ui_v_10_tcp_only.py:544 | Across all attempts, the retry loop over `("stderr", line)` entries keeps the queue's earlier entries as its prefix. |
| Readers.NmeaLine | sdr_gnss_ui_v_10_tcp_only.py:589-599 | A line that strips to nothing is skipped. `nmeaStatus` is set once a non-empty line is handled without raising. The latch never changes once set, and `max_jerk` never decreases. |
| Readers.Cleaned | sdr_gnss_ui_v_10_tcp_only.py:591-593 | Only stripped, non-empty lines remain, and never more of them than there were lines. |
| Readers.FeedIsRun | sdr_gnss_ui_v_10_tcp_only.py:598-599 | Once the first line has been handled, the NMEA handler over a batch is `process_line` over its stripped, non-empty lines. |
| Readers.ResetKinematics | sdr_gnss_ui_v_10_tcp_only.py:566-570 | The NMEA reader's prologue clears the latch, the previous sample and `max_jerk`. It keeps the clock, `first_time`, the speed text and the plot. |
| Readers.NmeaReader | sdr_gnss_ui_v_10_tcp_only.py:564-618 | The NMEA reader queues at most one entry, always an error. When stop is already set, it only resets the kinematics. |
| LegacyReader.ParseNmeaSentence | SDR_GNSS_UI.py:579-587 | The label changes exactly when there are at least 8 fields and field 2 is `A`. The speed shown is field 7 times 0.514444. `N/A` is shown exactly when field 7 is not a number. |
| LegacyReader.ParseOfFields | SDR_GNSS_UI.py:580-587 | For an assembled sentence, the status field decides whether anything changes, and field 7 gives the speed. |
| LegacyReader.ParseOfSplit | SDR_GNSS_UI.py:580-587 | The same, for any sentence in terms of its comma fields. |
| LegacyReader.Dispatch | SDR_GNSS_UI.py:557-560 | Only `$GPRMC`/`$GNRMC` lines reach the parser: a batch without one changes no label. |
| LegacyReader.DispatchConcat | SDR_GNSS_UI.py:557-560 | Dispatching two batches is dispatching each in turn. |
| LegacyReader.LegacyConnect | SDR_GNSS_UI.py:546-573 | Exactly a refusal is retried, and exactly another exception fails. Data is returned exactly when the flag is up and the first chunk decodes to something. It is then that chunk, and every RMC line in it has been parsed. Otherwise nothing is returned and no label is set. |
| LegacyReader.ReadNmeaData | SDR_GNSS_UI.py:542-573 | At most 5 attempts and at most one queued entry, which is an error. |
| LegacyReader.LegacyGivesUp | SDR_GNSS_UI.py:563-569 | Five refusals make 5 attempts with 4 sleeps and queue the one give-up message. They return nothing and set no label. |
| LegacyReader.RefusalsReturnNothing | SDR_GNSS_UI.py:546-569 | A run of refusals up to the last attempt leaves the state as it was, except that nothing is returned. |
| LegacyReader.GiveUpReason | SDR_GNSS_UI.py:567-569 | The give-up event carries the reason of the last attempt. |
| LegacyReader.LegacyFirstChunk | SDR_GNSS_UI.py:550-561 | A first connection with data returns that data after dispatching its RMC lines, with one attempt, no sleep and no error. |
| Tracking.SequenceAt | sdr_gnss_ui_v_10_tcp_only.py:755 | A match of the colour/cursor pattern starts with ESC, has at least 3 characters and ends in `m` or `A`. Text not starting with ESC has no match. |
| Tracking.StripSgr | sdr_gnss_ui_v_10_tcp_only.py:755 | A colour sequence (section 8.3.117 of ECMA-48) in front of the text is removed whole. |
| Tracking.StripPlainPrefix | sdr_gnss_ui_v_10_tcp_only.py:755 | Text free of escapes passes through unchanged, and what follows it is stripped on its own. |
| Tracking.StripAnsi | sdr_gnss_ui_v_10_tcp_only.py:755 | The result is no longer than the text, and text without `ESC` is left as it is. |
| Tracking.StripDeletes | sdr_gnss_ui_v_10_tcp_only.py:755 | The removal only deletes: the result's characters are among the text's, counted with multiplicity. |
| Tracking.StripNotIdempotent | sdr_gnss_ui_v_10_tcp_only.py:755 | A single removal pass can leave a new sequence behind: stripping twice differs from stripping once. |
| Tracking.Classify | sdr_gnss_ui_v_10_tcp_only.py:755-760 | A line is skipped exactly when it cleans to nothing or holds the header. A kept line goes to position parsing exactly when it matches the date pattern. It goes to satellite parsing exactly when it matches the tracking pattern and not the date pattern. Otherwise it is ignored. |
| Tracking.TrackChannel | sdr_gnss_ui_v_10_tcp_only.py:760 | A line the tracking pattern matches starts with a token of ASCII digits, its CH. |
| Tracking.DateFirst | sdr_gnss_ui_v_10_tcp_only.py:758-760 | A date-prefixed line is routed to the position parser even if it also matches the tracking pattern. |
| Tracking.ClassifyColoured | SDR_GNSS_UI.py:461-467 | A leading colour sequence does not change how a line is routed. |
| Tracking.ParseSatellite | SDR_GNSS_UI.py:517-537 | A row parses exactly when it has at least 16 whitespace tokens. It is then tokens 0, 2, 3, 4, 5, 6, 8, 9, 12, 14 and 15. |
| Tracking.ParseSatelliteLayout | SDR_GNSS_UI.py:519-537 | The parsed row depends only on the tokens, not on how they are spaced. |
| Tracking.LegacyPosition | SDR_GNSS_UI.py:485-515 | Below 12 tokens nothing happens and no label is written. From 12 tokens on the labels are written: with the fix styling exactly when the latitude is not `0.00000000` and the time differs from `old_time`, and as a plain repeat otherwise. With 12 or 13 tokens it then raises at `parts[12]`/`parts[13]` and `old_time` is kept. Otherwise `old_time` becomes token 1. |
| Tracking.RepeatIsNoFix | SDR_GNSS_UI.py:496-515 | Repeating a complete position line is never a new fix the second time. |
| Consumer.Parsed | sdr_gnss_ui_v_10_tcp_only.py:760-762 | A tuple comes only from a line routed as a satellite row with at least 16 tokens, and its CH is a number `int()` accepts. |
| Consumer.Store | sdr_gnss_ui_v_10_tcp_only.py:763-767 | The tuple is stored under (CH, SIG, PRN), overwriting in place, and other keys are untouched. The refresh flag is set. One `update_ui` is scheduled exactly when none was pending. |
| Consumer.Consume | sdr_gnss_ui_v_10_tcp_only.py:754-767 | A queued line changes the buffer only when it parses as a satellite row. Only a position line can raise, and it hands the cleaned line to the position handler. The refresh is scheduled at most once. |
| Consumer.Drain | sdr_gnss_ui_v_10_tcp_only.py:751-772 | A drain takes every item unless an exception ends it after some item. Without a pending refresh, the buffer is unchanged. Buffer keys stay unique, and a buffer whose tuples all have a numeric CH keeps that. |
| Consumer.DrainStopsAtPosition | SDR_GNSS_UI.py:457-480 | The last item taken by an interrupted drain is a position line whose handler raised. |
| Consumer.ProcessQueue | sdr_gnss_ui_v_10_tcp_only.py:748-775 | When not running, nothing happens and no tick is rescheduled. Otherwise the next tick is always scheduled. What stays queued is a suffix of the queue, shorter than it whenever anything stays. |
| Consumer.LeftoverAfterPosition | SDR_GNSS_UI.py:457-483 | Items stay queued only behind a position line whose handler raised. They wait for the next tick. |
| Consumer.PutAllLast | sdr_gnss_ui_v_10_tcp_only.py:763-764 | After storing a run of tuples, a key holds the last tuple stored under it, or its old value when none was. |
| Consumer.DrainStoresAll | sdr_gnss_ui_v_10_tcp_only.py:752-769 | A tick that runs to the end leaves the buffer as storing every parsed satellite tuple of the queue in order would. |
| Consumer.DrainConcat | sdr_gnss_ui_v_10_tcp_only.py:752-769 | A tick over two batches is a tick over the first followed, unless it was interrupted, by a tick over the second. |
| Consumer.DrainIgnored | sdr_gnss_ui_v_10_tcp_only.py:756-760 | Lines that are neither position nor satellite rows change nothing. |
| Consumer.LetterFirst | sdr_gnss_ui_v_10_tcp_only.py:758-760 | A line starting with a capital letter is neither a position nor a satellite row. |
| Consumer.ErrorsIgnored | sdr_gnss_ui_v_10_tcp_only.py:754-760 | The readers' error events are never taken for telemetry: the tag is not examined, and the message leaves the consumer as it was. |
| Nmea.UtcSeconds | sdr_gnss_ui_v_10_tcp_only.py:919-930 | An accepted time of day lies in [0, 86400). |
| Nmea.ParseGga | sdr_gnss_ui_v_10_tcp_only.py:909-931 | Four `None`s exactly when there are fewer than 10 fields. Any time returned lies in [0, 86400). |
| Nmea.ClockTime | sdr_gnss_ui_v_10_tcp_only.py:919-928 | Six digits `HHMMSS` parse exactly when H < 24, M < 60 and S < 60, and then to H·3600 + M·60 + S. |
| Nmea.ClockFractionTime | sdr_gnss_ui_v_10_tcp_only.py:920-922 | A valid `HHMMSS` followed by `.` and one to six digits parses to the clock seconds plus the decimal fraction. |
| Nmea.GgaTimeOfFields | sdr_gnss_ui_v_10_tcp_only.py:910-931 | For a sentence of at least 10 fields, the result is fields 2, 4 and 9 and the time parsed from field 1. |
| Nmea.RmcSpeed | sdr_gnss_ui_v_10_tcp_only.py:902-907 | A speed is returned exactly when there are at least 12 fields, and it is one comma-free field. |
| Nmea.VtgSpeed | sdr_gnss_ui_v_10_tcp_only.py:895-900 | A speed is returned exactly when there are at least 8 fields, and it is one comma-free field. |
| Nmea.SpeedOfFields | sdr_gnss_ui_v_10_tcp_only.py:895-907 | Both speed parsers return field 7 of an assembled sentence, RMC only when it has 12 fields. |
| Kinematics.Derive | sdr_gnss_ui_v_10_tcp_only.py:877-878 | The acceleration times Δt is the change in speed. The jerk times Δt is the change in acceleration. |
| Kinematics.NoteFirstGga | sdr_gnss_ui_v_10_tcp_only.py:852-857 | The first GGA line sets `statusGGA` and takes its time as `first_time`. Any other line, or any line once `statusGGA` is set, changes nothing. |
| Kinematics.SelectSpeed | sdr_gnss_ui_v_10_tcp_only.py:866-871 | Only the latch and the speed text may change, and a set latch never changes. |
| Kinematics.Sample | sdr_gnss_ui_v_10_tcp_only.py:872-891 | A sample keeps the latch, the speed text, the GGA flag, `first_time` and the clock. `max_jerk` never decreases. The plot changes only when a sample is stored: that sample becomes the reference, and its speed is plotted last. |
| Kinematics.Advance | sdr_gnss_ui_v_10_tcp_only.py:875-884 | A sample on an advanced clock raises exactly when `first_time` is unset, and a raise leaves the plot alone. Otherwise it plots (v, a, j) at `current_utc − first_time` while the window is not full. On a full window the plotted time also loses the window's base, as the code's rebase does. |
| Kinematics.ProcessLine | sdr_gnss_ui_v_10_tcp_only.py:847-893 | A set latch never changes, `max_jerk` never decreases, and `statusGGA` is set once any line names GGA. A GGA line leaves the plot alone. A changed plot means a sample was stored without a raise and became the reference at the current time. |
| Kinematics.LatchFromUnset | sdr_gnss_ui_v_10_tcp_only.py:866-871 | From unset, an RMC line latches RMC and a VTG line latches VTG, each taking its own speed field. Any other line leaves the latch and the speed as they were. |
| Kinematics.OtherSourceIgnored | sdr_gnss_ui_v_10_tcp_only.py:866-871 | Once latched, lines of the other source never change the latch or the speed. |
| Kinematics.GgaNoSample | sdr_gnss_ui_v_10_tcp_only.py:858-864 | A GGA line produces no sample: only `statusGGA`, `first_time` and the clock change. The clock takes the GGA time when there is one. |
| Kinematics.NoGgaSamples | sdr_gnss_ui_v_10_tcp_only.py:866-891 | A line without GGA is the speed selection followed by the sampling step. |
| Kinematics.SampleDifferences | sdr_gnss_ui_v_10_tcp_only.py:873-884 | With Δt > 0.001: v = knots·0.5144444, a = (v − v_old)/Δt, j = (a − a_old)/Δt. `max_jerk` takes j into account, and v, a and the time become the reference sample. The plot receives (v, a, j). |
| Kinematics.SmallStepNoChange | sdr_gnss_ui_v_10_tcp_only.py:873-875 | With Δt ≤ 0.001 nothing changes. |
| Kinematics.FirstSample | sdr_gnss_ui_v_10_tcp_only.py:885-891 | The first sample plots (v, 0, 0) and becomes the reference, with zero acceleration. |
| Kinematics.RunMonotone | sdr_gnss_ui_v_10_tcp_only.py:866-879 | Over any run of lines the latch changes at most once, from unset, and `max_jerk` never decreases. |
| Kinematics.DeriveUniform | sdr_gnss_ui_v_10_tcp_only.py:877-878 | Under uniform acceleration since the reference sample, the differences give that acceleration again and zero jerk. |
| Kinematics.AdvanceDerives | sdr_gnss_ui_v_10_tcp_only.py:877-879 | A sample stores the two finite differences and folds the jerk into `max_jerk`, whether or not it then raises. |
| Kinematics.SteadySpeed | sdr_gnss_ui_v_10_tcp_only.py:875-879 | A steady speed after a reference with zero acceleration gives zero acceleration and jerk, and `max_jerk` is then at least 0. |
| Stats.Evict | sdr_gnss_ui_v_10_tcp_only.py:970-971 | A buffer of 1000 or more loses its oldest entry. A shorter one is kept. |
| Stats.EvictAppendLatest | sdr_gnss_ui_v_10_tcp_only.py:970-972 | Evicting before appending keeps the buffer equal to the newest 1000 values ever appended. |
| Stats.PopOldest | sdr_gnss_ui_v_10_tcp_only.py:935-937 | A full latitude buffer loses its oldest latitude and its oldest longitude, leaving room for one more. |
| Stats.Record | sdr_gnss_ui_v_10_tcp_only.py:939-950 | The latitude is appended when field 2 parses. The longitude is appended only when field 3 parses as well. The CEP is 0 when either fails or fewer than 10 samples are held. Otherwise it raises exactly when `geodesic` meets a paired or mean latitude outside [-90, 90], and when it does not, the CEP is the median distance of the new buffers (`CepOf`). |
| Stats.CalculateCep | sdr_gnss_ui_v_10_tcp_only.py:933-950 | A full latitude buffer with an empty longitude buffer raises, with only the oldest latitude popped. Otherwise it evicts and then records, which raises only in `geodesic`. The speeds are never touched. |
| Stats.CepInRange | sdr_gnss_ui_v_10_tcp_only.py:933-950 | While every latitude lies within [-90, 90], it raises exactly when the latitude buffer is full and the longitude buffer is empty. |
| Stats.CepOutOfRange | sdr_gnss_ui_v_10_tcp_only.py:939-948 | With paired buffers of at least 10 samples, a latitude outside [-90, 90] raises, after both coordinates are appended. |
| Stats.CepOf | sdr_gnss_ui_v_10_tcp_only.py:946-949 | At least half of the paired distances from the mean point are at most the CEP, and at least half are at least it. |
| Stats.CepWindow | sdr_gnss_ui_v_10_tcp_only.py:935-941 | When every fix's fields parse, both buffers are the newest 1000 coordinates, whether or not `geodesic` then raises. |
| Stats.CalculateVrms | sdr_gnss_ui_v_10_tcp_only.py:968-974 | The newest speed is appended after eviction, so the buffer is non-empty and ends in it. The value is the mean square of the new buffer, so it is non-negative. |
| Stats.VrmsConstant | sdr_gnss_ui_v_10_tcp_only.py:973 | A buffer that holds a single speed value throughout reports that speed's square. |
| Stats.VrmsWindow | sdr_gnss_ui_v_10_tcp_only.py:970-972 | The speed buffer is the newest 1000 speeds handed to it. |
| Stats.ResetCep | sdr_gnss_ui_v_10_tcp_only.py:952-966 | After a reset the speeds are exactly the current speed and the CEP plot is empty. The latitudes are re-seeded with `float(parts[2])` when it parses, and are otherwise empty. The longitudes are re-seeded with `float(parts[3])` when both fields parse, and are otherwise empty. |
| Stats.ResetForgets | sdr_gnss_ui_v_10_tcp_only.py:952-966 | The buffers and the plot after a reset do not depend on what they held before. |
| Percentile.Sort | sdr_gnss_ui_v_10_tcp_only.py:949 | The sorted sample is ascending and a permutation of the sample. |
| Percentile.Median | sdr_gnss_ui_v_10_tcp_only.py:949 | At least half the sample is at most the 50th percentile and at least half is at least it. For an odd count it is a sample value. |
| Percentile.MedianOfSorted | sdr_gnss_ui_v_10_tcp_only.py:949 | For any ascending arrangement of the sample, the percentile is the middle entry for an odd count and the midpoint of the two middle entries for an even count. |
| Percentile.MedianPermutation | sdr_gnss_ui_v_10_tcp_only.py:948-949 | The percentile depends only on the multiset of distances, not on their order. |
| Percentile.SortedUnique | sdr_gnss_ui_v_10_tcp_only.py:949 | There is only one ascending arrangement of a sample. |
| PlotWindow.Newest | sdr_gnss_ui_v_10_tcp_only.py:1014 | Keeps the newest 500 entries in order. |
| PlotWindow.AppendAsWritten | sdr_gnss_ui_v_10_tcp_only.py:1002-1016 | The window never holds more than 500 points, and the new value is last. Until the window is full it agrees with the corrected append. On a full window the rebased times start at 0, and the newest stored time plus the new base is the sample time minus the old base. |
| PlotWindow.Append | sdr_gnss_ui_v_10_tcp_only.py:1002-1016 | The corrected append: at most 500 points, the newest plotted at its own time relative to the base, and a rebased window starting at 0. |
| PlotWindow.AppendShows | sdr_gnss_ui_v_10_tcp_only.py:1002-1016 | The corrected window always shows exactly the newest 500 samples, each at its own time. |
| PlotWindow.AsWrittenGap | sdr_gnss_ui_v_10_tcp_only.py:1010-1016 | On a full window as written, the second of two appends is plotted shifted by the old base: the plotted gap is the true gap plus the base time. |
| PlotWindow.AppendGap | sdr_gnss_ui_v_10_tcp_only.py:1002-1016 | In the corrected window the plotted gap between consecutive samples is their true gap. |
| PlotWindow.AsWrittenCounterexample | sdr_gnss_ui_v_10_tcp_only.py:983-989 | A full window with base 1, then samples at 501 and 502: as written they are plotted 2 s apart, corrected 1 s apart. |
| PositionFix.ParsePositionStatus | sdr_gnss_ui_v_10_tcp_only.py:777-819 | Tokens are kept in `parts`. Below 12 tokens nothing else happens; with 12 or 13 it raises and keeps the buffers. `pvtStatus` is set exactly on a new fix. Without a raise, `old_time` becomes token 1. A repeated fix keeps `vrms` and the speeds. From 14 tokens the coordinate buffers are those `calculate_cep` leaves. Unless `calculate_cep` ran and did not raise, `cep` and `vrms` keep their values. Without a raise `cep` is `calculate_cep`'s value and, on a new fix, `vrms` is `calculate_vrms`'s. Without a raise the plot ends with (CEP, RMS) at `current_utc − first_time` while the window is not full. On a full window that time also loses the window's base. |
| PositionFix.FixStatistics | sdr_gnss_ui_v_10_tcp_only.py:794-819 | The statistics succeed exactly when `calculate_cep` does not raise and `first_time` is set. The coordinate buffers are those `calculate_cep` leaves. When it raises, `cep` and `vrms` keep their values; otherwise `cep` is its value. Only a new fix records a speed, and then `vrms` is the mean square of the new speed buffer. The plot point is (CEP, RMS) at `current_utc − first_time` while the window is not full, and that time minus the window's base once it is full. |
| PositionFix.RepeatFeedsCep | sdr_gnss_ui_v_10_tcp_only.py:814-818 | A repeated fix (same time as the last) still evicts and appends its latitude, and its longitude when that parses, to the CEP buffers. Without a raise it plots the new CEP beside the previous RMS velocity. |
| PositionFix.PlotStatistics | sdr_gnss_ui_v_10_tcp_only.py:800-801 | The plot step raises exactly when `first_time` is unset, and a raise changes nothing. Otherwise it plots (CEP, RMS) last and sets `old_time`. While the window is not full the point's time is the time since `first_time`; once it is full that time also loses the window's base. Nothing else changes. |
| PositionFix.NewFixPlotted | sdr_gnss_ui_v_10_tcp_only.py:794-801 | A new fix with a clock reference raises exactly when `calculate_cep` does. Otherwise it appends the speed, and `vrms` is the mean square of the new speed buffer. `cep` is the median distance of the new coordinate buffers (`CepOf`), or 0 when a field fails or fewer than 10 samples are held. Both are plotted. The time is the time since `first_time` while the window is not full, and that time minus the window's base once it is full. |
| Table.ReadBack | SDR_GNSS_UI.py:596-600 | A shown value reads back as a string exactly when `int()` rejects it, and then as the string stored. |
| Table.ProbeFindsOwn | SDR_GNSS_UI.py:596-608 | A buffered tuple's lookup key equals the key its own shown row is filed under exactly when its CH, SAT and SIG all read back as strings. |
| Table.ProbeHit | SDR_GNSS_UI.py:596-608 | A lookup can only find a shown row whose CH, SAT and SIG read back as strings, and then they are the strings looked up. |
| Table.TagOf | SDR_GNSS_UI.py:605 | The stripe is `evenrow` exactly for an even index. |
| Table.UpdateRow | SDR_GNSS_UI.py:609 | Only the row with the item id changes, to the new values and stripe, in place. |
| Table.DeleteAll | SDR_GNSS_UI.py:615-616 | Exactly the rows whose id is listed disappear. The others keep their order. |
| Table.Visit | SDR_GNSS_UI.py:605-612 | One buffered row yields one operation: an update exactly when its key is still a candidate, an insert otherwise. |
| Table.UpdateTable | SDR_GNSS_UI.py:594-616 | One operation per buffered row in order, then only deletions. Item ids are never reused. |
| Table.UpdateTableStores | SDR_GNSS_UI.py:594-616 | Every buffered row ends up shown, with its values and stripe. The item ids the pass touches are distinct, so no row is updated twice. |
| Table.UpdateTableKeys | SDR_GNSS_UI.py:594-616 | When every buffered key reads back unchanged and the keys are distinct, the keys shown are exactly the buffered ones, each once. A buffered row is updated exactly when its key was shown. Every deletion removes an old row whose key is no longer buffered. |
| Table.UpdateTableIdempotent | SDR_GNSS_UI.py:596-616 | When every buffered key reads back unchanged, a second pass over the same buffer leaves the table as it is: only updates, no insert, no delete. |
| Table.Reinserts | SDR_GNSS_UI.py:594-616 | When every shown row has a numeric CH, no lookup hits: every buffered row is inserted, in order, under fresh item ids, and then every candidate row is deleted. Nothing is updated. |
| Table.RefreshReplaces | sdr_gnss_ui_v_10_tcp_only.py:1053-1069 | On a table of numeric-CH rows with distinct keys, a refresh deletes every shown row, in display order, after inserting the buffer. The table then holds exactly the buffered rows, striped by position, under the next item ids. |
| Table.AppendedShows | sdr_gnss_ui_v_10_tcp_only.py:1059-1066 | The re-inserted rows have distinct item ids below the next one. They show exactly the buffered keys, each once when the buffered keys are distinct. |
| Table.DuplicateKeysGrow | sdr_gnss_ui_v_10_tcp_only.py:1053-1069 | Two buffered tuples with one (CH, SAT, SIG) give two rows. The next refresh gives three, whether or not their key values read back unchanged. |
| GsvAdjust.Clamp | sdr_gnss_ui_v_10_tcp_only.py:698-699 | The result is a whole number in 0..99. It is 0 for non-positive input, 99 from 99 up, and otherwise the floor. |
| GsvAdjust.AdjustSnr | sdr_gnss_ui_v_10_tcp_only.py:693-701 | A field `float` rejects is returned unchanged. A numeric one becomes one or two decimal digits. |
| GsvAdjust.AdjustSnrValue | sdr_gnss_ui_v_10_tcp_only.py:695-699 | The new field reads back as the clamped, jittered value, in [0, 99]. Away from the bounds it lies within one of the old value (above it by at most 1, below it by less than 2). |
| GsvAdjust.AdjustFields | sdr_gnss_ui_v_10_tcp_only.py:668-671 | The field count is kept. Fields 7, 11, 15, … are adjusted and every other field is unchanged. |
| GsvAdjust.AdjustLine | sdr_gnss_ui_v_10_tcp_only.py:665-684 | A line without `GSV` is copied with CR LF. A GSV line is its rebuilt body, `*`, the checksum in `%02X`, and CR LF. |
| GsvAdjust.NmeaAdjustment | sdr_gnss_ui_v_10_tcp_only.py:660-663 | Empty or all-whitespace received text gives an empty result. |
| GsvAdjust.NmeaAdjustmentLines | sdr_gnss_ui_v_10_tcp_only.py:660-691 | Text that is lines without line boundaries joined by `\n`, with no whitespace at either end, gives each line adjusted in turn, concatenated in order. When no line mentions GSV, that is each line ended with CR LF. |
| Text.SplitLinesJoin | sdr_gnss_ui_v_10_tcp_only.py:663 | `splitlines` gives back lines joined by `\n` when no line holds a line boundary and the last is not empty. |
| Text.StripAllSpace | sdr_gnss_ui_v_10_tcp_only.py:663 | `strip()` leaves nothing exactly when the text is all whitespace. |
| GsvAdjust.XorAllBound | sdr_gnss_ui_v_10_tcp_only.py:673-675 | Over 8-bit characters the checksum fits in one byte. |
| GsvAdjust.GsvSentence | sdr_gnss_ui_v_10_tcp_only.py:666-676 | The rebuilt body splits back into the adjusted fields, with the field count kept and every non-SNR field unchanged. The emitted sentence passes a receiver's checksum test. |
| Numeric.Hex02Value | sdr_gnss_ui_v_10_tcp_only.py:676 | The checksum printed with `%02X` reads back as the checksum. |
| Numeric.ParseFormatNat | sdr_gnss_ui_v_10_tcp_only.py:699 | What `str(int(x))` writes reads back through `float` as the same number. |
| Command.ExecutableName | SDR_GNSS_UI.py:321 | The name neither starts with `.` or `/` nor ends in `.`, `e` or `x`. An empty name means every character was one of those. |
| Command.ExecutableNameOf | SDR_GNSS_UI.py:321 | Any run of leading dots and slashes and any run of trailing dots, `e`s and `x`s is removed from a stem, whatever the runs are. |
| Command.StemEndingInX | SDR_GNSS_UI.py:321 | The strip works on characters, not on a suffix: `./ubx` and `./ub.exe` both normalise to `ub`. |
| Command.PathJoin | SDR_GNSS_UI.py:323 | An absolute name replaces the base. Otherwise the result starts with the base, ends with the name and has at most one separator between them. |
| Command.ValidateCommand | SDR_GNSS_UI.py:320-327 | An empty command fails. The command is accepted exactly when the plain or the `.exe` candidate is a file, preferring the plain one. The first word then becomes a path under the base and the rest is kept. Otherwise the not-found message names the normalised name and the base. |
| Command.FirstFile | SDR_GNSS_UI.py:322-327 | The candidates are tried in order and the first existing one is taken. Rejection means none exists. |
| Session.ResetFlags | sdr_gnss_ui_v_10_tcp_only.py:489-503 | The flags and the statistics are reset. The buffer, the table, the queue, the latch, the speed text and the plot are kept. |
| Session.ClearData | sdr_gnss_ui_v_10_tcp_only.py:1121-1139 | The buffer and the table are emptied and both plots start afresh. Everything else is kept. |
| Session.StartTcpReaders | sdr_gnss_ui_v_10_tcp_only.py:417-466 | Everything derived starts afresh: the flags, the latch, the reference sample, the statistics, the buffer, the table, both plots and the queue. The speed text, `max_jerk` and `old_time` survive. |
| Session.StopAll | sdr_gnss_ui_v_10_tcp_only.py:468-503 | `running` is cleared and the statistics are emptied. The buffer, the table, the queue, the latch and the plots are kept. |
| Session.StopThenStart | sdr_gnss_ui_v_10_tcp_only.py:417-503 | Restarting needs no stop first: stop then start equals start. |
| Session.StartIdempotent | sdr_gnss_ui_v_10_tcp_only.py:417-442 | Starting twice is starting once. |
| Session.RestartKeepsOldTime | sdr_gnss_ui_v_10_tcp_only.py:780 | After a restart, a position line with the time last seen before it is not a new fix. |
| Session.UpdateUi | sdr_gnss_ui_v_10_tcp_only.py:1048-1051 | Only the table changes, and the refresh flag is cleared. |
| Session.UpdateUiShows | sdr_gnss_ui_v_10_tcp_only.py:1048-1069 | After a refresh the table is exactly the buffered tuples in buffer order, under fresh item ids: every earlier row was deleted. It shows the buffered (CH, SAT, SIG)s, each once, provided no two buffered tuples share one. |
| Session.GuiTick | sdr_gnss_ui_v_10_tcp_only.py:748-775 | The next tick is scheduled exactly while running. Every scheduled refresh has run by the end of the tick. The queue keeps a suffix. |
| Session.TickKeepsFresh | sdr_gnss_ui_v_10_tcp_only.py:748-775 | A tick keeps the table showing the buffer when no refresh is pending, given distinct table keys. |

## Left out

- Tk and matplotlib presentation is not modelled: widgets, label texts and colours, tooltips, column resizing, `update_plot`'s bar chart, and every `draw`. `clear_data`'s label resets are among these.
- Threads, the `Queue` and `threading.Event` are not modelled; the races between the reader threads and the GUI are out of scope. The queue is a sequence. Each reader runs to completion on the outcomes of its attempts.
- Sockets, `time.sleep`, serial output, COM-port listing, log files, `subprocess` and the receiver process, and the `ctypes` library load are not modelled. They are I/O; sleeps are counted instead.
- `sim_data.py` is not part of this model; it is a file-replaying TCP server.
- The geodesic distance is a function parameter, because geopy is foreign code. Only its `ValueError` for a latitude outside [-90, 90] is modelled (`Stats.GeodesicRaises`); a longitude out of range is wrapped by geopy, inside the distance.
- Floating point is not modelled. Arithmetic is exact over `real`, so there is no IEEE rounding, and `float('-inf')` is a distinguished `None`.
- Numeric.ParseFloat: accepts only the decimal notation `[sign] digits [. digits]` with surrounding whitespace. Exponents, `inf`, `nan`, underscores and non-ASCII digits are treated as not numeric.
- Nmea.UtcSeconds: accepts only well-formed `HHMMSS` and `HHMMSS.f` with one to six fraction digits. `strptime`'s leniency about one-digit fields is not modelled.
- Stats.CalculateVrms: reports the mean square, not its square root, because `sqrt` is foreign numerics.
- Stats.CepOf: states the median property (half of the distances on either side), not the interpolation formula itself (`Percentile.MedianOfSorted` states that). An empty longitude buffer is unreachable from `Stats.Record`; it gives 0 here.
- Readers.Connect: the message of an exception raised by the line handler is not modelled (the event text is empty).
- Readers.TrackingReader: the UTF-8 decoding is a parameter.
- Tracking.Classify: `\d` in the date and tracking patterns is modelled as the ASCII digits `0`-`9`. Python also matches other Unicode decimal digits there, and the tracking stream is decoded as UTF-8.
- Command.PathJoin: only the POSIX `os.path.join` is modelled. On Windows, which the older build targets, `ntpath.join` puts a backslash between the parts and also treats drive letters and `\` as anchors.
- GsvAdjust.XorAllBound: stated only for characters below 256. The rebuilt body may hold wider characters when the input does, and the model keeps them.
- GsvAdjust.NmeaAdjustment: the jitter `random.randint(-1, 1)` is a parameter, chosen per line and field. The log-file copy is not modelled.
- Session.UpdateUi: `update_plot` is not modelled, and neither is the older build's scroll to the last row.
- Session.StartTcpReaders: the log-file open and its early return are modelled only as the flag `logOk`.
- `cep_status` is assigned but never read, so it is not modelled.
- The two assignments of `last_processed_time` in `start_tcp_readers` are not both modelled: the reader's reset to `None` is taken, as the reader thread runs after them.
- Table.UpdateTable: Tkinter's read-back is modelled as `int()` on a sign and ASCII digits. `int()`'s acceptance of surrounding whitespace, `_` between digits and non-ASCII digits is not modelled; a satellite row's values are whitespace-free tokens.
- Table.UpdateTableKeys: its update-or-insert and deletion claims are stated only when every buffered key reads back as the string stored (`AllReadBack`). For tracking rows the shown keys are stated by `Table.RefreshReplaces` and `Table.AppendedShows` instead.
- Table.UpdateTableIdempotent: holds only when every buffered key reads back as the string stored (`AllReadBack`). Tracking rows never meet this, as their CH is numeric; what a refresh actually does to them is `Table.RefreshReplaces`.
- Table.DuplicateKeysGrow: stated for two tuples sharing a key, from an empty table, over two refreshes. Longer runs of duplicates are not stated.
- `read_nmea_data` of the TCP build is an empty placeholder, so it is not modelled.

## Findings

| source | as written | input that shows it | evidently intended | confidence | as-written member | corrected member |
|---|---|---|---|---|---|---|
| sdr_gnss_ui_v_10_tcp_only.py:1010-1016 | After the window overflows, `initial_time` is set to the first kept point's stored time, which is already relative to the old base. Later samples are then offset by the wrong base. | A full window of 500 points whose base is 1 s, followed by samples at 501 s and 502 s: they are plotted 2 s apart. | Every stored time plus the base is the sample's own time, so consecutive samples keep their true gap. | not executed | PlotWindow.AsWrittenCounterexample | PlotWindow.AppendGap |
| sdr_gnss_ui_v_10_tcp_only.py:983-989 | The same rebase in `update_cep_err_plot`. | The same input. | The same. | not executed | PlotWindow.AsWrittenGap | PlotWindow.AppendShows |

`Kinematics.Sample`, `Kinematics.Advance` and `PositionFix.FixStatistics` use
the window as written, `PlotWindow.AppendAsWritten`, so their contracts state
the time of a plotted point separately for a window that is not yet full and
for a full one. The corrected `PlotWindow.Append` states the intended
behaviour next to it.

=== FILE: command.dfy ===
/** `validate_command` of the legacy build: the executable named by the
    first word of the command is looked for under the application's base
    path, first under its own name and then with `.exe` appended. The name
    is normalised with two character-set strips, so any run of leading dots
    and slashes, and any run of trailing dots, `e`s and `x`s, is removed. */
module Command {
  import opened Wrappers
  import opened Text

  /** `lstrip("./")` drops these characters from the front. */
  const LeadDrop: set<char> := {'.', '/'}

  /** `rstrip(".exe")` drops these characters from the back. */
  const TrailDrop: set<char> := {'.', 'e', 'x'}

  /** The normalised executable name. */
  function ExecutableName(arg0: string): (name: string)
    ensures |name| <= |arg0|
    ensures |name| > 0 ==> name[0] !in LeadDrop && name[|name| - 1] !in TrailDrop
    ensures |name| == 0 ==> forall i :: 0 <= i < |arg0| ==> arg0[i] in LeadDrop + TrailDrop
  {
    RStrip(LStrip(arg0, LeadDrop), TrailDrop)
  }

  /** A name made of leading dots and slashes, a stem that neither starts
      with one nor ends in a dot, `e` or `x`, and trailing dots, `e`s and
      `x`s normalises to the stem, whatever the two runs are. */
  lemma ExecutableNameOf(lead: string, stem: string, trail: string)
    requires forall i :: 0 <= i < |lead| ==> lead[i] in LeadDrop
    requires |stem| > 0 && stem[0] !in LeadDrop && stem[|stem| - 1] !in TrailDrop
    requires forall i :: 0 <= i < |trail| ==> trail[i] in TrailDrop
    ensures ExecutableName(lead + stem + trail) == stem
  {
    LStripOf(lead, stem + trail, LeadDrop);
    assert lead + stem + trail == lead + (stem + trail);
    RStripOf(stem, trail, TrailDrop);
  }

  /** A prefix of dropped characters in front of a part that starts with a
      kept one is exactly what `lstrip` removes. */
  lemma LStripOf(lead: string, rest: string, drop: set<char>)
    requires forall i :: 0 <= i < |lead| ==> lead[i] in drop
    requires |rest| > 0 && rest[0] !in drop
    ensures LStrip(lead + rest, drop) == rest
  {
    var s := lead + rest;
    var r := LStrip(s, drop);
    assert forall i :: 0 <= i < |lead| ==> s[i] == lead[i];
    assert s[|lead|] == rest[0];
    assert r == s[|lead|..] == rest;
  }

  /** A suffix of dropped characters after a part that ends in a kept one
      is exactly what `rstrip` removes. */
  lemma RStripOf(body: string, trail: string, drop: set<char>)
    requires |body| > 0 && body[|body| - 1] !in drop
    requires forall i :: 0 <= i < |trail| ==> trail[i] in drop
    ensures RStrip(body + trail, drop) == body
  {
    var s := body + trail;
    var r := RStrip(s, drop);
    assert forall i :: |body| <= i < |s| ==> s[i] == trail[i - |body|];
    assert s[|body| - 1] == body[|body| - 1];
    assert r == s[..|body|] == body;
  }

  /** The suffix strip is by characters: a stem ending in `e` or `x` loses
      those letters, so `./ubx` is looked for as `ub` and `ub.exe`. */
  lemma StemEndingInX(stem: string)
    requires |stem| > 0 && stem[0] !in LeadDrop && stem[|stem| - 1] !in TrailDrop
    ensures ExecutableName("./" + stem + "x") == stem
    ensures ExecutableName("./" + stem + ".exe") == stem
  {
    ExecutableNameOf("./", stem, "x");
    ExecutableNameOf("./", stem, ".exe");
  }

  /** `os.path.join(base, name)` on POSIX: an absolute `name` replaces the
      base; otherwise a separator is put between them unless the base is
      empty or already ends in one. */
  function PathJoin(base: string, name: string): (p: string)
    ensures |name| > 0 && name[0] == '/' ==> p == name
    ensures !(|name| > 0 && name[0] == '/') ==>
      && |base| + |name| <= |p| <= |base| + |name| + 1
      && p[..|base|] == base && p[|p| - |name|..] == name
  {
    if |name| > 0 && name[0] == '/' then name
    else if |base| == 0 || base[|base| - 1] == '/' then base + name
    else base + "/" + name
  }

  /** What `validate_command` reports: the command with its first word
      replaced by the full path, or the error message. */
  datatype Validation = Accepted(cmd: seq<string>) | Rejected(message: string)

  /** The error message for a name that has neither candidate. */
  function NotFound(name: string, base: string): string
  {
    "Executable '" + name + "' not found at " + base + ". Please verify the path."
  }

  /** `validate_command(cmd)` with `isFile` standing for `os.path.isfile`.
      An empty command raises on `cmd[0]`: `None` here. A normalised name
      never starts with `/`, so the path found always lies under the base. */
  function ValidateCommand(cmd: seq<string>, base: string, isFile: string -> bool): (r: Option<Validation>)
    ensures r.None? <==> |cmd| == 0
    ensures |cmd| > 0 ==>
      var name := ExecutableName(cmd[0]);
      var plain := PathJoin(base, name);
      var exe := PathJoin(base, name + ".exe");
      && (r.value.Accepted? <==> isFile(plain) || isFile(exe))
      && (r.value.Accepted? ==>
            && |r.value.cmd| == |cmd| && r.value.cmd[1..] == cmd[1..]
            && r.value.cmd[0] == (if isFile(plain) then plain else exe)
            && |r.value.cmd[0]| >= |base| && r.value.cmd[0][..|base|] == base)
      && (r.value.Rejected? ==> r.value.message == NotFound(name, base))
  {
    if |cmd| == 0 then None
    else
      var name := ExecutableName(cmd[0]);
      var candidates := [name, name + ".exe"];
      assert candidates[0] == name && candidates[1] == name + ".exe";
      Some(FirstFile(cmd, base, candidates, 0, isFile, name))
  }

  /** The `for exe_name in [...]` loop from candidate `i` on. */
  function FirstFile(cmd: seq<string>, base: string, candidates: seq<string>, i: nat,
                     isFile: string -> bool, name: string): (r: Validation)
    requires |cmd| > 0 && i <= |candidates|
    ensures r.Rejected? <==> forall j :: i <= j < |candidates| ==> !isFile(PathJoin(base, candidates[j]))
    ensures r.Rejected? ==> r.message == NotFound(name, base)
    ensures r.Accepted? ==>
      exists j :: && i <= j < |candidates| && isFile(PathJoin(base, candidates[j]))
                  && r.cmd == cmd[0 := PathJoin(base, candidates[j])]
                  && (forall k :: i <= k < j ==> !isFile(PathJoin(base, candidates[k])))
    decreases |candidates| - i
  {
    if i == |candidates| then Rejected(NotFound(name, base))
    else
      var full := PathJoin(base, candidates[i]);
      if isFile(full) then Accepted(cmd[0 := full])
      else FirstFile(cmd, base, candidates, i + 1, isFile, name)
  }
}

=== FILE: consumer.dfy ===
/** `process_queue`: the GUI side of the queue. Each tick drains the queue,
    skipping blank and header lines, sending date-stamped lines to the
    position handler and satellite lines to the satellite buffer, and
    schedules one table refresh for any number of buffered rows. An
    exception anywhere in the drain ends the tick; what is left waits for
    the next tick. The item's tag is not looked at. */
module Consumer {
  import opened Wrappers
  import opened Text
  import opened OrderedDict
  import opened Tracking
  import Readers

  /** The buffer key: tuple elements 0, 2 and 3, that is (CH, SIG, PRN). */
  datatype BufKey = BufKey(ch: string, sig: string, prn: string)

  function BufKeyOf(t: SatTuple): BufKey
  {
    BufKey(t.ch, t.sig, t.prn)
  }

  /** `sat_data_buffer`, `ui_update_scheduled`, how many `update_ui` calls
      have been scheduled, and the position handler's state. */
  datatype Consumer<P> = Consumer(buffer: Dict<BufKey, SatTuple>, scheduled: bool, uiCalls: nat, pos: P)

  /** What a tick leaves: the consumer, how many items it took off the
      queue, and whether an exception ended the drain. */
  datatype Tick<P> = Tick(c: Consumer<P>, taken: nat, interrupted: bool)

  /** Every buffered tuple has a numeric CH. */
  ghost predicate NumericChannels(buffer: Dict<BufKey, SatTuple>)
  {
    forall i :: 0 <= i < |buffer| ==> NumericChannel(buffer[i].1)
  }

  /** A parsed satellite tuple is stored under its key; a refresh is
      scheduled unless one already is. */
  function Store<P>(c: Consumer<P>, t: SatTuple): (r: Consumer<P>)
    ensures Get(r.buffer, BufKeyOf(t)) == Some(t)
    ensures forall k :: k != BufKeyOf(t) ==> Get(r.buffer, k) == Get(c.buffer, k)
    ensures UniqueKeys(c.buffer) ==> UniqueKeys(r.buffer)
    ensures r.scheduled && r.pos == c.pos
    ensures r.uiCalls == if c.scheduled then c.uiCalls else c.uiCalls + 1
    ensures NumericChannels(c.buffer) && NumericChannel(t) ==> NumericChannels(r.buffer)
  {
    var b := Put(c.buffer, BufKeyOf(t), t);
    PutEntries(c.buffer, BufKeyOf(t), t);
    if c.scheduled then c.(buffer := b) else c.(buffer := b, scheduled := true, uiCalls := c.uiCalls + 1)
  }

  /** The satellite tuple a queued line yields, if it is a satellite row
      that parses. */
  function Parsed(line: string): (t: Option<SatTuple>)
    ensures t.Some? ==> Classify(line) == Satellite && |Tokens(Clean(line))| >= 16
    ensures t.Some? ==> NumericChannel(t.value)
  {
    if Classify(line) == Satellite then
      TrackChannel(Clean(line));
      ParseSatellite(Clean(line))
    else None
  }

  /** One queued line: skipped, handed to the position handler, or parsed
      and stored as a satellite row. `raised` reports an exception. */
  function Consume<P>(c: Consumer<P>, line: string, onPosition: (P, string) -> Step<P>): (r: Step<Consumer<P>>)
    ensures r.raised ==> Classify(line) == Position
    ensures r.state.buffer == if Parsed(line).Some? then Put(c.buffer, BufKeyOf(Parsed(line).value), Parsed(line).value) else c.buffer
    ensures Parsed(line).None? ==> r.state.scheduled == c.scheduled && r.state.uiCalls == c.uiCalls
    ensures Parsed(line).Some? ==> r.state.scheduled
    ensures Classify(line) != Position ==> r.state.pos == c.pos && !r.raised
    ensures Classify(line) == Position ==> r == Step(c.(pos := onPosition(c.pos, Clean(line)).state), onPosition(c.pos, Clean(line)).raised)
    ensures c.scheduled ==> r.state.scheduled && r.state.uiCalls == c.uiCalls
    ensures !c.scheduled ==> r.state.uiCalls == if r.state.scheduled then c.uiCalls + 1 else c.uiCalls
    ensures UniqueKeys(c.buffer) ==> UniqueKeys(r.state.buffer)
    ensures NumericChannels(c.buffer) ==> NumericChannels(r.state.buffer)
  {
    match Classify(line)
    case Position =>
      var s := onPosition(c.pos, Clean(line));
      Step(c.(pos := s.state), s.raised)
    case Satellite =>
      (match ParseSatellite(Clean(line))
       case Some(t) => Step(Store(c, t), false)
       case None => Step(c, false))
    case _ => Step(c, false)
  }

  /** The `while True` loop over `get_nowait`. `onPosition` is the position
      handler on the cleaned line; its `raised` flag is an exception, which
      the outer `try` catches after the handler's partial effect. */
  function Drain<P>(c: Consumer<P>, q: seq<Readers.QueueItem>, onPosition: (P, string) -> Step<P>): (r: Tick<P>)
    ensures r.taken <= |q|
    ensures !r.interrupted ==> r.taken == |q|
    ensures r.interrupted ==> r.taken > 0
    ensures c.scheduled ==> r.c.scheduled && r.c.uiCalls == c.uiCalls
    ensures !c.scheduled ==> r.c.uiCalls == if r.c.scheduled then c.uiCalls + 1 else c.uiCalls
    ensures UniqueKeys(c.buffer) ==> UniqueKeys(r.c.buffer)
    ensures !r.c.scheduled ==> r.c.buffer == c.buffer
    ensures NumericChannels(c.buffer) ==> NumericChannels(r.c.buffer)
    decreases |q|
  {
    if |q| == 0 then Tick(c, 0, false)
    else
      var s := Consume(c, q[0].line, onPosition);
      if s.raised then Tick(s.state, 1, true)
      else
        var r := Drain(s.state, q[1..], onPosition);
        Tick(r.c, r.taken + 1, r.interrupted)
  }

  /** Only a position line can end a tick early: the last item taken by an
      interrupted drain is a position line, whose handler raised. */
  lemma {:induction false} DrainStopsAtPosition<P>(c: Consumer<P>, q: seq<Readers.QueueItem>, onPosition: (P, string) -> Step<P>)
    ensures var r := Drain(c, q, onPosition);
      r.interrupted ==> Classify(q[r.taken - 1].line) == Position
    decreases |q|
  {
    if |q| > 0 {
      var s := Consume(c, q[0].line, onPosition);
      if !s.raised {
        DrainStopsAtPosition(s.state, q[1..], onPosition);
        var r := Drain(s.state, q[1..], onPosition);
        if r.interrupted {
          assert q[1..][r.taken - 1] == q[r.taken];
        }
      }
    }
  }

  /** `process_queue`: the consumer, the items left queued, and whether the
      next tick is scheduled. A stopped GUI does nothing and does not
      reschedule; otherwise the queue is drained and the `finally` clause
      schedules the next tick even after an exception. */
  function ProcessQueue<P>(c: Consumer<P>, q: seq<Readers.QueueItem>, running: bool, onPosition: (P, string) -> Step<P>): (r: (Consumer<P>, seq<Readers.QueueItem>, bool))
    ensures !running ==> r == (c, q, false)
    ensures running ==> r.2 && |r.1| <= |q| && r.1 == q[|q| - |r.1|..]
    ensures running && |r.1| > 0 ==> |r.1| < |q|
    ensures !r.0.scheduled ==> r.0.buffer == c.buffer
    ensures UniqueKeys(c.buffer) ==> UniqueKeys(r.0.buffer)
    ensures NumericChannels(c.buffer) ==> NumericChannels(r.0.buffer)
  {
    if !running then (c, q, false)
    else
      var t := Drain(c, q, onPosition);
      (t.c, q[t.taken..], true)
  }

  /** Items stay queued only after a position line whose handler raised:
      the item just before the leftover is a position line. */
  lemma LeftoverAfterPosition<P>(c: Consumer<P>, q: seq<Readers.QueueItem>, onPosition: (P, string) -> Step<P>)
    ensures var rest := ProcessQueue(c, q, true, onPosition).1;
      |rest| > 0 ==> |rest| < |q| && Classify(q[|q| - |rest| - 1].line) == Position
  {
    DrainStopsAtPosition(c, q, onPosition);
    var t := Drain(c, q, onPosition);
    var rest := ProcessQueue(c, q, true, onPosition).1;
    assert |rest| == |q| - t.taken;
  }

  /** The satellite tuples the lines of `q` yield, in order: what a tick
      stores when nothing raises. */
  function Satellites(q: seq<Readers.QueueItem>): (ts: seq<SatTuple>)
    ensures |ts| <= |q|
    decreases |q|
  {
    if |q| == 0 then []
    else if Parsed(q[0].line).Some? then [Parsed(q[0].line).value] + Satellites(q[1..])
    else Satellites(q[1..])
  }

  /** `d[key(t)] = t` for each tuple in turn. */
  function PutAll(d: Dict<BufKey, SatTuple>, ts: seq<SatTuple>): (r: Dict<BufKey, SatTuple>)
    ensures UniqueKeys(d) ==> UniqueKeys(r)
    decreases |ts|
  {
    if |ts| == 0 then d else PutAll(Put(d, BufKeyOf(ts[0]), ts[0]), ts[1..])
  }

  /** The last tuple of `ts` with key `k`, if any. */
  function LastWith(ts: seq<SatTuple>, k: BufKey): (r: Option<SatTuple>)
    ensures r.Some? ==> r.value in ts && BufKeyOf(r.value) == k
    ensures r.None? <==> forall i :: 0 <= i < |ts| ==> BufKeyOf(ts[i]) != k
    decreases |ts|
  {
    if |ts| == 0 then None
    else
      var later := LastWith(ts[1..], k);
      if later.Some? then later
      else if BufKeyOf(ts[0]) == k then Some(ts[0])
      else
        assert forall i :: 1 <= i < |ts| ==> ts[i] == ts[1..][i - 1];
        None
  }

  /** After storing a run of tuples, a key holds the last tuple stored under
      it, or what it held before when no tuple had that key. */
  lemma {:induction false} PutAllLast(d: Dict<BufKey, SatTuple>, ts: seq<SatTuple>, k: BufKey)
    ensures Get(PutAll(d, ts), k) == if LastWith(ts, k).Some? then LastWith(ts, k) else Get(d, k)
    decreases |ts|
  {
    if |ts| > 0 {
      PutAllLast(Put(d, BufKeyOf(ts[0]), ts[0]), ts[1..], k);
    }
  }

  /** A tick that runs to the end leaves the buffer as storing every parsed
      satellite tuple of the queue in order would. */
  lemma {:induction false} DrainStoresAll<P>(c: Consumer<P>, q: seq<Readers.QueueItem>, onPosition: (P, string) -> Step<P>)
    ensures !Drain(c, q, onPosition).interrupted ==> Drain(c, q, onPosition).c.buffer == PutAll(c.buffer, Satellites(q))
    decreases |q|
  {
    if |q| > 0 {
      var s := Consume(c, q[0].line, onPosition);
      DrainStoresAll(s.state, q[1..], onPosition);
    }
  }

  /** Splitting the queue: a tick over `a + b` is a tick over `a` followed,
      if that did not raise, by a tick over `b`; if it did raise, the tick
      over `a + b` ends at the same point. */
  lemma {:induction false} DrainConcat<P>(c: Consumer<P>, a: seq<Readers.QueueItem>, b: seq<Readers.QueueItem>, onPosition: (P, string) -> Step<P>)
    ensures var ra := Drain(c, a, onPosition);
      var rb := Drain(ra.c, b, onPosition);
      && (!ra.interrupted ==> Drain(c, a + b, onPosition) == Tick(rb.c, |a| + rb.taken, rb.interrupted))
      && (ra.interrupted ==> Drain(c, a + b, onPosition) == ra)
    decreases |a|
  {
    if |a| == 0 {
      assert a + b == b;
    } else {
      assert (a + b)[0] == a[0];
      assert (a + b)[1..] == a[1..] + b;
      var s := Consume(c, a[0].line, onPosition);
      DrainConcat(s.state, a[1..], b, onPosition);
    }
  }

  /** Lines without a position or a satellite row change nothing. */
  lemma {:induction false} DrainIgnored<P>(c: Consumer<P>, q: seq<Readers.QueueItem>, onPosition: (P, string) -> Step<P>)
    requires forall i :: 0 <= i < |q| ==> Classify(q[i].line) in {Skip, Other}
    ensures Drain(c, q, onPosition) == Tick(c, |q|, false)
    decreases |q|
  {
    if |q| > 0 {
      DrainIgnored(c, q[1..], onPosition);
    }
  }

  /** Cleaning keeps a first character that is neither a space nor the
      start of an escape sequence. */
  lemma CleanFirst(line: string)
    requires |line| > 0 && line[0] != Esc && !IsSpace(line[0])
    ensures |Clean(line)| > 0 && Clean(line)[0] == line[0]
  {
    StripStep(line);
    var a := StripAnsi(line);
    assert a[0] == line[0];
    assert LStrip(a, Whitespace) == a;
    var r := RStrip(a, Whitespace);
    assert |r| > 0 by {
      assert a[0] !in Whitespace;
    }
  }

  /** Text starting with a letter matches neither routing pattern. */
  lemma LetterNoPattern(c: string)
    requires |c| > 0 && 'A' <= c[0] <= 'Z'
    ensures !DatePrefix(c) && !TrackPrefix(c)
  {
    assert SpaceRun(c) == [];
    assert c[0..] == c;
    assert DigitRun(c) == [];
  }

  /** A line starting with a letter is neither a position nor a satellite row. */
  lemma LetterFirst(line: string)
    requires |line| > 0 && 'A' <= line[0] <= 'Z'
    ensures Classify(line) in {Skip, Other}
  {
    CleanFirst(line);
    LetterNoPattern(Clean(line));
  }

  /** The readers' error events are never taken for telemetry: they leave
      the consumer as it was. */
  lemma ErrorsIgnored<P>(c: Consumer<P>, source: string, e: Readers.ReaderError, onPosition: (P, string) -> Step<P>)
    requires source in {"Tracking", "NMEA"}
    ensures Drain(c, [Readers.QueueItem(Readers.ErrorTag, Readers.ErrorText(source, e))], onPosition) == Tick(c, 1, false)
  {
    var line := Readers.ErrorText(source, e);
    assert line[0] == source[0];
    LetterFirst(line);
    DrainIgnored(c, [Readers.QueueItem(Readers.ErrorTag, line)], onPosition);
  }
}

=== FILE: framing.dfy ===
/** Newline framing of a byte stream, as both socket readers do it: decoded
    text is appended to a buffer, every complete line is cut off at its
    `'\n'`, and the partial tail stays buffered for the next read. */
module Framing {

  datatype Frames = Frames(lines: seq<string>, rest: string)

  /** The text a framing result came from: each line with its `'\n'`, then the tail. */
  function Unframe(lines: seq<string>, rest: string): string
  {
    if |lines| == 0 then rest else lines[0] + "\n" + Unframe(lines[1..], rest)
  }

  predicate NoNewlines(lines: seq<string>)
  {
    forall i :: 0 <= i < |lines| ==> '\n' !in lines[i]
  }

  /** The longest prefix without a newline. */
  function UpToNewline(s: string): (w: string)
    ensures |w| <= |s| && w == s[..|w|]
    ensures '\n' !in w
    ensures |w| < |s| ==> s[|w|] == '\n'
    decreases |s|
  {
    if |s| == 0 || s[0] == '\n' then [] else [s[0]] + UpToNewline(s[1..])
  }

  /** `while '\n' in buffer: line, buffer = buffer.split('\n', 1)`. */
  function Frame(buf: string): (r: Frames)
    ensures '\n' !in r.rest
    ensures NoNewlines(r.lines)
    ensures Unframe(r.lines, r.rest) == buf
    decreases |buf|
  {
    var line := UpToNewline(buf);
    if |line| == |buf| then Frames([], buf)
    else
      var tail := Frame(buf[|line| + 1..]);
      assert buf == line + "\n" + buf[|line| + 1..];
      Frames([line] + tail.lines, tail.rest)
  }

  lemma UpToNewlineOf(line: string, rest: string)
    requires '\n' !in line
    ensures UpToNewline(line + "\n" + rest) == line
    decreases |line|
  {
    if |line| > 0 {
      assert (line + "\n" + rest)[1..] == line[1..] + "\n" + rest;
      UpToNewlineOf(line[1..], rest);
    }
  }

  lemma UpToNewlineAll(s: string)
    requires '\n' !in s
    ensures UpToNewline(s) == s
    decreases |s|
  {
    if |s| > 0 {
      UpToNewlineAll(s[1..]);
      assert [s[0]] + s[1..] == s;
    }
  }

  /** The framing is the only way to read the buffer as newline-free lines
      followed by a newline-free tail. */
  lemma {:induction false} FrameUnique(lines: seq<string>, rest: string)
    requires NoNewlines(lines) && '\n' !in rest
    ensures Frame(Unframe(lines, rest)) == Frames(lines, rest)
    decreases |lines|
  {
    var buf := Unframe(lines, rest);
    if |lines| == 0 {
      UpToNewlineAll(rest);
    } else {
      var tail := Unframe(lines[1..], rest);
      assert buf == lines[0] + "\n" + tail;
      UpToNewlineOf(lines[0], tail);
      assert buf[|lines[0]| + 1..] == tail;
      FrameUnique(lines[1..], rest);
      assert [lines[0]] + lines[1..] == lines;
    }
  }

  lemma {:induction false} UnframeSplit(a: seq<string>, b: seq<string>, rest: string)
    ensures Unframe(a + b, rest) == Unframe(a, Unframe(b, rest))
    decreases |a|
  {
    if |a| > 0 {
      assert (a + b)[0] == a[0] && (a + b)[1..] == a[1..] + b;
      UnframeSplit(a[1..], b, rest);
    } else {
      assert a + b == b;
    }
  }

  lemma {:induction false} UnframeTail(lines: seq<string>, mid: string, more: string)
    ensures Unframe(lines, mid) + more == Unframe(lines, mid + more)
    decreases |lines|
  {
    if |lines| > 0 {
      UnframeTail(lines[1..], mid, more);
    }
  }

  /** Reading `x` then `y` through the buffer yields the same lines and the
      same residue as reading `x + y` at once: no line is lost or split. */
  lemma FrameIncremental(x: string, y: string)
    ensures var first := Frame(x);
      var second := Frame(first.rest + y);
      first.lines + second.lines == Frame(x + y).lines && second.rest == Frame(x + y).rest
  {
    var first := Frame(x);
    var second := Frame(first.rest + y);
    var all := first.lines + second.lines;
    UnframeSplit(first.lines, second.lines, second.rest);
    UnframeTail(first.lines, first.rest, y);
    assert NoNewlines(all) by {
      forall i | 0 <= i < |all| ensures '\n' !in all[i] {
        if i < |first.lines| { assert all[i] == first.lines[i]; }
        else { assert all[i] == second.lines[i - |first.lines|]; }
      }
    }
    FrameUnique(all, second.rest);
  }

  /** The reader's inner loop over the chunks of one connection, starting
      from an empty buffer: all lines cut, then the final buffer. */
  function FrameChunks(buffer: string, chunks: seq<string>): Frames
    decreases |chunks|
  {
    if |chunks| == 0 then Frames([], buffer)
    else
      var f := Frame(buffer + chunks[0]);
      var more := FrameChunks(f.rest, chunks[1..]);
      Frames(f.lines + more.lines, more.rest)
  }

  function Concat(chunks: seq<string>): string
  {
    if |chunks| == 0 then [] else chunks[0] + Concat(chunks[1..])
  }

  /** However the stream is cut into chunks, the lines handed on are the
      lines of the whole text, and the residue is its unterminated tail. */
  lemma {:induction false} FrameChunksWhole(buffer: string, chunks: seq<string>)
    requires '\n' !in buffer
    ensures FrameChunks(buffer, chunks) == Frame(buffer + Concat(chunks))
    decreases |chunks|
  {
    if |chunks| == 0 {
      assert buffer + [] == buffer;
      UpToNewlineAll(buffer);
    } else {
      var f := Frame(buffer + chunks[0]);
      FrameChunksWhole(f.rest, chunks[1..]);
      FrameConcat(buffer, chunks);
    }
  }

  /** The text of the buffer and all chunks frames as the buffer and the
      first chunk, then what stays buffered and the remaining chunks. */
  lemma FrameConcat(buffer: string, chunks: seq<string>)
    requires |chunks| > 0
    ensures var f := Frame(buffer + chunks[0]);
      var g := Frame(f.rest + Concat(chunks[1..]));
      Frame(buffer + Concat(chunks)) == Frames(f.lines + g.lines, g.rest)
  {
    FrameIncremental(buffer + chunks[0], Concat(chunks[1..]));
    assert buffer + chunks[0] + Concat(chunks[1..]) == buffer + Concat(chunks);
  }
}

=== FILE: gsv_adjust.dfy ===
/** `nmea_adjustment` and `adjust_snr`: before an NMEA 0183 burst is sent
    to the serial port, the carrier-to-noise value of every satellite in a
    GSV sentence is jittered by -1, 0 or +1 and clamped to 0..99, and the
    sentence's checksum (section 5.3 of NMEA 0183: the XOR of the
    characters between `$` and `*`, as two upper-case hexadecimal digits)
    is recomputed. Other sentences are passed on. Every line ends in CR LF. */
module GsvAdjust {
  import opened Wrappers
  import opened Text
  import opened Numeric

  /** The value `random.randint(-1, 1)` returned. */
  datatype Delta = Down | Keep | Up

  function DeltaValue(d: Delta): (v: int)
    ensures -1 <= v <= 1
  {
    match d
    case Down => -1
    case Keep => 0
    case Up => 1
  }

  /** `int(max(0, min(x, 99)))`: truncation is the floor once the value is
      clamped to be non-negative. */
  function Clamp(x: real): (n: nat)
    ensures n <= 99
    ensures x <= 0.0 ==> n == 0
    ensures x >= 99.0 ==> n == 99
    ensures 0.0 <= x <= 99.0 ==> n as real <= x < n as real + 1.0
  {
    if x < 0.0 then 0 else if x > 99.0 then 99 else x.Floor
  }

  /** `adjust_snr`: a field `float` accepts is replaced by the jittered,
      clamped whole number; any other field is returned as it is. */
  function AdjustSnr(field: string, d: Delta): (r: string)
    ensures ParseFloat(field).None? ==> r == field
    ensures ParseFloat(field).Some? ==> AllDigits(r) && |r| <= 2
  {
    match ParseFloat(field)
    case None => field
    case Some(x) =>
      FormatNat(Clamp(x + DeltaValue(d) as real))
  }

  /** A jittered value reads back as a whole number in 0..99 that is the
      clamped value moved by at most one from the original. */
  lemma AdjustSnrValue(field: string, d: Delta)
    requires ParseFloat(field).Some?
    ensures var x := ParseFloat(field).value;
      var y := ParseFloat(AdjustSnr(field, d));
      && y.Some? && y.value == Clamp(x + DeltaValue(d) as real) as real
      && 0.0 <= y.value <= 99.0
      && (1.0 <= x <= 98.0 ==> x - 2.0 < y.value <= x + 1.0)
  {
    ParseFormatNat(Clamp(ParseFloat(field).value + DeltaValue(d) as real));
  }

  /** The indices `adjust_snr` is applied to: 7, 11, 15, ... */
  predicate IsSnrIndex(j: nat)
  {
    j >= 7 && (j - 7) % 4 == 0
  }

  /** The loop `i = 4; while i + 3 < len(fields): fields[i + 3] = ...; i += 4`
      from a given `i`; `adjust(x, j)` is what field `j`, holding `x`,
      becomes. */
  function AdjustFrom(fields: seq<string>, i: nat, adjust: (string, nat) -> string): (r: seq<string>)
    requires i >= 4 && i % 4 == 0
    ensures |r| == |fields|
    ensures forall j :: 0 <= j < |fields| ==>
      r[j] == if IsSnrIndex(j) && j >= i + 3 then adjust(fields[j], j) else fields[j]
    decreases |fields| - i
  {
    if i + 3 < |fields| then
      var r := AdjustFrom(fields[i + 3 := adjust(fields[i + 3], i + 3)], i + 4, adjust);
      assert forall j :: 0 <= j < |fields| ==>
        (IsSnrIndex(j) && j >= i + 3 <==> j == i + 3 || (IsSnrIndex(j) && j >= i + 7)) by {
        forall j | 0 <= j < |fields| {
          SnrStep(i, j);
        }
      }
      r
    else
      assert forall j :: 0 <= j < |fields| ==> !(IsSnrIndex(j) && j >= i + 3);
      fields
  }

  lemma SnrStep(i: nat, j: nat)
    requires i >= 4 && i % 4 == 0
    ensures IsSnrIndex(j) && j >= i + 3 <==> j == i + 3 || (IsSnrIndex(j) && j >= i + 7)
  {
    if j == i + 3 {
      assert j - 7 == i - 4;
    } else if i + 3 < j < i + 7 {
      assert (j - 7) % 4 != 0 by {
        assert j - 7 == (i - 4) + (j - i - 3);
      }
    }
  }

  /** The GSV fields after the loop. */
  function AdjustFields(fields: seq<string>, choice: nat -> Delta): (r: seq<string>)
    ensures |r| == |fields|
    ensures forall j :: 0 <= j < |fields| && !IsSnrIndex(j) ==> r[j] == fields[j]
    ensures forall j :: 0 <= j < |fields| && IsSnrIndex(j) ==> r[j] == AdjustSnr(fields[j], choice(j))
  {
    AdjustFrom(fields, 4, (x: string, j: nat) => AdjustSnr(x, choice(j)))
  }

  /** `checksum ^= ord(c)` over `s`, left to right from 0. */
  function XorAll(s: string): nat
    decreases |s|
  {
    if |s| == 0 then 0 else Xor(XorAll(s[..|s| - 1]), s[|s| - 1] as nat)
  }

  /** The checksum of a sentence body: the XOR of every character after
      the first (the `$`). */
  function Checksum(body: string): nat
  {
    if |body| == 0 then 0 else XorAll(body[1..])
  }

  /** Over 8-bit characters the checksum fits in one byte. */
  lemma {:induction false} XorAllBound(s: string)
    requires forall i :: 0 <= i < |s| ==> s[i] as nat < 256
    ensures XorAll(s) < 256
    decreases |s|
  {
    if |s| > 0 {
      XorAllBound(s[..|s| - 1]);
      assert Pow2(8) == 256;
      XorBound(XorAll(s[..|s| - 1]), s[|s| - 1] as nat, 8);
    }
  }

  /** The rebuilt body of a GSV sentence: the text before the first `*`,
      split on commas, jittered, and joined again. */
  function NewBody(line: string, choice: nat -> Delta): (b: string)
  {
    Join(AdjustFields(Split(Split(line, '*')[0], ','), choice), ',')
  }

  /** One received line: a line containing `GSV` is rebuilt with a fresh
      checksum, any other is copied; both end in CR LF. */
  function AdjustLine(line: string, choice: nat -> Delta): (r: string)
    ensures !Contains(line, "GSV") ==> r == line + "\r\n"
    ensures Contains(line, "GSV") ==>
      r == NewBody(line, choice) + "*" + Hex02(Checksum(NewBody(line, choice))) + "\r\n"
  {
    if Contains(line, "GSV") then
      var body := NewBody(line, choice);
      body + "*" + Hex02(Checksum(body)) + "\r\n"
    else line + "\r\n"
  }

  function Concat(parts: seq<string>): string
  {
    if |parts| == 0 then [] else parts[0] + Concat(parts[1..])
  }

  /** Each line adjusted with the jitter `choice(n, j)` drawn for field `j`
      of line `n`. */
  function AdjustAll(lines: seq<string>, choice: (nat, nat) -> Delta): seq<string>
  {
    seq(|lines|, n requires 0 <= n < |lines| => AdjustLine(lines[n], (j: nat) => choice(n, j)))
  }

  /** `nmea_adjustment` over the received text: its lines after stripping,
      each adjusted and ended with CR LF. Empty or all-whitespace text
      gives nothing. */
  function NmeaAdjustment(data: string, choice: (nat, nat) -> Delta): (r: string)
    ensures AllSpace(data) ==> r == []
  {
    StripAllSpace(data);
    var lines := if |data| == 0 then [] else SplitLines(Strip(data));
    Concat(AdjustAll(lines, choice))
  }

  /** Received text that is the lines joined with `\n`, without surrounding
      whitespace, comes out as those same lines adjusted one by one, in
      order; when no line mentions GSV, as the lines each ended with CR LF. */
  lemma NmeaAdjustmentLines(lines: seq<string>, choice: (nat, nat) -> Delta)
    requires |lines| > 0
    requires forall i :: 0 <= i < |lines| ==> forall j :: 0 <= j < |lines[i]| ==> !IsLineBreak(lines[i][j])
    requires |lines[0]| > 0 && !IsSpace(lines[0][0])
    requires var last := lines[|lines| - 1]; |last| > 0 && !IsSpace(last[|last| - 1])
    ensures NmeaAdjustment(Join(lines, '\n'), choice) == Concat(AdjustAll(lines, choice))
    ensures (forall i :: 0 <= i < |lines| ==> !Contains(lines[i], "GSV")) ==>
      NmeaAdjustment(Join(lines, '\n'), choice) == Concat(seq(|lines|, n requires 0 <= n < |lines| => lines[n] + "\r\n"))
  {
    var data := Join(lines, '\n');
    JoinEnds(lines, '\n');
    StripKeeps(data);
    SplitLinesJoin(lines);
    assert SplitLines(Strip(data)) == lines;
    assert NmeaAdjustment(data, choice) == Concat(AdjustAll(lines, choice));
    if forall i :: 0 <= i < |lines| ==> !Contains(lines[i], "GSV") {
      AdjustAllPlain(lines, choice);
    }
  }

  /** Lines without GSV are copied, each ended with CR LF. */
  lemma AdjustAllPlain(lines: seq<string>, choice: (nat, nat) -> Delta)
    requires forall i :: 0 <= i < |lines| ==> !Contains(lines[i], "GSV")
    ensures AdjustAll(lines, choice) == seq(|lines|, n requires 0 <= n < |lines| => lines[n] + "\r\n")
  {
  }

  /** What a receiver checks: one `*`, a hexadecimal checksum after it,
      equal to the XOR of the body after its first character. */
  predicate ChecksumOk(sentence: string)
  {
    var parts := Split(sentence, '*');
    && |parts| == 2
    && (forall i :: 0 <= i < |parts[1]| ==> IsHexDigit(parts[1][i]))
    && HexValue(parts[1]) == Checksum(parts[0])
  }

  /** No adjusted field holds a comma or a `*` when the field did not. */
  lemma AdjustedFieldChars(fields: seq<string>, choice: nat -> Delta)
    requires forall i :: 0 <= i < |fields| ==> ',' !in fields[i] && '*' !in fields[i]
    ensures forall i :: 0 <= i < |fields| ==>
      ',' !in AdjustFields(fields, choice)[i] && '*' !in AdjustFields(fields, choice)[i]
  {
    var r := AdjustFields(fields, choice);
    forall i | 0 <= i < |fields| ensures ',' !in r[i] && '*' !in r[i] {
      if IsSnrIndex(i) && ParseFloat(fields[i]).Some? {
        assert AllDigits(r[i]);
        assert forall k :: 0 <= k < |r[i]| ==> IsDigit(r[i][k]);
      }
    }
  }

  /** A join of comma-free, star-free parts has no `*`. */
  lemma {:induction false} JoinNoStar(parts: seq<string>)
    requires forall i :: 0 <= i < |parts| ==> '*' !in parts[i]
    ensures '*' !in Join(parts, ',')
    decreases |parts|
  {
    if |parts| > 1 {
      JoinNoStar(parts[1..]);
    }
  }

  /** A rebuilt GSV sentence keeps its field count and every field that is
      not a signal strength, and passes the receiver's checksum test. */
  lemma GsvSentence(line: string, choice: nat -> Delta)
    requires Contains(line, "GSV")
    ensures var fields := Split(Split(line, '*')[0], ',');
      var body := NewBody(line, choice);
      && Split(body, ',') == AdjustFields(fields, choice)
      && |Split(body, ',')| == |fields|
      && (forall j :: 0 <= j < |fields| && !IsSnrIndex(j) ==> Split(body, ',')[j] == fields[j])
      && ChecksumOk(body + "*" + Hex02(Checksum(body)))
  {
    var head := Split(line, '*')[0];
    var fields := Split(head, ',');
    SplitChars(head, ',');
    assert '*' !in head;
    var adjusted := AdjustFields(fields, choice);
    AdjustedFieldChars(fields, choice);
    SplitJoin(adjusted, ',');
    var body := NewBody(line, choice);
    JoinNoStar(adjusted);
    var hex := Hex02(Checksum(body));
    assert '*' !in hex by {
      forall k | 0 <= k < |hex| ensures hex[k] != '*' {
        assert IsHexDigit(hex[k]);
      }
    }
    SplitFirst(body, '*', hex);
    SplitPlain(hex, '*');
    Hex02Value(Checksum(body));
  }
}

=== FILE: kinematics.dfy ===
/** `process_line` of the TCP build: GGA sentences set the current UTC time;
    RMC or VTG sentences, whichever arrives first, become the speed source
    for good; and when the clock has advanced by more than a millisecond
    since the last sample, speed, acceleration and jerk are derived by
    finite differences and plotted. */
module Kinematics {
  import opened Wrappers
  import opened Text
  import opened Numeric
  import opened Nmea
  import opened PlotWindow

  /** Knots to metres per second, with the factor of the TCP build. */
  function KnotsToMs(knots: real): real
  {
    knots * 0.5144444
  }

  /** The smallest clock advance, in seconds, that yields a new sample. */
  const MinDt: real := 0.001

  /** The speed-source latch `state`: 0, 1 (VTG) or 2 (RMC). */
  datatype Latch = Unset | FromVtg | FromRmc

  /** The attributes `process_line` reads and writes. `firstTime` is `None`
      when `parse_gpgga` gave no time; `maxJerk` is `None` for `-inf`;
      `velocity` is the raw speed field, `None` when the parser found too
      few fields. */
  datatype Kin = Kin(
    statusGga: bool,
    firstTime: Option<real>,
    currentUtc: real,
    latch: Latch,
    velocity: Option<string>,
    velocityMs: real,
    acceleration: real,
    jerk: real,
    oldVelocity: real,
    oldAcceleration: real,
    lastTime: Option<real>,
    maxJerk: Option<real>,
    plot: Window<(real, real, real)>)

  predicate Valid(k: Kin)
  {
    |k.plot.points| <= MaxPoints
  }

  /** Acceleration and jerk as finite differences over `dt`. */
  function Derive(oldV: real, oldA: real, v: real, dt: real): (aj: (real, real))
    requires dt > 0.0
    ensures aj.0 * dt == v - oldV
    ensures aj.1 * dt == aj.0 - oldA
  {
    var a := (v - oldV) / dt;
    (a, (a - oldA) / dt)
  }

  /** The GGA prologue: the first GGA line sets `statusGGA` and takes its
      time as `first_time`. */
  function NoteFirstGga(k: Kin, line: string): (r: Kin)
    ensures r.latch == k.latch && r.velocity == k.velocity && r.plot == k.plot
    ensures r.statusGga == (k.statusGga || Contains(line, "GGA"))
    ensures !k.statusGga && Contains(line, "GGA") ==> r.firstTime == GgaTime(line)
    ensures k.statusGga || !Contains(line, "GGA") ==> r == k
  {
    if !k.statusGga && Contains(line, "GGA") then k.(statusGga := true, firstTime := GgaTime(line)) else k
  }

  /** Picks the speed source: an RMC line unless VTG is latched, else a VTG
      line unless RMC is latched. */
  function SelectSpeed(k: Kin, line: string): (r: Kin)
    ensures k.latch != Unset ==> r.latch == k.latch
    ensures r == k.(latch := r.latch, velocity := r.velocity)
  {
    if Contains(line, "RMC") && k.latch != FromVtg then
      assert k.latch == Unset || k.latch == FromRmc;
      k.(latch := FromRmc, velocity := RmcSpeed(line))
    else if Contains(line, "VTG") && k.latch != FromRmc then
      assert k.latch == Unset || k.latch == FromVtg;
      k.(latch := FromVtg, velocity := VtgSpeed(line))
    else k
  }

  /** The sampling half of `process_line`. Raising on an unparsable speed
      (`float()`) and on a missing `first_time` (the subtraction), with the
      attributes already assigned at that point. */
  function Sample(k: Kin): (r: Step<Kin>)
    requires Valid(k)
    ensures Valid(r.state)
    ensures r.state.latch == k.latch && r.state.velocity == k.velocity
    ensures r.state.statusGga == k.statusGga && r.state.firstTime == k.firstTime
    ensures r.state.currentUtc == k.currentUtc
    ensures LeExt(k.maxJerk, r.state.maxJerk)
    ensures r.state.plot != k.plot ==>
      && !r.raised && |r.state.plot.points| > 0 && r.state.lastTime == Some(r.state.currentUtc)
      && Last(r.state.plot).value.0 == r.state.velocityMs == r.state.oldVelocity
  {
    match k.velocity
    case None => Step(k, false)
    case Some(text) =>
      match k.lastTime
      case Some(last) =>
        var dt := k.currentUtc - last;
        if dt > MinDt then
          match ParseFloat(text)
          case None => Step(k, true)
          case Some(knots) => Advance(k, KnotsToMs(knots), last)
        else Step(k, false)
      case None =>
        match ParseFloat(text)
        case None => Step(k, true)
        case Some(knots) =>
          var v := KnotsToMs(knots);
          Step(k.(velocityMs := v, plot := AppendAsWritten(k.plot, k.currentUtc, (v, 0.0, 0.0)),
                  oldVelocity := v, oldAcceleration := 0.0, lastTime := Some(k.currentUtc)), false)
  }

  /** A sample of speed `v` on a clock advanced past `last`: the finite
      differences, the running maximum of the jerk, and (once `first_time`
      is known) the plot and the new reference sample. */
  function Advance(k: Kin, v: real, last: real): (r: Step<Kin>)
    requires Valid(k) && k.currentUtc - last > MinDt
    ensures Valid(r.state)
    ensures r.state.latch == k.latch && r.state.velocity == k.velocity
    ensures r.state.statusGga == k.statusGga && r.state.firstTime == k.firstTime
    ensures r.state.currentUtc == k.currentUtc
    ensures LeExt(k.maxJerk, r.state.maxJerk)
    ensures r.raised <==> k.firstTime.None?
    ensures r.raised ==> r.state.plot == k.plot
    ensures !r.raised ==>
      && |r.state.plot.points| > 0 && r.state.lastTime == Some(k.currentUtc)
      && Last(r.state.plot).value == (v, r.state.acceleration, r.state.jerk)
      && r.state.velocityMs == r.state.oldVelocity == v
    ensures !r.raised && |k.plot.points| < MaxPoints ==>
      Last(r.state.plot).time + r.state.plot.initial == k.currentUtc - k.firstTime.value
    ensures !r.raised && |k.plot.points| == MaxPoints ==>
      Last(r.state.plot).time + r.state.plot.initial == k.currentUtc - k.firstTime.value - k.plot.initial
  {
    var aj := Derive(k.oldVelocity, k.oldAcceleration, v, k.currentUtc - last);
    var k1 := k.(velocityMs := v, acceleration := aj.0, jerk := aj.1, maxJerk := MaxExt(k.maxJerk, aj.1));
    match k.firstTime
    case None => Step(k1, true)
    case Some(first) =>
      Step(k1.(plot := AppendAsWritten(k.plot, k.currentUtc - first, (v, aj.0, aj.1)),
               oldVelocity := v, oldAcceleration := aj.0, lastTime := Some(k.currentUtc)), false)
  }

  /** `process_line(line)`. A GGA line only moves the clock (raising when
      there is no `first_time` to subtract) and returns before sampling.
      The plot only changes when a sample is taken, which makes the sample
      the reference for the next one. */
  function ProcessLine(k: Kin, line: string): (r: Step<Kin>)
    requires Valid(k)
    ensures Valid(r.state)
    ensures k.latch != Unset ==> r.state.latch == k.latch
    ensures LeExt(k.maxJerk, r.state.maxJerk)
    ensures r.state.statusGga == (k.statusGga || Contains(line, "GGA"))
    ensures Contains(line, "GGA") ==> r.state.plot == k.plot
    ensures r.state.plot != k.plot ==>
      && !r.raised && |r.state.plot.points| > 0 && r.state.lastTime == Some(r.state.currentUtc)
      && Last(r.state.plot).value.0 == r.state.velocityMs == r.state.oldVelocity
  {
    var k1 := NoteFirstGga(k, line);
    if Contains(line, "GGA") then
      match GgaTime(line)
      case None => Step(k1, false)
      case Some(t) => Step(k1.(currentUtc := t), k1.firstTime.None?)
    else Sample(SelectSpeed(k1, line))
  }

  /** The speed-source latch: from unset, an RMC line selects RMC and a VTG
      line (with no RMC in it) selects VTG, taking that line's speed field. */
  lemma LatchFromUnset(k: Kin, line: string)
    requires Valid(k) && k.latch == Unset && !Contains(line, "GGA")
    ensures Contains(line, "RMC") ==>
      ProcessLine(k, line).state.latch == FromRmc && ProcessLine(k, line).state.velocity == RmcSpeed(line)
    ensures !Contains(line, "RMC") && Contains(line, "VTG") ==>
      ProcessLine(k, line).state.latch == FromVtg && ProcessLine(k, line).state.velocity == VtgSpeed(line)
    ensures !Contains(line, "RMC") && !Contains(line, "VTG") ==>
      ProcessLine(k, line).state.latch == Unset && ProcessLine(k, line).state.velocity == k.velocity
  {
  }

  /** Once latched, lines of the other source never set the speed: the
      speed kept is the one last taken from the latched source. */
  lemma OtherSourceIgnored(k: Kin, line: string)
    requires Valid(k)
    requires (k.latch == FromRmc && !Contains(line, "RMC")) || (k.latch == FromVtg && !Contains(line, "VTG"))
    ensures ProcessLine(k, line).state.latch == k.latch
    ensures ProcessLine(k, line).state.velocity == k.velocity
  {
  }

  /** A line naming GGA produces no sample: only `statusGGA`, `first_time`
      and the clock may change. */
  lemma GgaNoSample(k: Kin, line: string)
    requires Valid(k) && Contains(line, "GGA")
    ensures var r := ProcessLine(k, line).state;
      r == k.(statusGga := true, firstTime := r.firstTime, currentUtc := r.currentUtc)
    ensures GgaTime(line).Some? ==> ProcessLine(k, line).state.currentUtc == GgaTime(line).value
    ensures GgaTime(line).None? ==> ProcessLine(k, line).state.currentUtc == k.currentUtc
  {
  }

  /** Without GGA in the line, `process_line` is the sampling step on the
      speed the line selects. */
  lemma NoGgaSamples(k: Kin, line: string)
    requires Valid(k) && !Contains(line, "GGA")
    ensures ProcessLine(k, line) == Sample(SelectSpeed(k, line))
  {
    assert NoteFirstGga(k, line) == k;
  }

  /** A sample on an advanced clock: speed is knots times the conversion
      factor, acceleration and jerk are the finite differences against the
      previous sample, which becomes this one; `max_jerk` takes the new
      jerk into account and the plot gets the three values. */
  lemma SampleDifferences(k: Kin, knots: real, last: real, first: real)
    requires Valid(k) && k.velocity.Some? && ParseFloat(k.velocity.value) == Some(knots)
    requires k.lastTime == Some(last) && k.currentUtc - last > MinDt && k.firstTime == Some(first)
    ensures var r := Sample(k).state;
      var v := KnotsToMs(knots);
      var aj := Derive(k.oldVelocity, k.oldAcceleration, v, k.currentUtc - last);
      && !Sample(k).raised && r.velocityMs == v && r.acceleration == aj.0 && r.jerk == aj.1
      && r.oldVelocity == v && r.oldAcceleration == aj.0 && r.lastTime == Some(k.currentUtc)
      && r.maxJerk == MaxExt(k.maxJerk, aj.1)
      && r.plot.points[|r.plot.points| - 1].value == (r.velocityMs, r.acceleration, r.jerk)
  {
    SampleAdvances(k, knots, last);
    AdvanceDifferences(k, KnotsToMs(knots), last, first);
  }

  lemma SampleAdvances(k: Kin, knots: real, last: real)
    requires Valid(k) && k.velocity.Some? && ParseFloat(k.velocity.value) == Some(knots)
    requires k.lastTime == Some(last) && k.currentUtc - last > MinDt
    ensures Sample(k) == Advance(k, KnotsToMs(knots), last)
  {
  }

  lemma AdvanceDifferences(k: Kin, v: real, last: real, first: real)
    requires Valid(k) && k.currentUtc - last > MinDt && k.firstTime == Some(first)
    ensures var r := Advance(k, v, last).state;
      var aj := Derive(k.oldVelocity, k.oldAcceleration, v, k.currentUtc - last);
      && !Advance(k, v, last).raised && r.velocityMs == v && r.acceleration == aj.0 && r.jerk == aj.1
      && r.oldVelocity == v && r.oldAcceleration == aj.0 && r.lastTime == Some(k.currentUtc)
      && r.maxJerk == MaxExt(k.maxJerk, aj.1)
      && r.plot.points[|r.plot.points| - 1].value == (r.velocityMs, r.acceleration, r.jerk)
  {
  }

  /** A clock that has not advanced by more than a millisecond leaves every
      kinematic quantity as it was. */
  lemma SmallStepNoChange(k: Kin, last: real)
    requires Valid(k) && k.lastTime == Some(last) && k.currentUtc - last <= MinDt
    ensures Sample(k) == Step(k, false)
  {
  }

  /** The first sample after a reset is plotted with zero acceleration and
      jerk, and becomes the reference sample. */
  lemma FirstSample(k: Kin, knots: real)
    requires Valid(k) && k.velocity.Some? && ParseFloat(k.velocity.value) == Some(knots) && k.lastTime.None?
    ensures var r := Sample(k).state;
      var v := KnotsToMs(knots);
      && !Sample(k).raised && r.velocityMs == v && r.oldVelocity == v && r.oldAcceleration == 0.0
      && r.lastTime == Some(k.currentUtc)
      && r.plot.points[|r.plot.points| - 1].value == (v, 0.0, 0.0)
  {
  }

  /** Over any run of lines the latch changes at most once and `max_jerk`
      never decreases. */
  lemma {:induction false} RunMonotone(k: Kin, lines: seq<string>)
    requires Valid(k)
    ensures var r := Run(k, lines);
      LeExt(k.maxJerk, r.state.maxJerk) && (k.latch != Unset ==> r.state.latch == k.latch)
    decreases |lines|
  {
    if |lines| > 0 {
      var s := ProcessLine(k, lines[0]);
      if !s.raised {
        RunMonotone(s.state, lines[1..]);
      }
    }
  }

  /** Feeds lines to `process_line` until one raises. */
  function Run(k: Kin, lines: seq<string>): (r: Step<Kin>)
    requires Valid(k)
    ensures Valid(r.state)
    decreases |lines|
  {
    if |lines| == 0 then Step(k, false)
    else
      var s := ProcessLine(k, lines[0]);
      if s.raised then s else Run(s.state, lines[1..])
  }

  /** A sample stores the finite differences, raising or not. */
  lemma AdvanceDerives(k: Kin, v: real, last: real)
    requires Valid(k) && k.currentUtc - last > MinDt
    ensures var r := Advance(k, v, last).state;
      var aj := Derive(k.oldVelocity, k.oldAcceleration, v, k.currentUtc - last);
      r.acceleration == aj.0 && r.jerk == aj.1 && r.maxJerk == MaxExt(k.maxJerk, aj.1)
  {
  }

  /** Under uniform acceleration `a` since the reference sample, which had
      acceleration `a`, the differences give acceleration `a` and zero jerk;
      in particular a steady speed gives neither. */
  lemma DeriveUniform(v: real, a: real, dt: real)
    requires dt > 0.0
    ensures Derive(v, a, v + a * dt, dt) == (a, 0.0)
  {
    var aj := Derive(v, a, v + a * dt, dt);
    Cancel(aj.0, a, dt);
    Cancel(aj.1, 0.0, dt);
  }

  /** A steady speed gives zero acceleration and jerk, so `max_jerk` is at
      least zero afterwards. */
  lemma SteadySpeed(k: Kin, last: real)
    requires Valid(k) && k.currentUtc - last > MinDt && k.oldAcceleration == 0.0
    ensures var r := Advance(k, k.oldVelocity, last).state;
      r.acceleration == 0.0 && r.jerk == 0.0 && LeExt(Some(0.0), r.maxJerk)
  {
    var dt := k.currentUtc - last;
    AdvanceDerives(k, k.oldVelocity, last);
    DeriveUniform(k.oldVelocity, 0.0, dt);
    assert k.oldVelocity + 0.0 * dt == k.oldVelocity;
  }

  lemma Cancel(x: real, y: real, d: real)
    requires d > 0.0 && x * d == y * d
    ensures x == y
  {
    assert (x - y) * d == 0.0;
  }
}

=== FILE: legacy_reader.dfy ===
/** The NMEA reader of the older subprocess build, `read_nmea_data`: up to
    five connection attempts, one `recv`, and the RMC sentences of that
    chunk turned into a velocity display by `parse_nmea_sentence`. */
module LegacyReader {
  import opened Wrappers
  import opened Text
  import opened Numeric
  import opened Readers

  /** Connection attempts of the older build. */
  const LegacyRetries: nat := 5

  /** Knots to metres per second with the factor the older build writes. */
  function LegacyKnotsToMs(knots: real): real
  {
    knots * 0.514444
  }

  /** What the velocity label is set to by one sentence. */
  datatype Velocity = Unchanged | SpeedMps(mps: real) | NotAvailable

  /** `parse_nmea_sentence`: an active (`A`) sentence of at least eight
      fields shows its field 7 converted from knots, or `N/A` when that
      field is not a number. */
  function ParseNmeaSentence(sentence: string): (v: Velocity)
    ensures v != Unchanged <==> |Split(sentence, ',')| >= 8 && Split(sentence, ',')[2] == "A"
    ensures v.SpeedMps? ==>
      (ParseFloat(Split(sentence, ',')[7]).Some? && v.mps == LegacyKnotsToMs(ParseFloat(Split(sentence, ',')[7]).value))
    ensures v.NotAvailable? ==> ParseFloat(Split(sentence, ',')[7]).None?
  {
    var parts := Split(sentence, ',');
    if |parts| >= 8 && parts[2] == "A" then
      match ParseFloat(parts[7])
      case Some(knots) => SpeedMps(LegacyKnotsToMs(knots))
      case None => NotAvailable
    else Unchanged
  }

  /** An assembled sentence: the status field decides, and field 7 is the speed. */
  lemma ParseOfFields(fields: seq<string>)
    requires |fields| >= 8
    requires forall i :: 0 <= i < |fields| ==> ',' !in fields[i]
    ensures fields[2] != "A" ==> ParseNmeaSentence(Join(fields, ',')) == Unchanged
    ensures fields[2] == "A" && ParseFloat(fields[7]).Some? ==>
      ParseNmeaSentence(Join(fields, ',')) == SpeedMps(LegacyKnotsToMs(ParseFloat(fields[7]).value))
    ensures fields[2] == "A" && ParseFloat(fields[7]).None? ==>
      ParseNmeaSentence(Join(fields, ',')) == NotAvailable
  {
    SplitJoin(fields, ',');
    ParseOfSplit(Join(fields, ','), fields);
  }

  lemma ParseOfSplit(sentence: string, fields: seq<string>)
    requires |fields| >= 8 && Split(sentence, ',') == fields
    ensures fields[2] != "A" ==> ParseNmeaSentence(sentence) == Unchanged
    ensures fields[2] == "A" && ParseFloat(fields[7]).Some? ==>
      ParseNmeaSentence(sentence) == SpeedMps(LegacyKnotsToMs(ParseFloat(fields[7]).value))
    ensures fields[2] == "A" && ParseFloat(fields[7]).None? ==> ParseNmeaSentence(sentence) == NotAvailable
  {
  }

  /** The sentences `read_nmea_data` hands to the parser. */
  predicate IsRmc(sentence: string)
  {
    StartsWith(sentence, "$GPRMC") || StartsWith(sentence, "$GNRMC")
  }

  /** The labels set, in order, by the RMC sentences among `sentences`. */
  function Dispatch(sentences: seq<string>): (r: seq<Velocity>)
    ensures |r| <= |sentences|
    ensures (forall i :: 0 <= i < |sentences| ==> !IsRmc(sentences[i])) ==> r == []
    ensures forall i :: 0 <= i < |r| ==> r[i] != Unchanged ==> exists j :: 0 <= j < |sentences| && IsRmc(sentences[j])
    decreases |sentences|
  {
    if |sentences| == 0 then []
    else if IsRmc(sentences[0]) then [ParseNmeaSentence(sentences[0])] + Dispatch(sentences[1..])
    else Dispatch(sentences[1..])
  }

  /** Dispatching two batches is dispatching each in turn. */
  lemma {:induction false} DispatchConcat(a: seq<string>, b: seq<string>)
    ensures Dispatch(a + b) == Dispatch(a) + Dispatch(b)
    decreases |a|
  {
    if |a| == 0 {
      assert a + b == b;
    } else {
      assert (a + b)[0] == a[0] && (a + b)[1..] == a[1..] + b;
      DispatchConcat(a[1..], b);
    }
  }

  /** What one attempt meets: a refused connection, another exception, or a
      connection with the `nmea_running` flag and the first chunk read. */
  datatype LegacyAttempt = LRefused(why: string) | LFailed(why: string) | LConnected(running: bool, chunk: seq<Byte>)

  /** `self.data` after the call, the labels set, and the return value. */
  datatype LegacyState = LegacyState(data: Option<string>, labels: seq<Velocity>, returned: Option<string>)

  /** One attempt: a refusal is retried; a connection stops the loop,
      returning the decoded chunk when there was a non-empty one. Every
      other way out of the call returns `None`. */
  function LegacyConnect(s: LegacyState, a: LegacyAttempt): (o: Outcome<LegacyState>)
    ensures a.LRefused? <==> o.Retryable?
    ensures a.LFailed? <==> o.Failed?
    ensures !o.Stopped?
    ensures o.state.returned.Some? <==> a.LConnected? && a.running && |AsciiIgnore(a.chunk)| > 0
    ensures o.state.returned.Some? ==>
      && o.state.returned.value == AsciiIgnore(a.chunk)
      && o.state.labels == s.labels + Dispatch(SplitLines(AsciiIgnore(a.chunk)))
    ensures o.state.returned.None? ==> o.state.labels == s.labels
  {
    var none := s.(returned := None);
    match a
    case LRefused(why) => Retryable(none, why)
    case LFailed(why) => Failed(none, why)
    case LConnected(running, chunk) =>
      if !running then Done(none)
      else
        var data := AsciiIgnore(chunk);
        if |data| == 0 then Done(none.(data := Some(data)))
        else
          var sentences := SplitLines(data);
          Done(LegacyState(Some(data), s.labels + Dispatch(sentences), Some(data)))
  }

  function LegacyErrorText(e: ReaderError): string
  {
    match e
    case GaveUp(why) => "NMEA error: Failed to connect after 5 attempts: " + why
    case SocketError(why) => "NMEA error: " + why
  }

  datatype LegacyRun = LegacyRun(state: LegacyState, queued: seq<QueueItem>, attempts: nat, sleeps: nat)

  /** `read_nmea_data`. */
  function ReadNmeaData(s: LegacyState, env: nat -> LegacyAttempt): (r: LegacyRun)
    ensures r.attempts <= LegacyRetries && r.sleeps < LegacyRetries && |r.queued| <= 1
    ensures forall i :: 0 <= i < |r.queued| ==> r.queued[i].tag == ErrorTag
  {
    var run := RetryLoop(s, 0, LegacyRetries, (x: LegacyState, i: nat) => LegacyConnect(x, env(i)));
    var queued := seq(|run.errors|, i requires 0 <= i < |run.errors| => QueueItem(ErrorTag, LegacyErrorText(run.errors[i])));
    LegacyRun(run.state, queued, run.attempts, run.sleeps)
  }

  /** Only refusals are retried: five of them make five attempts with four
      sleeps and queue the give-up message. */
  lemma LegacyGivesUp(s: LegacyState, env: nat -> LegacyAttempt)
    requires forall i :: 0 <= i < LegacyRetries ==> env(i).LRefused?
    ensures var r := ReadNmeaData(s, env);
      && r.attempts == LegacyRetries && r.sleeps == LegacyRetries - 1
      && r.queued == [QueueItem(ErrorTag, "NMEA error: Failed to connect after 5 attempts: " + env(LegacyRetries - 1).why)]
      && r.state.returned.None? && r.state.labels == s.labels
  {
    var step := (x: LegacyState, i: nat) => LegacyConnect(x, env(i));
    AllRetryable(s, 0, LegacyRetries, step);
    GiveUpReason(s, 0, LegacyRetries, step, env(LegacyRetries - 1).why);
    RefusalsReturnNothing(s, 0, env, step);
  }

  /** Refused attempts leave the labels alone and return nothing. */
  lemma {:induction false} RefusalsReturnNothing(s: LegacyState, attempt: nat, env: nat -> LegacyAttempt,
                                                 step: (LegacyState, nat) -> Outcome<LegacyState>)
    requires attempt < LegacyRetries
    requires forall x, i :: step(x, i) == LegacyConnect(x, env(i))
    requires forall i :: attempt <= i < LegacyRetries ==> env(i).LRefused?
    ensures RetryLoop(s, attempt, LegacyRetries, step).state == s.(returned := None)
    decreases LegacyRetries - attempt
  {
    var s1 := step(s, attempt).state;
    assert s1 == s.(returned := None);
    if attempt < LegacyRetries - 1 {
      RefusalsReturnNothing(s1, attempt + 1, env, step);
    }
  }

  /** The give-up error carries the last attempt's reason. */
  lemma {:induction false} GiveUpReason<S>(s: S, attempt: nat, max: nat, step: (S, nat) -> Outcome<S>, why: string)
    requires attempt < max
    requires forall x, i :: attempt <= i < max ==> step(x, i).Retryable? && (i == max - 1 ==> step(x, i).why == why)
    ensures RetryLoop(s, attempt, max, step).errors == [GaveUp(why)]
    decreases max - attempt
  {
    if attempt < max - 1 {
      GiveUpReason(step(s, attempt).state, attempt + 1, max, step, why);
    }
  }

  /** A first connection with data returns it after dispatching every RMC
      line, with no error and no retry. */
  lemma LegacyFirstChunk(s: LegacyState, env: nat -> LegacyAttempt)
    requires env(0).LConnected? && env(0).running && |AsciiIgnore(env(0).chunk)| > 0
    ensures var r := ReadNmeaData(s, env);
      var data := AsciiIgnore(env(0).chunk);
      && r.attempts == 1 && r.queued == [] && r.state.returned == Some(data)
      && r.state.labels == s.labels + Dispatch(SplitLines(data))
  {
    FinalAttempt(s, 0, LegacyRetries, (x: LegacyState, i: nat) => LegacyConnect(x, env(i)));
  }
}

=== FILE: nmea.dfy ===
/** The comma-field NMEA 0183 parsers of the TCP build: `parse_gpgga`
    (UTC time of a GGA fix as seconds since midnight), `parse_grmc` and
    `parse_gnvtg` (the raw speed field of RMC and VTG sentences). */
module Nmea {
  import opened Wrappers
  import opened Text
  import opened Numeric

  /** What `parse_gpgga` returns: latitude, longitude and altitude fields as
      text, and the fix time in seconds since midnight when it parses. */
  datatype Gga = Gga(lat: string, lon: string, alt: string, utc: Option<real>)

  /** A clock `HHMMSS` as seconds since midnight, when it names a valid time
      of day (`strptime`'s `%H%M%S` on exactly six digits). */
  function ClockSeconds(hhmmss: string): (r: Option<real>)
    ensures r.Some? ==> 0.0 <= r.value <= 86399.0
  {
    if |hhmmss| == 6 && AllDigits(hhmmss) then
      assert AllDigits(hhmmss[..2]) && AllDigits(hhmmss[2..4]) && AllDigits(hhmmss[4..]);
      var h := DigitsValue(hhmmss[..2]);
      var m := DigitsValue(hhmmss[2..4]);
      var s := DigitsValue(hhmmss[4..]);
      if h < 24 && m < 60 && s < 60 then Some((h * 3600 + m * 60 + s) as real) else None
    else None
  }

  /** `strptime(t, "%H%M%S.%f")`, falling back to `"%H%M%S"`, converted to
      seconds since midnight; `None` where both raise `ValueError`. */
  function UtcSeconds(t: string): (r: Option<real>)
    ensures r.Some? ==> 0.0 <= r.value < 86400.0
  {
    var parts := Split(t, '.');
    if |parts| == 1 then ClockSeconds(t)
    else if |parts| == 2 && 1 <= |parts[1]| <= 6 && AllDigits(parts[1]) then
      match ClockSeconds(parts[0])
      case None => None
      case Some(c) =>
        Some(c + FractionValue(parts[1]))
    else None
  }

  /** `parse_gpgga`: `None` (the four-`None` tuple) below ten fields; an
      empty time field gives no time. */
  function ParseGga(sentence: string): (r: Option<Gga>)
    ensures r.Some? <==> |Split(sentence, ',')| >= 10
    ensures r.Some? && r.value.utc.Some? ==> 0.0 <= r.value.utc.value < 86400.0
  {
    var parts := Split(sentence, ',');
    if |parts| < 10 then None
    else Some(Gga(parts[2], parts[4], parts[9], if |parts[1]| > 0 then UtcSeconds(parts[1]) else None))
  }

  /** The fourth element of `parse_gpgga`'s result, as the callers unpack it. */
  function GgaTime(sentence: string): (t: Option<real>)
    ensures t.Some? ==> 0.0 <= t.value < 86400.0
  {
    match ParseGga(sentence)
    case None => None
    case Some(g) => g.utc
  }

  /** `parse_grmc`: field 7 (speed over ground, knots) of a sentence with at least 12 fields. */
  function RmcSpeed(sentence: string): (r: Option<string>)
    ensures r.Some? <==> |Split(sentence, ',')| >= 12
    ensures r.Some? ==> ',' !in r.value
  {
    var parts := Split(sentence, ',');
    if |parts| < 12 then None else Some(parts[7])
  }

  /** `parse_gnvtg`: field 7 of a sentence with at least 8 fields. In a VTG
      sentence that field is the speed in km/h; the caller treats it as knots. */
  function VtgSpeed(sentence: string): (r: Option<string>)
    ensures r.Some? <==> |Split(sentence, ',')| >= 8
    ensures r.Some? ==> ',' !in r.value
  {
    var parts := Split(sentence, ',');
    if |parts| < 8 then None else Some(parts[7])
  }

  /** Two decimal digits, zero-padded. */
  function Pad2(n: nat): (s: string)
    requires n < 100
    ensures |s| == 2 && AllDigits(s)
  {
    [DigitChar(n / 10), DigitChar(n % 10)]
  }

  lemma Pad2Value(n: nat)
    requires n < 100
    ensures DigitsValue(Pad2(n)) == n
  {
    var s := Pad2(n);
    assert s[..1][..0] == [];
    assert s[..1] == [DigitChar(n / 10)];
    assert DigitsValue(s[..1]) == n / 10;
    assert DigitsValue(s) == (n / 10) * 10 + n % 10;
  }

  /** The `HHMMSS` text of a clock reading. */
  function Clock(h: nat, m: nat, s: nat): (t: string)
    requires h < 100 && m < 100 && s < 100
    ensures |t| == 6 && AllDigits(t)
  {
    Pad2(h) + Pad2(m) + Pad2(s)
  }

  lemma ClockDigits(h: nat, m: nat, s: nat)
    requires h < 100 && m < 100 && s < 100
    ensures var t := Clock(h, m, s);
      DigitsValue(t[..2]) == h && DigitsValue(t[2..4]) == m && DigitsValue(t[4..]) == s
    ensures forall i :: 0 <= i < 6 ==> Clock(h, m, s)[i] != '.'
  {
    var t := Clock(h, m, s);
    assert t[..2] == Pad2(h) && t[2..4] == Pad2(m) && t[4..] == Pad2(s);
    Pad2Value(h);
    Pad2Value(m);
    Pad2Value(s);
    forall i | 0 <= i < 6 ensures t[i] != '.' {
      assert IsDigit(t[i]);
    }
  }

  /** Six digits name a time of day exactly when they are a valid clock reading. */
  lemma ClockSecondsOf(h: nat, m: nat, s: nat)
    requires h < 100 && m < 100 && s < 100
    ensures ClockSeconds(Clock(h, m, s)).Some? <==> h < 24 && m < 60 && s < 60
    ensures h < 24 && m < 60 && s < 60 ==> ClockSeconds(Clock(h, m, s)) == Some((h * 3600 + m * 60 + s) as real)
  {
    ClockDigits(h, m, s);
  }

  /** Six digits parse exactly when they name a time of day, and then to
      `H·3600 + M·60 + S` seconds. */
  lemma ClockTime(h: nat, m: nat, s: nat)
    requires h < 100 && m < 100 && s < 100
    ensures UtcSeconds(Clock(h, m, s)).Some? <==> h < 24 && m < 60 && s < 60
    ensures h < 24 && m < 60 && s < 60 ==> UtcSeconds(Clock(h, m, s)) == Some((h * 3600 + m * 60 + s) as real)
  {
    ClockDigits(h, m, s);
    SplitPlain(Clock(h, m, s), '.');
    ClockSecondsOf(h, m, s);
  }

  lemma DigitsHaveNoDot(ds: string)
    requires AllDigits(ds)
    ensures '.' !in ds
  {
    forall i | 0 <= i < |ds| ensures ds[i] != '.' {
      assert IsDigit(ds[i]);
    }
  }

  lemma SplitAtDot(c: string, frac: string)
    requires '.' !in c && '.' !in frac
    ensures Split(c + "." + frac, '.') == [c, frac]
  {
    SplitFirst(c, '.', frac);
    SplitPlain(frac, '.');
    assert c + "." + frac == c + ['.'] + frac;
  }

  lemma ClockIsDigits(c: string)
    requires ClockSeconds(c).Some?
    ensures '.' !in c
  {
    DigitsHaveNoDot(c);
  }

  /** A valid clock `HHMMSS` followed by `.f…` with one to six fraction
      digits: the time of day plus the fraction of a second they denote. */
  lemma ClockFractionTime(c: string, frac: string, secs: real)
    requires ClockSeconds(c) == Some(secs)
    requires 1 <= |frac| <= 6 && AllDigits(frac)
    ensures UtcSeconds(c + "." + frac) == Some(secs + FractionValue(frac))
  {
    ClockIsDigits(c);
    DigitsHaveNoDot(frac);
    SplitAtDot(c, frac);
    FractionStep(c + "." + frac, c, frac, secs);
  }

  lemma FractionStep(t: string, c: string, frac: string, secs: real)
    requires Split(t, '.') == [c, frac]
    requires ClockSeconds(c) == Some(secs)
    requires 1 <= |frac| <= 6 && AllDigits(frac)
    ensures UtcSeconds(t) == Some(secs + FractionValue(frac))
  {
  }

  /** A GGA sentence assembled from its fields yields the time of field 1. */
  lemma GgaTimeOfFields(fields: seq<string>)
    requires |fields| >= 10
    requires forall i :: 0 <= i < |fields| ==> ',' !in fields[i]
    ensures GgaTime(Join(fields, ',')) == UtcSeconds(fields[1])
    ensures ParseGga(Join(fields, ',')) == Some(Gga(fields[2], fields[4], fields[9], UtcSeconds(fields[1])))
  {
    SplitJoin(fields, ',');
    if |fields[1]| == 0 {
      assert Split(fields[1], '.') == [[]];
    }
  }

  /** The speed parsers hand back exactly field 7 of an assembled sentence. */
  lemma SpeedOfFields(fields: seq<string>)
    requires |fields| >= 8
    requires forall i :: 0 <= i < |fields| ==> ',' !in fields[i]
    ensures VtgSpeed(Join(fields, ',')) == Some(fields[7])
    ensures RmcSpeed(Join(fields, ',')) == (if |fields| >= 12 then Some(fields[7]) else None)
  {
    SplitJoin(fields, ',');
  }
}

=== FILE: numeric.dfy ===
/** Numbers in text: the decimal subset of Python's `float()`, `str(int)`,
    `%02X`, and the bitwise XOR behind the NMEA 0183 checksum. */
module Numeric {
  import opened Wrappers
  import opened Text

  predicate IsDigit(c: char)
  {
    '0' <= c <= '9'
  }

  predicate AllDigits(s: string)
  {
    forall i :: 0 <= i < |s| ==> IsDigit(s[i])
  }

  function DigitValue(c: char): (d: nat)
    requires IsDigit(c)
    ensures d < 10
  {
    (c as int) - ('0' as int)
  }

  function DigitChar(d: nat): (c: char)
    requires d < 10
    ensures IsDigit(c) && DigitValue(c) == d
  {
    (d + '0' as int) as char
  }

  /** The natural number a string of decimal digits denotes (leading zeros allowed). */
  function DigitsValue(ds: string): nat
    requires AllDigits(ds)
    decreases |ds|
  {
    if |ds| == 0 then 0 else DigitsValue(ds[..|ds| - 1]) * 10 + DigitValue(ds[|ds| - 1])
  }

  /** The value of the digits after a decimal point, `0.d1d2...dn`, read
      from the right: each digit is added to the value of the ones after
      it and the sum divided by ten. */
  function FractionValue(ds: string): (f: real)
    requires AllDigits(ds)
    ensures 0.0 <= f < 1.0
    decreases |ds|
  {
    if |ds| == 0 then 0.0 else (DigitValue(ds[0]) as real + FractionValue(ds[1..])) / 10.0
  }

  /** An unsigned decimal literal `ddd`, `ddd.`, `.ddd` or `ddd.ddd`. */
  function UnsignedDecimal(s: string): Option<real>
  {
    var parts := Split(s, '.');
    if |parts| == 1 then
      if |parts[0]| > 0 && AllDigits(parts[0]) then Some(DigitsValue(parts[0]) as real) else None
    else if |parts| == 2 then
      var whole := parts[0];
      var frac := parts[1];
      if (|whole| > 0 || |frac| > 0) && AllDigits(whole) && AllDigits(frac) then
        Some(DigitsValue(whole) as real + FractionValue(frac))
      else None
    else None
  }

  /** Python's `float(s)` on the decimal notation the receiver emits:
      surrounding whitespace, an optional sign, digits with an optional
      fraction. `None` stands for the `ValueError` it raises otherwise. */
  function ParseFloat(s: string): Option<real>
  {
    var t := Strip(s);
    if |t| > 0 && (t[0] == '-' || t[0] == '+') then
      match UnsignedDecimal(t[1..])
      case None => None
      case Some(x) => Some(if t[0] == '-' then -x else x)
    else UnsignedDecimal(t)
  }

  /** Python's `int(s)` on a string without whitespace: an optional sign
      and ASCII digits. `None` stands for the `ValueError` it raises
      otherwise. */
  function IntOf(s: string): (r: Option<int>)
    ensures |s| > 0 && AllDigits(s) ==> r == Some(DigitsValue(s) as int)
    ensures r.Some? ==> |s| > 0 && (IsDigit(s[0]) || s[0] == '-' || s[0] == '+')
  {
    if |s| > 0 && (s[0] == '-' || s[0] == '+') then
      var t := s[1..];
      if |t| > 0 && AllDigits(t) then Some(if s[0] == '-' then 0 - DigitsValue(t) as int else DigitsValue(t) as int) else None
    else if |s| > 0 && AllDigits(s) then Some(DigitsValue(s) as int)
    else None
  }

  /** `str(n)` for a non-negative integer: decimal digits, no leading zero. */
  function FormatNat(n: nat): (s: string)
    ensures |s| > 0 && AllDigits(s)
    ensures |s| > 1 ==> s[0] != '0'
    ensures n < 10 <==> |s| == 1
  {
    if n < 10 then [DigitChar(n)] else FormatNat(n / 10) + [DigitChar(n % 10)]
  }

  lemma {:induction false} FormatNatValue(n: nat)
    ensures DigitsValue(FormatNat(n)) == n
  {
    if n >= 10 {
      var s := FormatNat(n);
      FormatNatValue(n / 10);
      assert s[..|s| - 1] == FormatNat(n / 10);
    }
  }

  lemma UnsignedDigits(s: string)
    requires |s| > 0 && AllDigits(s) && '.' !in s
    ensures UnsignedDecimal(s) == Some(DigitsValue(s) as real)
  {
    SplitPlain(s, '.');
  }

  /** Digits are neither blanks, nor a decimal point, nor a sign. */
  lemma DigitsPlain(s: string)
    requires AllDigits(s)
    ensures NoSpace(s) && '.' !in s && '-' !in s && '+' !in s
  {
    forall i | 0 <= i < |s| ensures !IsSpace(s[i]) && s[i] != '.' && s[i] != '-' && s[i] != '+' {
      assert IsDigit(s[i]);
    }
  }

  /** A non-empty run of digits reads back as the number it denotes. */
  lemma ParseDigits(s: string)
    requires |s| > 0 && AllDigits(s)
    ensures ParseFloat(s) == Some(DigitsValue(s) as real)
  {
    DigitsPlain(s);
    StripNoSpace(s);
    UnsignedDigits(s);
  }

  /** `float(str(n)) == n`: what `str(int(x))` writes reads back as the same number. */
  lemma ParseFormatNat(n: nat)
    ensures ParseFloat(FormatNat(n)) == Some(n as real)
  {
    ParseDigits(FormatNat(n));
    FormatNatValue(n);
  }

  const HexDigits: string := "0123456789ABCDEF"

  predicate IsHexDigit(c: char)
  {
    IsDigit(c) || 'A' <= c <= 'F'
  }

  function HexDigitValue(c: char): (d: nat)
    requires IsHexDigit(c)
    ensures d < 16
  {
    if IsDigit(c) then DigitValue(c) else (c as int) - ('A' as int) + 10
  }

  /** Upper-case hexadecimal, no leading zero (Python's `%X`). */
  function ToHex(n: nat): (s: string)
    ensures |s| > 0 && forall i :: 0 <= i < |s| ==> IsHexDigit(s[i])
    ensures n < 16 <==> |s| == 1
    ensures n < 256 ==> |s| <= 2
  {
    if n < 16 then [HexDigits[n]] else ToHex(n / 16) + [HexDigits[n % 16]]
  }

  /** Python's `%02X`: upper-case hexadecimal padded to at least two digits. */
  function Hex02(n: nat): (s: string)
    ensures |s| >= 2 && forall i :: 0 <= i < |s| ==> IsHexDigit(s[i])
    ensures n < 256 ==> |s| == 2
  {
    if n < 16 then "0" + ToHex(n) else ToHex(n)
  }

  /** The number a string of hexadecimal digits denotes. */
  function HexValue(s: string): nat
    requires forall i :: 0 <= i < |s| ==> IsHexDigit(s[i])
    decreases |s|
  {
    if |s| == 0 then 0 else HexValue(s[..|s| - 1]) * 16 + HexDigitValue(s[|s| - 1])
  }

  lemma {:induction false} ToHexValue(n: nat)
    ensures HexValue(ToHex(n)) == n
  {
    if n < 16 {
      HexDigitOf(n);
    } else {
      var s := ToHex(n);
      ToHexValue(n / 16);
      HexDigitOf(n % 16);
      assert s[..|s| - 1] == ToHex(n / 16);
      assert HexValue(s) == (n / 16) * 16 + n % 16;
    }
  }

  /** Each of the sixteen digits reads back as its own value. */
  lemma HexDigitOf(d: nat)
    requires d < 16
    ensures IsHexDigit(HexDigits[d]) && HexDigitValue(HexDigits[d]) == d
  {
  }

  lemma LeadingZeroHex(s: string)
    requires forall i :: 0 <= i < |s| ==> IsHexDigit(s[i])
    ensures HexValue("0" + s) == HexValue(s)
    decreases |s|
  {
    var t := "0" + s;
    if |s| > 0 {
      assert t[..|t| - 1] == "0" + s[..|s| - 1];
      LeadingZeroHex(s[..|s| - 1]);
    }
  }

  /** `int(format(n, '02X'), 16) == n`: the printed checksum reads back. */
  lemma Hex02Value(n: nat)
    ensures HexValue(Hex02(n)) == n
  {
    ToHexValue(n);
    if n < 16 {
      LeadingZeroHex(ToHex(n));
    }
  }

  function Pow2(k: nat): (r: nat)
    ensures r >= 1
  {
    if k == 0 then 1 else 2 * Pow2(k - 1)
  }

  /** Python's `a ^ b` on non-negative integers, bit by bit. */
  function Xor(a: nat, b: nat): nat
  {
    if a == 0 && b == 0 then 0
    else 2 * Xor(a / 2, b / 2) + (if a % 2 != b % 2 then 1 else 0)
  }

  /** XOR never sets a bit above the highest bit of its operands. */
  lemma {:induction false} XorBound(a: nat, b: nat, k: nat)
    requires a < Pow2(k) && b < Pow2(k)
    ensures Xor(a, b) < Pow2(k)
  {
    if !(a == 0 && b == 0) {
      XorBound(a / 2, b / 2, k - 1);
    }
  }

  lemma {:induction false} XorZero(a: nat)
    ensures Xor(0, a) == a
  {
    if a != 0 {
      XorZero(a / 2);
    }
  }

  lemma {:induction false} XorSelf(a: nat)
    ensures Xor(a, a) == 0
  {
    if a != 0 {
      XorSelf(a / 2);
    }
  }
}

=== FILE: ordered_dict.dfy ===
/** Python's insertion-ordered `dict` as an association list: a key keeps
    the position of its first insertion, assignment overwrites in place,
    `del` closes the gap, and `.values()` iterates in that order. */
module OrderedDict {
  import opened Wrappers

  type Dict<K, V> = seq<(K, V)>

  ghost predicate UniqueKeys<K(!new), V>(d: Dict<K, V>)
  {
    forall i, j :: 0 <= i < j < |d| ==> d[i].0 != d[j].0
  }

  ghost predicate HasKey<K(!new), V>(d: Dict<K, V>, k: K)
  {
    exists i :: 0 <= i < |d| && d[i].0 == k
  }

  /** The position of the first entry for `k`. */
  function IndexOf<K(==,!new), V>(d: Dict<K, V>, k: K): (r: Option<nat>)
    ensures r.Some? ==> r.value < |d| && d[r.value].0 == k
    ensures r.Some? ==> forall i :: 0 <= i < r.value ==> d[i].0 != k
    ensures r.None? <==> !HasKey(d, k)
    decreases |d|
  {
    if |d| == 0 then None
    else if d[0].0 == k then Some(0)
    else match IndexOf(d[1..], k)
      case None => None
      case Some(i) => Some(i + 1)
  }

  /** `d.get(k)`. */
  function Get<K(==,!new), V>(d: Dict<K, V>, k: K): (r: Option<V>)
    ensures r.Some? <==> HasKey(d, k)
    ensures r.Some? ==> exists i :: 0 <= i < |d| && d[i] == (k, r.value)
  {
    match IndexOf(d, k)
    case None => None
    case Some(i) => Some(d[i].1)
  }

  lemma GetAt<K(!new), V>(d: Dict<K, V>, i: nat)
    requires UniqueKeys(d) && i < |d|
    ensures Get(d, d[i].0) == Some(d[i].1)
  {
  }

  /** `d[k] = v`: overwrites an existing entry where it stands, appends otherwise. */
  function Put<K(==,!new), V>(d: Dict<K, V>, k: K, v: V): (r: Dict<K, V>)
    ensures Get(r, k) == Some(v)
    ensures forall k' :: k' != k ==> Get(r, k') == Get(d, k')
    ensures UniqueKeys(d) ==> UniqueKeys(r)
    ensures HasKey(d, k) ==> |r| == |d| && forall i :: 0 <= i < |d| ==> r[i].0 == d[i].0
    ensures !HasKey(d, k) ==> r == d + [(k, v)]
  {
    match IndexOf(d, k)
    case Some(i) =>
      var r := d[i := (k, v)];
      assert r[i].0 == k;
      assert IndexOf(r, k) == Some(i);
      assert forall k' :: k' != k ==> IndexOf(r, k') == IndexOf(d, k') by {
        forall k' | k' != k ensures IndexOf(r, k') == IndexOf(d, k') {
          IndexOfUpdate(d, i, k, v, k');
        }
      }
      r
    case None =>
      var r := d + [(k, v)];
      assert forall k' :: IndexOf(r, k') == (if k' == k then Some(|d|) else IndexOf(d, k')) by {
        forall k' ensures IndexOf(r, k') == (if k' == k then Some(|d|) else IndexOf(d, k')) {
          IndexOfAppend(d, k, v, k');
        }
      }
      r
  }

  /** Every entry after `d[k] = v` is the new one or was already there. */
  lemma PutEntries<K(!new), V>(d: Dict<K, V>, k: K, v: V)
    ensures forall i :: 0 <= i < |Put(d, k, v)| ==> Put(d, k, v)[i] == (k, v) || Put(d, k, v)[i] in d
  {
  }

  lemma IndexOfUpdate<K(!new), V>(d: Dict<K, V>, i: nat, k: K, v: V, k': K)
    requires i < |d| && d[i].0 == k && k' != k
    ensures IndexOf(d[i := (k, v)], k') == IndexOf(d, k')
    decreases |d|
  {
    if |d| > 0 && i > 0 {
      assert d[i := (k, v)][1..] == d[1..][i - 1 := (k, v)];
      IndexOfUpdate(d[1..], i - 1, k, v, k');
    }
  }

  lemma IndexOfAppend<K(!new), V>(d: Dict<K, V>, k: K, v: V, k': K)
    requires !HasKey(d, k)
    ensures IndexOf(d + [(k, v)], k') == (if k' == k then Some(|d|) else IndexOf(d, k'))
    decreases |d|
  {
    if |d| > 0 {
      assert (d + [(k, v)])[1..] == d[1..] + [(k, v)];
      IndexOfAppend(d[1..], k, v, k');
    }
  }

  /** After `d[k] = v` the keys are those of `d` and `k`. */
  lemma PutHasKey<K(!new), V>(d: Dict<K, V>, k: K, v: V, k': K)
    ensures HasKey(Put(d, k, v), k') <==> k' == k || HasKey(d, k')
  {
    if k' != k {
      assert Get(Put(d, k, v), k') == Get(d, k');
    }
  }

  /** `del d[k]` for a present key: the other entries keep their order. */
  function Del<K(==,!new), V>(d: Dict<K, V>, k: K): (r: Dict<K, V>)
    requires UniqueKeys(d) && HasKey(d, k)
    ensures |r| == |d| - 1
    ensures UniqueKeys(r)
    ensures !HasKey(r, k)
    ensures forall k' :: k' != k ==> Get(r, k') == Get(d, k')
  {
    var i := IndexOf(d, k).value;
    var r := d[..i] + d[i + 1..];
    assert forall k' :: k' != k ==> Get(r, k') == Get(d, k') by {
      forall k' | k' != k ensures Get(r, k') == Get(d, k') {
        GetAfterRemove(d, i, k');
      }
    }
    r
  }

  lemma GetAfterRemove<K(!new), V>(d: Dict<K, V>, i: nat, k': K)
    requires UniqueKeys(d) && i < |d| && d[i].0 != k'
    ensures Get(d[..i] + d[i + 1..], k') == Get(d, k')
  {
    var r := d[..i] + d[i + 1..];
    assert forall j :: 0 <= j < |r| ==> r[j] == (if j < i then d[j] else d[j + 1]);
    if IndexOf(d, k').Some? {
      var j := IndexOf(d, k').value;
      var j' := if j < i then j else j - 1;
      assert r[j'] == d[j];
      assert IndexOf(r, k') == Some(j');
    }
  }

  /** After `del d[k]` the keys are those of `d` but `k`. */
  lemma DelHasKey<K(!new), V>(d: Dict<K, V>, k: K, k': K)
    requires UniqueKeys(d) && HasKey(d, k)
    ensures HasKey(Del(d, k), k') <==> k' != k && HasKey(d, k')
  {
    if k' != k {
      assert Get(Del(d, k), k') == Get(d, k');
    }
  }

  function Keys<K, V>(d: Dict<K, V>): (ks: seq<K>)
    ensures |ks| == |d| && forall i :: 0 <= i < |d| ==> ks[i] == d[i].0
  {
    seq(|d|, i requires 0 <= i < |d| => d[i].0)
  }

  /** `list(d.values())`. */
  function Values<K, V>(d: Dict<K, V>): (vs: seq<V>)
    ensures |vs| == |d| && forall i :: 0 <= i < |d| ==> vs[i] == d[i].1
  {
    seq(|d|, i requires 0 <= i < |d| => d[i].1)
  }
}

=== FILE: percentile.dfy ===
/** `np.percentile(xs, 50)` with NumPy's default linear interpolation: the
    middle element of the sorted sample, or the midpoint of the two middle
    ones when the sample has even length. */
module Percentile {

  predicate Sorted(s: seq<real>)
  {
    forall i, j :: 0 <= i < j < |s| ==> s[i] <= s[j]
  }

  /** Inserts `x` in front of the first element not below it. */
  function Insert(x: real, s: seq<real>): (r: seq<real>)
    requires Sorted(s)
    ensures Sorted(r)
    ensures multiset(r) == multiset(s) + multiset{x}
    decreases |s|
  {
    if |s| == 0 || x <= s[0] then [x] + s
    else
      var t := Insert(x, s[1..]);
      InsertTail(x, s, t);
      [s[0]] + t
  }

  /** The step of `Insert` past the first entry: that entry is below `x`
      and below every entry of the tail, so it stays in front. */
  lemma InsertTail(x: real, s: seq<real>, t: seq<real>)
    requires Sorted(s) && |s| > 0 && s[0] < x
    requires Sorted(t) && multiset(t) == multiset(s[1..]) + multiset{x}
    ensures Sorted([s[0]] + t)
    ensures multiset([s[0]] + t) == multiset(s) + multiset{x}
  {
    forall i | 0 <= i < |t| ensures s[0] <= t[i] {
      assert t[i] in multiset(t);
      if t[i] != x {
        assert t[i] in multiset(s[1..]);
        var k :| 0 <= k < |s[1..]| && s[1..][k] == t[i];
        assert s[k + 1] == t[i];
      }
    }
    assert s == [s[0]] + s[1..];
  }

  /** The sample in ascending order. */
  function Sort(xs: seq<real>): (r: seq<real>)
    ensures Sorted(r)
    ensures multiset(r) == multiset(xs)
    ensures |r| == |xs|
    decreases |xs|
  {
    if |xs| == 0 then []
    else
      assert xs == [xs[0]] + xs[1..];
      Insert(xs[0], Sort(xs[1..]))
  }

  /** How many entries are at most `m`. */
  function CountLe(xs: seq<real>, m: real): (n: nat)
    ensures n <= |xs|
  {
    if |xs| == 0 then 0 else (if xs[0] <= m then 1 else 0) + CountLe(xs[1..], m)
  }

  /** How many entries are at least `m`. */
  function CountGe(xs: seq<real>, m: real): (n: nat)
    ensures n <= |xs|
  {
    if |xs| == 0 then 0 else (if xs[0] >= m then 1 else 0) + CountGe(xs[1..], m)
  }

  /** The 50th percentile of a non-empty sample. */
  function Median(xs: seq<real>): (m: real)
    requires |xs| > 0
    ensures 2 * CountLe(xs, m) >= |xs| && 2 * CountGe(xs, m) >= |xs|
    ensures |xs| % 2 == 1 ==> m in multiset(xs)
  {
    var s := Sort(xs);
    var h := |s| / 2;
    var m := Middle(s);
    MedianHalves(s, m);
    CountPermutation(s, xs, m);
    assert |s| % 2 == 1 ==> s[h] in multiset(s);
    m
  }

  /** The middle entry of an odd-length sequence, or the midpoint of its two
      middle entries. */
  function Middle(s: seq<real>): real
    requires |s| > 0
  {
    var h := |s| / 2;
    if |s| % 2 == 1 then s[h] else (s[h - 1] + s[h]) / 2.0
  }

  lemma MedianHalves(s: seq<real>, m: real)
    requires Sorted(s) && |s| > 0
    requires m == if |s| % 2 == 1 then s[|s| / 2] else (s[|s| / 2 - 1] + s[|s| / 2]) / 2.0
    ensures 2 * CountLe(s, m) >= |s| && 2 * CountGe(s, m) >= |s|
  {
    var h := |s| / 2;
    if |s| % 2 == 1 {
      LowerPrefix(s, h + 1, m);
      UpperSuffix(s, h, m);
    } else {
      assert s[h - 1] <= s[h];
      LowerPrefix(s, h, m);
      UpperSuffix(s, h, m);
    }
  }

  /** When the `k`th smallest entry is at most `m`, at least `k` entries are. */
  lemma LowerPrefix(s: seq<real>, k: nat, m: real)
    requires Sorted(s) && 0 < k <= |s| && s[k - 1] <= m
    ensures CountLe(s, m) >= k
  {
    assert s == s[..k] + s[k..];
    CountLeSplit(s[..k], s[k..], m);
    CountLeAll(s[..k], m);
  }

  /** When the entry at `k` is at least `m`, so are all the ones after it. */
  lemma UpperSuffix(s: seq<real>, k: nat, m: real)
    requires Sorted(s) && k < |s| && s[k] >= m
    ensures CountGe(s, m) >= |s| - k
  {
    assert s == s[..k] + s[k..];
    CountGeSplit(s[..k], s[k..], m);
    CountGeAll(s[k..], m);
  }

  lemma {:induction false} CountLeSplit(a: seq<real>, b: seq<real>, m: real)
    ensures CountLe(a + b, m) == CountLe(a, m) + CountLe(b, m)
    decreases |a|
  {
    if |a| == 0 {
      assert a + b == b;
    } else {
      assert (a + b)[1..] == a[1..] + b;
      CountLeSplit(a[1..], b, m);
    }
  }

  lemma {:induction false} CountGeSplit(a: seq<real>, b: seq<real>, m: real)
    ensures CountGe(a + b, m) == CountGe(a, m) + CountGe(b, m)
    decreases |a|
  {
    if |a| == 0 {
      assert a + b == b;
    } else {
      assert (a + b)[1..] == a[1..] + b;
      CountGeSplit(a[1..], b, m);
    }
  }

  lemma {:induction false} CountLeAll(a: seq<real>, m: real)
    requires forall i :: 0 <= i < |a| ==> a[i] <= m
    ensures CountLe(a, m) == |a|
    decreases |a|
  {
    if |a| > 0 {
      CountLeAll(a[1..], m);
    }
  }

  lemma {:induction false} CountGeAll(a: seq<real>, m: real)
    requires forall i :: 0 <= i < |a| ==> a[i] >= m
    ensures CountGe(a, m) == |a|
    decreases |a|
  {
    if |a| > 0 {
      CountGeAll(a[1..], m);
    }
  }

  /** Removing the entry at `j` removes its contribution to the counts. */
  lemma {:induction false} CountRemove(b: seq<real>, j: nat, m: real)
    requires j < |b|
    ensures CountLe(b, m) == CountLe(b[..j] + b[j + 1..], m) + (if b[j] <= m then 1 else 0)
    ensures CountGe(b, m) == CountGe(b[..j] + b[j + 1..], m) + (if b[j] >= m then 1 else 0)
  {
    assert b == b[..j] + [b[j]] + b[j + 1..];
    CountLeSplit(b[..j] + [b[j]], b[j + 1..], m);
    CountLeSplit(b[..j], [b[j]], m);
    CountLeSplit(b[..j], b[j + 1..], m);
    CountGeSplit(b[..j] + [b[j]], b[j + 1..], m);
    CountGeSplit(b[..j], [b[j]], m);
    CountGeSplit(b[..j], b[j + 1..], m);
  }

  lemma MultisetRemove(b: seq<real>, j: nat)
    requires j < |b|
    ensures multiset(b[..j] + b[j + 1..]) == multiset(b) - multiset{b[j]}
  {
    assert b == b[..j] + [b[j]] + b[j + 1..];
    assert multiset(b) == multiset(b[..j]) + multiset{b[j]} + multiset(b[j + 1..]);
  }

  /** The counts depend only on the multiset of entries, so the sorted
      sample and the sample agree on them. */
  lemma {:induction false} CountPermutation(a: seq<real>, b: seq<real>, m: real)
    requires multiset(a) == multiset(b)
    ensures CountLe(a, m) == CountLe(b, m) && CountGe(a, m) == CountGe(b, m)
    decreases |a|
  {
    if |a| == 0 {
      assert |b| == |multiset(b)| == 0;
    } else {
      assert a[0] in multiset(b);
      var j :| 0 <= j < |b| && b[j] == a[0];
      var b' := b[..j] + b[j + 1..];
      MultisetRemove(b, j);
      assert a == [a[0]] + a[1..];
      assert multiset(a[1..]) == multiset(a) - multiset{a[0]};
      CountPermutation(a[1..], b', m);
      CountRemove(b, j, m);
    }
  }

  /** The first entry of a sorted sample is its least element. */
  lemma SortedFirst(s: seq<real>, x: real)
    requires Sorted(s) && |s| > 0 && x in multiset(s)
    ensures s[0] <= x
  {
    var k :| 0 <= k < |s| && s[k] == x;
  }

  /** There is only one ascending arrangement of a sample. */
  lemma {:induction false} SortedUnique(a: seq<real>, b: seq<real>)
    requires Sorted(a) && Sorted(b) && multiset(a) == multiset(b)
    ensures a == b
    decreases |a|
  {
    if |a| == 0 {
      assert |b| == |multiset(b)| == 0;
    } else {
      assert |b| == |multiset(b)|;
      SameFirst(a, b);
      SortedTails(a, b);
      SortedUnique(a[1..], b[1..]);
      SameHeadTail(a, b);
    }
  }

  /** Removing the same first entry from two ascending arrangements of one
      sample leaves two ascending arrangements of one sample. */
  lemma SortedTails(a: seq<real>, b: seq<real>)
    requires Sorted(a) && Sorted(b) && multiset(a) == multiset(b)
    requires |a| > 0 && |b| > 0 && a[0] == b[0]
    ensures Sorted(a[1..]) && Sorted(b[1..]) && multiset(a[1..]) == multiset(b[1..])
  {
    MultisetTail(a);
    MultisetTail(b);
  }

  lemma SameHeadTail(a: seq<real>, b: seq<real>)
    requires |a| > 0 && |b| > 0 && a[0] == b[0] && a[1..] == b[1..]
    ensures a == b
  {
    assert a == [a[0]] + a[1..] && b == [b[0]] + b[1..];
  }

  /** Two ascending arrangements of one sample start with the same entry. */
  lemma SameFirst(a: seq<real>, b: seq<real>)
    requires Sorted(a) && Sorted(b) && multiset(a) == multiset(b) && |a| > 0 && |b| > 0
    ensures a[0] == b[0]
  {
    assert a[0] in multiset(a) && b[0] in multiset(b);
    SortedFirst(a, b[0]);
    SortedFirst(b, a[0]);
  }

  lemma MultisetTail(a: seq<real>)
    requires |a| > 0
    ensures multiset(a[1..]) == multiset(a) - multiset{a[0]}
  {
    assert a == [a[0]] + a[1..];
  }

  /** The median depends only on the multiset of entries, not their order. */
  lemma MedianPermutation(xs: seq<real>, ys: seq<real>)
    requires |xs| > 0 && multiset(xs) == multiset(ys)
    ensures |ys| > 0 && Median(xs) == Median(ys)
  {
    assert |ys| == |multiset(ys)| == |xs|;
    SortedUnique(Sort(xs), Sort(ys));
  }

  /** The value in terms of any ascending arrangement `s` of the sample:
      the middle entry for an odd count, and for an even count the midpoint
      of the two middle entries, which linear interpolation at the 50th
      percentile gives. */
  lemma MedianOfSorted(xs: seq<real>, s: seq<real>)
    requires |xs| > 0 && Sorted(s) && multiset(s) == multiset(xs)
    ensures |s| == |xs|
    ensures Median(xs) == if |s| % 2 == 1 then s[|s| / 2] else (s[|s| / 2 - 1] + s[|s| / 2]) / 2.0
  {
    assert |s| == |multiset(s)| == |xs|;
    SortedUnique(Sort(xs), s);
  }

  /** Sorting an ascending sample leaves it as it is. */
  lemma SortSorted(s: seq<real>)
    requires Sorted(s)
    ensures Sort(s) == s
  {
    SortedUnique(Sort(s), s);
  }
}

=== FILE: plot_window.dfy ===
/** The sliding plot windows of `update_kinematic` and `update_cep_err_plot`:
    each sample is stored with its time relative to the window's
    `initial_time`, at most 500 samples are kept, and once the window
    overflows its times are rebased so that the oldest kept sample is at 0. */
module PlotWindow {

  const MaxPoints: nat := 500

  datatype Point<V> = Point(time: real, value: V)

  /** `initial` is the base time of the stored relative times; it is only
      meaningful while `points` is non-empty. */
  datatype Window<V> = Window(initial: real, points: seq<Point<V>>)

  function Empty<V>(): (w: Window<V>)
    ensures |w.points| == 0
  {
    Window(0.0, [])
  }

  /** The newest stored point. */
  function Last<V>(w: Window<V>): Point<V>
    requires |w.points| > 0
  {
    w.points[|w.points| - 1]
  }

  /** Moves every time earlier by `d`. */
  function Shift<V>(pts: seq<Point<V>>, d: real): (r: seq<Point<V>>)
    ensures |r| == |pts|
    ensures forall i :: 0 <= i < |pts| ==> r[i] == Point(pts[i].time - d, pts[i].value)
  {
    seq(|pts|, i requires 0 <= i < |pts| => Point(pts[i].time - d, pts[i].value))
  }

  /** The newest `MaxPoints` entries (Python's `xs[-500:]`). */
  function Newest<T>(xs: seq<T>): (r: seq<T>)
    ensures |r| == if |xs| > MaxPoints then MaxPoints else |xs|
    ensures forall i :: 0 <= i < |r| ==> r[i] == xs[|xs| - |r| + i]
  {
    if |xs| > MaxPoints then xs[|xs| - MaxPoints..] else xs
  }

  /** The append exactly as both update functions write it: after an
      overflow the new `initial_time` is the first kept time, which is
      itself a relative time. Until the window is full it agrees with the
      corrected `Append`; on an overflow the newest stored time plus the new
      base falls short of the sample time by the old base. */
  function AppendAsWritten<V>(w: Window<V>, t: real, v: V): (r: Window<V>)
    requires |w.points| <= MaxPoints
    ensures |r.points| <= MaxPoints
    ensures |r.points| == if |w.points| == MaxPoints then MaxPoints else |w.points| + 1
    ensures r.points[|r.points| - 1].value == v
    ensures |w.points| < MaxPoints ==> r == Append(w, t, v)
    ensures |w.points| < MaxPoints ==> r.points[|r.points| - 1].time + r.initial == t
    ensures |w.points| == MaxPoints ==>
      && r.points[0].time == 0.0
      && r.points[MaxPoints - 1].time + r.initial == t - w.initial
      && r.points[MaxPoints - 1].time == t - w.initial - w.points[1].time
  {
    var initial := if |w.points| == 0 then t else w.initial;
    var pts := w.points + [Point(t - initial, v)];
    if |pts| > MaxPoints then
      var kept := Newest(pts);
      assert kept[0] == w.points[1] && kept[MaxPoints - 1] == Point(t - initial, v);
      Window(kept[0].time, Shift(kept, kept[0].time))
    else Window(initial, pts)
  }

  /** The append with the rebase carried into `initial_time`, so that
      stored time plus `initial` stays the sample's own time. */
  function Append<V>(w: Window<V>, t: real, v: V): (r: Window<V>)
    requires |w.points| <= MaxPoints
    ensures |r.points| <= MaxPoints
    ensures |r.points| == if |w.points| == MaxPoints then MaxPoints else |w.points| + 1
    ensures r.points[|r.points| - 1] == Point(t - r.initial, v)
    ensures |w.points| == MaxPoints ==> r.points[0].time == 0.0
  {
    var initial := if |w.points| == 0 then t else w.initial;
    var pts := w.points + [Point(t - initial, v)];
    if |pts| > MaxPoints then
      var kept := Newest(pts);
      Window(initial + kept[0].time, Shift(kept, kept[0].time))
    else Window(initial, pts)
  }

  /** The window shows the samples `abs` (with their own times). */
  ghost predicate Shows<V>(w: Window<V>, abs: seq<Point<V>>)
  {
    ShowsFrom(w.points, w.initial, abs)
  }

  /** `pts`, read with base time `base`, are the samples `abs`. */
  ghost predicate ShowsFrom<V>(pts: seq<Point<V>>, base: real, abs: seq<Point<V>>)
  {
    && |pts| == |abs|
    && forall i :: 0 <= i < |abs| ==> pts[i].time + base == abs[i].time && pts[i].value == abs[i].value
  }

  lemma ExtendShows<V>(pts: seq<Point<V>>, base: real, abs: seq<Point<V>>, t: real, v: V)
    requires ShowsFrom(pts, base, abs)
    ensures ShowsFrom(pts + [Point(t - base, v)], base, abs + [Point(t, v)])
  {
    var p := pts + [Point(t - base, v)];
    var a := abs + [Point(t, v)];
    forall i | 0 <= i < |a| ensures p[i].time + base == a[i].time && p[i].value == a[i].value {
      if i < |abs| {
        assert p[i] == pts[i] && a[i] == abs[i];
      }
    }
  }

  lemma RebaseShows<V>(pts: seq<Point<V>>, base: real, abs: seq<Point<V>>)
    requires ShowsFrom(pts, base, abs) && |pts| > MaxPoints
    ensures var kept := Newest(pts);
      ShowsFrom(Shift(kept, kept[0].time), base + kept[0].time, Newest(abs))
  {
    var kept := Newest(pts);
    var off := |pts| - MaxPoints;
    var shifted := Shift(kept, kept[0].time);
    forall i | 0 <= i < MaxPoints
      ensures shifted[i].time + (base + kept[0].time) == Newest(abs)[i].time && shifted[i].value == Newest(abs)[i].value
    {
      assert kept[i] == pts[off + i] && Newest(abs)[i] == abs[off + i];
    }
  }

  /** The corrected window always shows exactly the newest 500 samples
      appended, each at its own time. */
  lemma AppendShows<V>(w: Window<V>, abs: seq<Point<V>>, t: real, v: V)
    requires |w.points| <= MaxPoints && Shows(w, abs)
    ensures Shows(Append(w, t, v), Newest(abs + [Point(t, v)]))
  {
    if |w.points| == MaxPoints {
      AppendFullShows(w, abs, t, v);
    } else {
      AppendPartialShows(w, abs, t, v);
    }
  }

  lemma AppendFullShows<V>(w: Window<V>, abs: seq<Point<V>>, t: real, v: V)
    requires |w.points| == MaxPoints && Shows(w, abs)
    ensures Shows(Append(w, t, v), Newest(abs + [Point(t, v)]))
  {
    var initial := w.initial;
    ExtendShows(w.points, initial, abs, t, v);
    var pts := w.points + [Point(t - initial, v)];
    var all := abs + [Point(t, v)];
    RebaseShows(pts, initial, all);
  }

  lemma AppendPartialShows<V>(w: Window<V>, abs: seq<Point<V>>, t: real, v: V)
    requires |w.points| < MaxPoints && Shows(w, abs)
    ensures Shows(Append(w, t, v), Newest(abs + [Point(t, v)]))
  {
    var initial := if |w.points| == 0 then t else w.initial;
    assert ShowsFrom(w.points, initial, abs);
    ExtendShows(w.points, initial, abs, t, v);
  }

  /** Two consecutive appends to a full as-written window: the gap between
      the last two stored times is the gap between their sample times plus
      the window's `initial_time` before the first of them. */
  lemma AsWrittenGap<V>(w: Window<V>, a: real, x: V, b: real, y: V)
    requires |w.points| == MaxPoints
    ensures var w2 := AppendAsWritten(AppendAsWritten(w, a, x), b, y);
      w2.points[MaxPoints - 1].time - w2.points[MaxPoints - 2].time == b - a + w.initial
  {
    var w1 := AppendAsWritten(w, a, x);
    var pts1 := w.points + [Point(a - w.initial, x)];
    assert Newest(pts1) == pts1[1..];
    assert w1.initial == w.points[1].time;
    assert w1.points[MaxPoints - 1].time == a - w.initial - w.points[1].time;
    var pts2 := w1.points + [Point(b - w1.initial, y)];
    assert Newest(pts2) == pts2[1..];
  }

  /** The corrected window keeps the gap between consecutive samples. */
  lemma AppendGap<V>(w: Window<V>, a: real, x: V, b: real, y: V)
    requires |w.points| <= MaxPoints
    ensures var w1 := Append(w, a, x);
      var w2 := Append(w1, b, y);
      w2.points[|w2.points| - 1].time - w2.points[|w2.points| - 2].time == b - a
  {
    var w1 := Append(w, a, x);
    var abs := Absolute(w);
    AppendShows(w, abs, a, x);
    var abs1 := Newest(abs + [Point(a, x)]);
    NewestLast(abs, Point(a, x));
    AppendShows(w1, abs1, b, y);
    var abs2 := Newest(abs1 + [Point(b, y)]);
    NewestLast(abs1, Point(b, y));
    ShownGap(Append(w1, b, y), abs2);
  }

  /** The samples a window shows: each stored time plus the base. */
  function Absolute<V>(w: Window<V>): (abs: seq<Point<V>>)
    ensures Shows(w, abs)
  {
    seq(|w.points|, i requires 0 <= i < |w.points| => Point(w.points[i].time + w.initial, w.points[i].value))
  }

  /** Keeping the newest entries after an append keeps the appended entry
      last and, when there was one, the previous last entry before it. */
  lemma NewestLast<T>(xs: seq<T>, p: T)
    ensures var r := Newest(xs + [p]);
      && |r| > 0 && r[|r| - 1] == p
      && (|xs| > 0 ==> |r| > 1 && r[|r| - 2] == xs[|xs| - 1])
  {
  }

  /** The gap between the last two stored times is the gap between the
      last two samples shown. */
  lemma ShownGap<V>(w: Window<V>, abs: seq<Point<V>>)
    requires Shows(w, abs) && |abs| >= 2
    ensures w.points[|w.points| - 1].time - w.points[|w.points| - 2].time
      == abs[|abs| - 1].time - abs[|abs| - 2].time
  {
    assert w.points[|abs| - 1].time + w.initial == abs[|abs| - 1].time;
    assert w.points[|abs| - 2].time + w.initial == abs[|abs| - 2].time;
  }

  /** The discrepancy in numbers: a full window whose samples started at
      t = 1 s receives samples at 501 s and 502 s, one second apart; the
      as-written window plots them two seconds apart, the corrected one
      one second apart. */
  lemma AsWrittenCounterexample<V>(w: Window<V>, x: V, y: V)
    requires |w.points| == MaxPoints && w.initial == 1.0
    ensures var bad := AppendAsWritten(AppendAsWritten(w, 501.0, x), 502.0, y);
      bad.points[MaxPoints - 1].time - bad.points[MaxPoints - 2].time == 2.0
    ensures var good := Append(Append(w, 501.0, x), 502.0, y);
      good.points[MaxPoints - 1].time - good.points[MaxPoints - 2].time == 1.0
  {
    AsWrittenGap(w, 501.0, x, 502.0, y);
    AppendGap(w, 501.0, x, 502.0, y);
  }
}

=== FILE: position_fix.dfy ===
/** `parse_position_status` of the TCP build: the position line's tokens
    are kept as `self.parts`; a new fix sets the PVT flag and refreshes CEP,
    RMS velocity and the CEP plot; a repeated fix still feeds the CEP
    buffers and plots with the previous RMS velocity. */
module PositionFix {
  import opened Wrappers
  import opened Text
  import opened Tracking
  import opened Stats
  import opened PlotWindow
  import opened Kinematics

  /** The attributes the handler writes. `parts` is `self.parts`, which
      `calculate_cep` reads. */
  datatype PosState = PosState(
    parts: seq<string>,
    oldTime: string,
    pvt: bool,
    cep: real,
    vrms: real,
    buffers: Buffers,
    plot: Window<(real, real)>)

  predicate ValidPos(s: PosState)
  {
    Stats.Valid(s.buffers) && |s.plot.points| <= MaxPoints
  }

  /** `parse_position_status(line)`, reading the clock, `first_time` and the
      latest speed from the kinematic state. */
  function ParsePositionStatus(s: PosState, line: string, kin: Kin, dist: Distance): (r: Step<PosState>)
    requires ValidPos(s)
    ensures ValidPos(r.state)
    ensures r.state.parts == Tokens(line)
    ensures |Tokens(line)| < 12 ==> r == Step(s.(parts := Tokens(line)), false)
    ensures 12 <= |Tokens(line)| < 14 ==> r.raised && r.state.buffers == s.buffers
    ensures r.raised ==> r.state.oldTime == s.oldTime && r.state.plot == s.plot
    ensures !r.raised && |Tokens(line)| >= 12 ==> r.state.oldTime == Tokens(line)[1]
    ensures r.state.pvt == (s.pvt || (|Tokens(line)| >= 12 && IsNewFix(Tokens(line), s.oldTime)))
    ensures |Tokens(line)| >= 12 && !IsNewFix(Tokens(line), s.oldTime) ==>
      r.state.vrms == s.vrms && r.state.buffers.speeds == s.buffers.speeds
    ensures !r.raised && |Tokens(line)| >= 12 ==>
      |r.state.plot.points| > 0 && r.state.plot.points[|r.state.plot.points| - 1].value == (r.state.cep, r.state.vrms)
    ensures !r.raised && |Tokens(line)| >= 12 ==> kin.firstTime.Some?
    ensures |Tokens(line)| >= 14 ==>
      r.state.buffers.lon == CalculateCep(s.buffers, Tokens(line), dist).b.lon
      && r.state.buffers.lat == CalculateCep(s.buffers, Tokens(line), dist).b.lat
    ensures |Tokens(line)| < 14 || CalculateCep(s.buffers, Tokens(line), dist).raised ==>
      r.state.cep == s.cep && r.state.vrms == s.vrms
    ensures !r.raised && |Tokens(line)| >= 12 ==> r.state.cep == CalculateCep(s.buffers, Tokens(line), dist).cep
    ensures !r.raised && |Tokens(line)| >= 12 && IsNewFix(Tokens(line), s.oldTime) ==>
      r.state.vrms == CalculateVrms(CalculateCep(s.buffers, Tokens(line), dist).b, kin.velocityMs).1
    ensures !r.raised && |Tokens(line)| >= 12 && |s.plot.points| < MaxPoints ==>
      Last(r.state.plot).time + r.state.plot.initial == kin.currentUtc - kin.firstTime.value
    ensures !r.raised && |Tokens(line)| >= 12 && |s.plot.points| == MaxPoints ==>
      Last(r.state.plot).time + r.state.plot.initial == kin.currentUtc - kin.firstTime.value - s.plot.initial
  {
    var p := Tokens(line);
    var s1 := s.(parts := p);
    if |p| < 12 then Step(s1, false)
    else
      var isNew := IsNewFix(p, s.oldTime);
      var s2 := if isNew then s1.(pvt := true) else s1;
      if |p| < 14 then Step(s2, true)
      else FixStatistics(s2, p, kin, dist, isNew)
  }

  /** The statistics part of the handler for a line of at least 14 tokens:
      `calculate_cep`, then for a new fix `calculate_vrms`, then the CEP
      plot at the time since `first_time` (which raises while unset). */
  function FixStatistics(s: PosState, p: seq<string>, kin: Kin, dist: Distance, isNew: bool): (r: Step<PosState>)
    requires ValidPos(s) && |p| >= 14
    ensures ValidPos(r.state)
    ensures r.state.parts == s.parts && r.state.pvt == s.pvt
    ensures r.raised ==> r.state.oldTime == s.oldTime && r.state.plot == s.plot
    ensures !r.raised ==> r.state.oldTime == p[1]
    ensures !r.raised ==>
      |r.state.plot.points| > 0 && r.state.plot.points[|r.state.plot.points| - 1].value == (r.state.cep, r.state.vrms)
    ensures !isNew ==> r.state.vrms == s.vrms && r.state.buffers.speeds == s.buffers.speeds
    ensures r.state.buffers.lat == CalculateCep(s.buffers, p, dist).b.lat
    ensures r.state.buffers.lon == CalculateCep(s.buffers, p, dist).b.lon
    ensures !CalculateCep(s.buffers, p, dist).raised ==>
      r.state.buffers.lat == CalculateCep(s.buffers, p, dist).b.lat
    ensures CalculateCep(s.buffers, p, dist).raised ==> r.state.cep == s.cep && r.state.vrms == s.vrms
    ensures !CalculateCep(s.buffers, p, dist).raised ==> r.state.cep == CalculateCep(s.buffers, p, dist).cep
    ensures isNew && !CalculateCep(s.buffers, p, dist).raised ==>
      r.state.buffers.speeds == Evict(s.buffers.speeds) + [kin.velocityMs]
      && r.state.vrms == Mean(Squares(r.state.buffers.speeds))
    ensures isNew && !CalculateCep(s.buffers, p, dist).raised ==>
      |r.state.buffers.speeds| > 0 && r.state.buffers.speeds[|r.state.buffers.speeds| - 1] == kin.velocityMs
    ensures !r.raised <==> !CalculateCep(s.buffers, p, dist).raised && kin.firstTime.Some?
    ensures !r.raised && |s.plot.points| < MaxPoints ==>
      Last(r.state.plot).time + r.state.plot.initial == kin.currentUtc - kin.firstTime.value
    ensures !r.raised && |s.plot.points| == MaxPoints ==>
      Last(r.state.plot).time + r.state.plot.initial == kin.currentUtc - kin.firstTime.value - s.plot.initial
  {
    var c := CalculateCep(s.buffers, p, dist);
    if c.raised then Step(s.(buffers := c.b), true)
    else
      var v := if isNew then CalculateVrms(c.b, kin.velocityMs) else (c.b, s.vrms);
      PlotStatistics(s.(buffers := v.0, cep := c.cep, vrms := v.1), kin, p[1])
  }

  /** The last step of the handler: `update_cep_err_plot` at the time since
      `first_time`, which raises while that is unset, then `old_time`. */
  function PlotStatistics(s: PosState, kin: Kin, time: string): (r: Step<PosState>)
    requires ValidPos(s)
    ensures ValidPos(r.state)
    ensures r.raised <==> kin.firstTime.None?
    ensures r.raised ==> r.state == s
    ensures r.state.parts == s.parts && r.state.pvt == s.pvt && r.state.buffers == s.buffers
    ensures r.state.cep == s.cep && r.state.vrms == s.vrms
    ensures !r.raised ==> r.state.oldTime == time
    ensures !r.raised ==> |r.state.plot.points| > 0 && Last(r.state.plot).value == (s.cep, s.vrms)
    ensures !r.raised && |s.plot.points| < MaxPoints ==>
      Last(r.state.plot).time + r.state.plot.initial == kin.currentUtc - kin.firstTime.value
    ensures !r.raised && |s.plot.points| == MaxPoints ==>
      Last(r.state.plot).time + r.state.plot.initial == kin.currentUtc - kin.firstTime.value - s.plot.initial
  {
    match kin.firstTime
    case None => Step(s, true)
    case Some(first) =>
      Step(s.(plot := AppendAsWritten(s.plot, kin.currentUtc - first, (s.cep, s.vrms)), oldTime := time), false)
  }

  /** A repeated fix (same time as the last) still records its coordinates
      for the CEP, exactly as a new fix does, and plots the new CEP beside
      the previous RMS velocity. */
  lemma RepeatFeedsCep(s: PosState, line: string, kin: Kin, dist: Distance)
    requires ValidPos(s) && |Tokens(line)| >= 14 && !IsNewFix(Tokens(line), s.oldTime)
    requires !(|s.buffers.lat| >= Stats.MaxSamples && |s.buffers.lon| == 0)
    requires Field(Tokens(line), 2).Some?
    ensures var r := ParsePositionStatus(s, line, kin, dist);
      && r.state.buffers.lat == Evict(s.buffers.lat) + [Field(Tokens(line), 2).value]
      && (Field(Tokens(line), 3).Some? ==>
            r.state.buffers.lon == PopOldest(s.buffers).lon + [Field(Tokens(line), 3).value])
      && (Field(Tokens(line), 3).None? ==> r.state.buffers.lon == PopOldest(s.buffers).lon)
      && (!r.raised ==> Last(r.state.plot).value == (r.state.cep, s.vrms))
  {
    var p := Tokens(line);
    assert CalculateCep(s.buffers, p, dist) == Record(PopOldest(s.buffers), p, dist);
  }

  /** A new fix with a clock reference records the speed for the RMS
      velocity and, unless `geodesic` refuses a latitude, plots the CEP of
      the new buffers and the mean square of the new speeds at the time
      since `first_time` while the plot window is not yet full; once it is
      full, the plotted time also loses the window's base time. */
  lemma NewFixPlotted(s: PosState, line: string, kin: Kin, dist: Distance, first: real)
    requires ValidPos(s) && |Tokens(line)| >= 14 && IsNewFix(Tokens(line), s.oldTime)
    requires !(|s.buffers.lat| >= Stats.MaxSamples && |s.buffers.lon| == 0)
    requires kin.firstTime == Some(first)
    ensures var r := ParsePositionStatus(s, line, kin, dist);
      && r.state.pvt
      && (r.raised <==> CalculateCep(s.buffers, Tokens(line), dist).raised)
      && (!r.raised ==> NewFixShown(s, r.state, Tokens(line), kin, dist, first))
  {
    var p := Tokens(line);
    var s2 := s.(parts := p, pvt := true);
    assert ParsePositionStatus(s, line, kin, dist) == FixStatistics(s2, p, kin, dist, true);
  }

  /** What a plotted new fix shows: the speed joins the RMS buffer, the
      statistics are those of the new buffers, and the point is plotted at
      the time since `first_time` (less the window's base once it is full). */
  ghost predicate NewFixShown(s: PosState, t: PosState, p: seq<string>, kin: Kin, dist: Distance, first: real)
    requires Stats.Valid(t.buffers) && |t.plot.points| > 0
  {
    && t.buffers.speeds == Evict(s.buffers.speeds) + [kin.velocityMs]
    && |t.buffers.speeds| > 0
    && t.vrms == Mean(Squares(t.buffers.speeds))
    && (Field(p, 2).Some? && Field(p, 3).Some? && |t.buffers.lat| >= MinCepSamples ==>
          t.cep == CepOf(t.buffers.lat, t.buffers.lon, dist))
    && (Field(p, 2).None? || Field(p, 3).None? || |t.buffers.lat| < MinCepSamples ==> t.cep == 0.0)
    && Last(t.plot).value == (t.cep, t.vrms)
    && (|s.plot.points| < MaxPoints ==> Last(t.plot).time + t.plot.initial == kin.currentUtc - first)
    && (|s.plot.points| == MaxPoints ==> Last(t.plot).time + t.plot.initial == kin.currentUtc - first - s.plot.initial)
  }
}

=== FILE: readers.dfy ===
/** The two socket readers of the TCP build, `read_tracking_socket` and
    `read_nmea_data_socket`: a bounded connection-retry loop around a
    receive loop that frames the decoded stream into lines. The socket is
    replaced by what the environment does on each attempt. */
module Readers {
  import opened Wrappers
  import opened Text
  import opened Framing
  import opened Nmea
  import opened Kinematics
  import opened PlotWindow

  /** Connection attempts of the TCP build's readers. */
  const MaxRetries: nat := 10

  newtype Byte = b: int | 0 <= b < 256

  /** `data.decode('ascii', errors='ignore')`: bytes above 127 are dropped. */
  function AsciiIgnore(data: seq<Byte>): (s: string)
    ensures |s| <= |data|
    ensures forall i :: 0 <= i < |s| ==> (s[i] as int) < 128
    ensures (forall i :: 0 <= i < |data| ==> data[i] < 128) ==> |s| == |data|
  {
    if |data| == 0 then []
    else if data[0] < 128 then [(data[0] as int) as char] + AsciiIgnore(data[1..])
    else AsciiIgnore(data[1..])
  }

  /** How a connected receive loop ends once the listed chunks are read:
      `recv` returns nothing, the stop event is seen, or `recv` raises. */
  datatype End = EndOfStream | StopObserved | RecvTimedOut(why: string) | RecvFailed(why: string)

  /** What one connection attempt meets. `StopSet`: the stop event is
      already set when the attempt would start. */
  datatype Attempt =
    | StopSet
    | Refused(why: string)
    | ConnectTimedOut(why: string)
    | ConnectFailed(why: string)
    | Connected(chunks: seq<seq<Byte>>, end: End)

  /** How one attempt leaves the retry loop. */
  datatype Outcome<S> = Stopped | Done(state: S) | Failed(state: S, why: string) | Retryable(state: S, why: string)

  /** The one error event a reader may put on the queue: giving up after the
      last retryable failure, or any other exception. */
  datatype ReaderError = GaveUp(why: string) | SocketError(why: string)

  /** The reader's final state, the error events it emitted, how many
      connections it attempted and how often it slept between them. */
  datatype Run<S> = Run(state: S, errors: seq<ReaderError>, attempts: nat, sleeps: nat)

  /** `for attempt in range(max)`: a retryable failure sleeps unless it was
      the last attempt, after which one give-up error is emitted; anything
      else leaves the loop. */
  function RetryLoop<S>(s: S, attempt: nat, max: nat, step: (S, nat) -> Outcome<S>): (r: Run<S>)
    requires attempt <= max
    ensures attempt <= r.attempts <= max
    ensures |r.errors| <= 1
    ensures r.sleeps <= r.attempts - attempt
    ensures attempt < max ==> r.sleeps < max - attempt
    ensures |r.errors| == 1 && r.errors[0].GaveUp? ==> r.attempts == max && r.sleeps == max - 1 - attempt
    decreases max - attempt
  {
    if attempt == max then Run(s, [], attempt, 0)
    else
      match step(s, attempt)
      case Stopped => Run(s, [], attempt, 0)
      case Done(s1) => Run(s1, [], attempt + 1, 0)
      case Failed(s1, why) => Run(s1, [SocketError(why)], attempt + 1, 0)
      case Retryable(s1, why) =>
        if attempt < max - 1 then
          var r := RetryLoop(s1, attempt + 1, max, step);
          Run(r.state, r.errors, r.attempts, r.sleeps + 1)
        else Run(s1, [GaveUp(why)], attempt + 1, 0)
  }

  /** When every attempt fails in a retryable way, the loop makes all
      attempts, sleeps between them, and emits exactly one give-up error. */
  lemma {:induction false} AllRetryable<S>(s: S, attempt: nat, max: nat, step: (S, nat) -> Outcome<S>)
    requires attempt < max
    requires forall x, i :: attempt <= i < max ==> step(x, i).Retryable?
    ensures var r := RetryLoop(s, attempt, max, step);
      r.attempts == max && r.sleeps == max - 1 - attempt && |r.errors| == 1 && r.errors[0].GaveUp?
    decreases max - attempt
  {
    if attempt < max - 1 {
      AllRetryable(step(s, attempt).state, attempt + 1, max, step);
    }
  }

  /** An attempt that ends without a retryable failure ends the loop at once. */
  lemma FinalAttempt<S>(s: S, attempt: nat, max: nat, step: (S, nat) -> Outcome<S>)
    requires attempt < max && !step(s, attempt).Retryable?
    ensures var r := RetryLoop(s, attempt, max, step);
      && r.sleeps == 0
      && (step(s, attempt).Stopped? ==> r == Run(s, [], attempt, 0))
      && (step(s, attempt).Done? ==> r == Run(step(s, attempt).state, [], attempt + 1, 0))
      && (step(s, attempt).Failed? ==>
            r == Run(step(s, attempt).state, [SocketError(step(s, attempt).why)], attempt + 1, 0))
  {
  }

  /** The lines of one connection reach the handler in order until one
      raises; the raising line's partial state is kept. */
  function Feed<S>(s: S, lines: seq<string>, onLine: (S, string) -> Step<S>): Step<S>
    decreases |lines|
  {
    if |lines| == 0 then Step(s, false)
    else
      var st := onLine(s, lines[0]);
      if st.raised then st else Feed(st.state, lines[1..], onLine)
  }

  /** Feeding two batches is feeding the first, then (if nothing raised) the second. */
  lemma {:induction false} FeedConcat<S>(s: S, a: seq<string>, b: seq<string>, onLine: (S, string) -> Step<S>)
    ensures Feed(s, a + b, onLine)
      == (var f := Feed(s, a, onLine); if f.raised then f else Feed(f.state, b, onLine))
    decreases |a|
  {
    if |a| == 0 {
      assert a + b == b;
    } else {
      assert (a + b)[0] == a[0] && (a + b)[1..] == a[1..] + b;
      var st := onLine(s, a[0]);
      if !st.raised {
        FeedConcat(st.state, a[1..], b, onLine);
      }
    }
  }

  /** The receive loop's result: final state, whether the handler raised,
      and whether an empty `recv` ended the stream early. */
  datatype Received<S> = Received(state: S, raised: bool, closed: bool)

  /** `while not stop: chunk = recv(); if not chunk: break; buffer += decode(chunk); …`:
      each chunk is decoded, appended to the buffer and its complete lines
      are handed on; the partial tail stays buffered. */
  function Receive<S>(s: S, buffer: string, chunks: seq<seq<Byte>>,
                      decode: seq<Byte> -> string, onLine: (S, string) -> Step<S>): (r: Received<S>)
    ensures r.raised ==> !r.closed
    decreases |chunks|
  {
    if |chunks| == 0 then Received(s, false, false)
    else if |chunks[0]| == 0 then Received(s, false, true)
    else
      var f := Frame(buffer + decode(chunks[0]));
      var st := Feed(s, f.lines, onLine);
      if st.raised then Received(st.state, true, false)
      else Receive(st.state, f.rest, chunks[1..], decode, onLine)
  }

  /** The decoded text of the chunks read before an empty one. */
  function Decoded(chunks: seq<seq<Byte>>, decode: seq<Byte> -> string): string
    decreases |chunks|
  {
    if |chunks| == 0 || |chunks[0]| == 0 then [] else decode(chunks[0]) + Decoded(chunks[1..], decode)
  }

  /** However the stream is cut into chunks, the handler sees the lines of
      the whole decoded text, in order; an unterminated tail is never handed on. */
  lemma {:induction false} ReceiveLines<S>(s: S, buffer: string, chunks: seq<seq<Byte>>,
                                           decode: seq<Byte> -> string, onLine: (S, string) -> Step<S>)
    requires '\n' !in buffer
    ensures var r := Receive(s, buffer, chunks, decode, onLine);
      var f := Feed(s, Frame(buffer + Decoded(chunks, decode)).lines, onLine);
      r.state == f.state && r.raised == f.raised
    decreases |chunks|
  {
    if |chunks| == 0 || |chunks[0]| == 0 {
      assert buffer + Decoded(chunks, decode) == buffer;
      FrameUnique([], buffer);
    } else {
      var f := Frame(buffer + decode(chunks[0]));
      var st := Feed(s, f.lines, onLine);
      if !st.raised {
        ReceiveLines(st.state, f.rest, chunks[1..], decode, onLine);
      }
      ReceiveUnfold(s, buffer, chunks, decode, onLine);
      DecodedFrames(buffer, chunks, decode);
      FeedThen(s, f.lines, Frame(f.rest + Decoded(chunks[1..], decode)).lines,
               Receive(s, buffer, chunks, decode, onLine),
               Receive(st.state, f.rest, chunks[1..], decode, onLine), onLine);
    }
  }

  /** One turn of the receive loop on a non-empty chunk. */
  lemma ReceiveUnfold<S>(s: S, buffer: string, chunks: seq<seq<Byte>>,
                         decode: seq<Byte> -> string, onLine: (S, string) -> Step<S>)
    requires |chunks| > 0 && |chunks[0]| > 0
    ensures var f := Frame(buffer + decode(chunks[0]));
      var st := Feed(s, f.lines, onLine);
      Receive(s, buffer, chunks, decode, onLine)
        == if st.raised then Received(st.state, true, false)
           else Receive(st.state, f.rest, chunks[1..], decode, onLine)
  {
  }

  /** The lines of the buffer and all decoded chunks are those of the buffer
      and the first chunk, then those of what stays buffered and the rest. */
  lemma DecodedFrames(buffer: string, chunks: seq<seq<Byte>>, decode: seq<Byte> -> string)
    requires |chunks| > 0 && |chunks[0]| > 0
    ensures var f := Frame(buffer + decode(chunks[0]));
      Frame(buffer + Decoded(chunks, decode)).lines
        == f.lines + Frame(f.rest + Decoded(chunks[1..], decode)).lines
  {
    var text := buffer + decode(chunks[0]);
    var rest := Decoded(chunks[1..], decode);
    FrameIncremental(text, rest);
    assert text + rest == buffer + Decoded(chunks, decode);
  }

  /** A receive result that is the first batch's outcome when it raised, and
      otherwise a result matching the second batch, matches both batches fed
      in turn. */
  lemma {:induction false} FeedThen<S>(s: S, a: seq<string>, b: seq<string>, r: Received<S>, next: Received<S>,
                                    onLine: (S, string) -> Step<S>)
    requires var st := Feed(s, a, onLine);
      r == (if st.raised then Received(st.state, true, false) else next)
    requires var st := Feed(s, a, onLine);
      !st.raised ==> next.state == Feed(st.state, b, onLine).state && next.raised == Feed(st.state, b, onLine).raised
    ensures r.state == Feed(s, a + b, onLine).state && r.raised == Feed(s, a + b, onLine).raised
  {
    FeedConcat(s, a, b, onLine);
  }

  /** One attempt: connect, then receive until the stream ends. A raising
      handler is caught by the generic `except Exception` (its message is
      not modelled); a receive timeout is retried like a refused connection. */
  function Connect<S>(s: S, a: Attempt, decode: seq<Byte> -> string, onLine: (S, string) -> Step<S>): (o: Outcome<S>)
    ensures a.StopSet? <==> o.Stopped?
    ensures (a.Refused? || a.ConnectTimedOut?) ==> o == Retryable(s, a.why)
    ensures a.ConnectFailed? ==> o == Failed(s, a.why)
  {
    match a
    case StopSet => Stopped
    case Refused(why) => Retryable(s, why)
    case ConnectTimedOut(why) => Retryable(s, why)
    case ConnectFailed(why) => Failed(s, why)
    case Connected(chunks, end) =>
      var r := Receive(s, "", chunks, decode, onLine);
      if r.raised then Failed(r.state, "")
      else if r.closed then Done(r.state)
      else match end
        case EndOfStream => Done(r.state)
        case StopObserved => Done(r.state)
        case RecvTimedOut(why) => Retryable(r.state, why)
        case RecvFailed(why) => Failed(r.state, why)
  }

  /** A reader: the retry loop over `env`'s attempts. */
  function Read<S>(s: S, env: nat -> Attempt, decode: seq<Byte> -> string, onLine: (S, string) -> Step<S>): (r: Run<S>)
    ensures r.attempts <= MaxRetries && |r.errors| <= 1 && r.sleeps < MaxRetries
    ensures |r.errors| == 1 && r.errors[0].GaveUp? ==> r.attempts == MaxRetries && r.sleeps == MaxRetries - 1
  {
    RetryLoop(s, 0, MaxRetries, (x: S, i: nat) => Connect(x, env(i), decode, onLine))
  }

  /** Ten refused or timed-out connections: ten attempts, nine sleeps, one error. */
  lemma ReadGivesUp<S>(s: S, env: nat -> Attempt, decode: seq<Byte> -> string, onLine: (S, string) -> Step<S>)
    requires forall i :: 0 <= i < MaxRetries ==> env(i).Refused? || env(i).ConnectTimedOut?
    ensures var r := Read(s, env, decode, onLine);
      r.attempts == MaxRetries && r.sleeps == MaxRetries - 1 && |r.errors| == 1 && r.errors[0].GaveUp?
  {
    AllRetryable(s, 0, MaxRetries, (x: S, i: nat) => Connect(x, env(i), decode, onLine));
  }

  /** A connection whose stream simply ends is not retried and reports no error. */
  lemma EndOfStreamNoRetry<S>(s: S, env: nat -> Attempt, decode: seq<Byte> -> string, onLine: (S, string) -> Step<S>)
    requires env(0).Connected? && env(0).end == EndOfStream
    requires !Receive(s, "", env(0).chunks, decode, onLine).raised
    ensures var r := Read(s, env, decode, onLine);
      r.attempts == 1 && r.errors == [] && r.sleeps == 0
      && r.state == Receive(s, "", env(0).chunks, decode, onLine).state
  {
    FinalAttempt(s, 0, MaxRetries, (x: S, i: nat) => Connect(x, env(i), decode, onLine));
  }

  /** The queue entries of the TCP build: `("stderr", line)` or `("error", message)`. */
  datatype Tag = StderrTag | ErrorTag
  datatype QueueItem = QueueItem(tag: Tag, line: string)

  /** The message text of an error event. */
  function ErrorText(source: string, e: ReaderError): string
  {
    match e
    case GaveUp(why) => source + " socket failed after 10 attempts: " + why
    case SocketError(why) => source + " socket error: " + why
  }

  function ErrorItems(source: string, errors: seq<ReaderError>): (q: seq<QueueItem>)
    ensures |q| == |errors|
    ensures forall i :: 0 <= i < |q| ==> q[i] == QueueItem(ErrorTag, ErrorText(source, errors[i]))
  {
    seq(|errors|, i requires 0 <= i < |errors| => QueueItem(ErrorTag, ErrorText(source, errors[i])))
  }

  /** `read_tracking_socket`: every framed line is queued as `("stderr", line)`,
      then the error event, if any. `decode` stands for the UTF-8 decoding
      with errors ignored. */
  function TrackingReader(queue: seq<QueueItem>, env: nat -> Attempt, decode: seq<Byte> -> string): (q: seq<QueueItem>)
    ensures |queue| <= |q|
    ensures q[..|queue|] == queue
  {
    var r := Read(queue, env, decode, (q: seq<QueueItem>, line: string) => Step(q + [QueueItem(StderrTag, line)], false));
    QueueGrows(queue, env, decode);
    r.state + ErrorItems("Tracking", r.errors)
  }

  lemma QueueGrows(queue: seq<QueueItem>, env: nat -> Attempt, decode: seq<Byte> -> string)
    ensures var r := Read(queue, env, decode, (q: seq<QueueItem>, line: string) => Step(q + [QueueItem(StderrTag, line)], false));
      |queue| <= |r.state| && r.state[..|queue|] == queue
  {
    var onLine := (q: seq<QueueItem>, line: string) => Step(q + [QueueItem(StderrTag, line)], false);
    var step := (x: seq<QueueItem>, i: nat) => Connect(x, env(i), decode, onLine);
    forall x: seq<QueueItem>, i: nat
      ensures var o := Connect(x, env(i), decode, onLine); o.Stopped? || Extends(x, o.state)
    {
      if env(i).Connected? {
        ReceiveQueueKeeps(x, "", env(i).chunks, decode);
      }
    }
    RetryLoopKeeps(queue, 0, MaxRetries, step);
  }

  /** Queued items are never taken back by the tracking reader. */
  ghost predicate Extends(a: seq<QueueItem>, b: seq<QueueItem>)
  {
    |a| <= |b| && b[..|a|] == a
  }

  lemma {:induction false} FeedQueueKeeps(q: seq<QueueItem>, lines: seq<string>)
    ensures var onLine := (q: seq<QueueItem>, line: string) => Step(q + [QueueItem(StderrTag, line)], false);
      Extends(q, Feed(q, lines, onLine).state) && !Feed(q, lines, onLine).raised
    decreases |lines|
  {
    var onLine := (q: seq<QueueItem>, line: string) => Step(q + [QueueItem(StderrTag, line)], false);
    if |lines| > 0 {
      var q1 := q + [QueueItem(StderrTag, lines[0])];
      FeedQueueKeeps(q1, lines[1..]);
      assert Feed(q1, lines[1..], onLine).state[..|q1|] == q1;
      assert q1[..|q|] == q;
    }
  }

  lemma {:induction false} ReceiveQueueKeeps(q: seq<QueueItem>, buffer: string, chunks: seq<seq<Byte>>, decode: seq<Byte> -> string)
    ensures var onLine := (q: seq<QueueItem>, line: string) => Step(q + [QueueItem(StderrTag, line)], false);
      Extends(q, Receive(q, buffer, chunks, decode, onLine).state)
    decreases |chunks|
  {
    var onLine := (q: seq<QueueItem>, line: string) => Step(q + [QueueItem(StderrTag, line)], false);
    if |chunks| > 0 && |chunks[0]| > 0 {
      var f := Frame(buffer + decode(chunks[0]));
      FeedQueueKeeps(q, f.lines);
      var q1 := Feed(q, f.lines, onLine).state;
      ReceiveQueueKeeps(q1, f.rest, chunks[1..], decode);
      assert Receive(q1, f.rest, chunks[1..], decode, onLine).state[..|q1|][..|q|] == q;
    }
  }

  lemma {:induction false} RetryLoopKeeps(q: seq<QueueItem>, attempt: nat, max: nat, step: (seq<QueueItem>, nat) -> Outcome<seq<QueueItem>>)
    requires attempt <= max
    requires forall x, i :: step(x, i).Stopped? || Extends(x, step(x, i).state)
    ensures Extends(q, RetryLoop(q, attempt, max, step).state)
    decreases max - attempt
  {
    if attempt < max {
      var o := step(q, attempt);
      if o.Retryable? && attempt < max - 1 {
        RetryLoopKeeps(o.state, attempt + 1, max, step);
        assert RetryLoop(o.state, attempt + 1, max, step).state[..|o.state|][..|q|] == q;
      }
    }
  }

  /** What the NMEA reader's line handler reads and writes: the attributes
      of `process_line` and `nmeaStatus`, set once a first line is handled. */
  datatype NmeaState = NmeaState(kin: Kin, started: bool)

  type NmeaReaderState = s: NmeaState | Valid(s.kin)
    witness NmeaState(Kin(false, None, 0.0, Unset, None, 0.0, 0.0, 0.0, 0.0, 0.0, None, None, Window(0.0, [])), false)

  /** One framed NMEA line: stripped, skipped when empty; the first line
      also takes `parse_gpgga`'s time as `first_time` before `process_line`. */
  function NmeaLine(s: NmeaReaderState, raw: string): (r: Step<NmeaReaderState>)
    ensures |Strip(raw)| == 0 ==> r == Step(s, false)
    ensures r.state.started == (s.started || (|Strip(raw)| > 0 && !r.raised))
    ensures s.kin.latch != Unset ==> r.state.kin.latch == s.kin.latch
    ensures LeExt(s.kin.maxJerk, r.state.kin.maxJerk)
  {
    var line := Strip(raw);
    if |line| == 0 then Step(s, false)
    else if !s.started then
      var st := ProcessLine(s.kin.(firstTime := GgaTime(line)), line);
      Step(NmeaState(st.state, !st.raised), st.raised)
    else
      var st := ProcessLine(s.kin, line);
      Step(NmeaState(st.state, true), st.raised)
  }

  /** The stripped, non-empty lines: those that reach `process_line`. */
  function Cleaned(lines: seq<string>): (r: seq<string>)
    ensures |r| <= |lines|
    ensures forall i :: 0 <= i < |r| ==> |r[i]| > 0
  {
    if |lines| == 0 then []
    else
      var head := Strip(lines[0]);
      var rest := Cleaned(lines[1..]);
      if |head| == 0 then rest
      else
        assert forall i :: 0 < i <= |rest| ==> ([head] + rest)[i] == rest[i - 1];
        [head] + rest
  }

  /** Once the first line has been handled, the NMEA handler is exactly
      `process_line` over the stripped non-empty lines. */
  lemma {:induction false} FeedIsRun(s: NmeaReaderState, lines: seq<string>)
    requires s.started
    ensures var f := Feed(s, lines, NmeaLine);
      var k := Kinematics.Run(s.kin, Cleaned(lines));
      f.state.kin == k.state && f.raised == k.raised && f.state.started
    decreases |lines|
  {
    if |lines| > 0 {
      var st := NmeaLine(s, lines[0]);
      if !st.raised {
        FeedIsRun(st.state, lines[1..]);
      }
    }
  }

  /** `read_nmea_data_socket`'s prologue: the differentiation state and the
      latch start afresh. */
  function ResetKinematics(s: NmeaReaderState): (r: NmeaReaderState)
    ensures r.kin.latch == Unset && r.kin.lastTime.None? && r.kin.maxJerk.None?
    ensures r.kin.oldVelocity == 0.0 && r.kin.oldAcceleration == 0.0
    ensures r.started == s.started && r.kin.plot == s.kin.plot && r.kin.velocity == s.kin.velocity
    ensures r.kin.firstTime == s.kin.firstTime && r.kin.currentUtc == s.kin.currentUtc
  {
    s.(kin := s.kin.(oldVelocity := 0.0, oldAcceleration := 0.0, latch := Unset, lastTime := None, maxJerk := None))
  }

  datatype NmeaOutcome = NmeaOutcome(state: NmeaReaderState, queued: seq<QueueItem>)

  /** `read_nmea_data_socket`: ASCII decoding with undecodable bytes dropped,
      the retry loop, and at most one error event for the queue. */
  function NmeaReader(s: NmeaReaderState, env: nat -> Attempt): (r: NmeaOutcome)
    ensures |r.queued| <= 1
    ensures forall i :: 0 <= i < |r.queued| ==> r.queued[i].tag == ErrorTag
    ensures env(0).StopSet? ==> r == NmeaOutcome(ResetKinematics(s), [])
  {
    var r := Read(ResetKinematics(s), env, (d: seq<Byte>) => AsciiIgnore(d), NmeaLine);
    NmeaOutcome(r.state, ErrorItems("NMEA", r.errors))
  }
}

=== FILE: session.dfy ===
/** The TCP build's life cycle around the telemetry core: `start_tcp_readers`
    resets the derived state, empties the buffer, the table, both plots and
    the queue; `stop_all` resets the flags and the statistics; each GUI tick
    drains the queue and, when a refresh was scheduled, runs `update_ui`,
    which reconciles the table with the buffer and clears the flag. */
module Session {
  import opened Wrappers
  import opened Text
  import opened OrderedDict
  import opened Tracking
  import opened PlotWindow
  import PositionFix
  import Kinematics
  import Stats
  import Table
  import Consumer
  import Readers

  /** The position handler's state as the GUI keeps it: the statistics
      buffers and the CEP plot within their bounds. */
  type PosState = s: PositionFix.PosState | PositionFix.ValidPos(s)
    witness PositionFix.PosState([], "", false, 0.0, 0.0, Stats.Buffers([], [], []), Window(0.0, []))

  /** The attributes the life cycle touches: `running`, the NMEA side
      (`process_line`'s attributes and `nmeaStatus`), the consumer side
      (buffer, refresh flag, position handler), the table and the queue. */
  datatype Gui = Gui(
    running: bool,
    nmea: Readers.NmeaReaderState,
    ui: Consumer.Consumer<PosState>,
    tree: Table.Tree,
    queue: seq<Readers.QueueItem>)

  /** No statistics, no fix seen yet. */
  function NoStatistics(p: PosState): (r: PosState)
    ensures r.buffers == Stats.Buffers([], [], []) && r.cep == 0.0 && r.vrms == 0.0 && !r.pvt
    ensures r.parts == p.parts && r.oldTime == p.oldTime && r.plot == p.plot
  {
    p.(pvt := false, cep := 0.0, vrms := 0.0, buffers := Stats.Buffers([], [], []))
  }

  /** The assignments `start_tcp_readers` and `stop_all` share: no first
      GGA seen, `first_time`, `last_processed_time` and the clock at 0, no
      NMEA line handled, and no statistics. */
  function ResetFlags(g: Gui): (r: Gui)
    ensures !r.nmea.kin.statusGga && r.nmea.kin.firstTime == Some(0.0) && r.nmea.kin.currentUtc == 0.0
    ensures r.nmea.kin.lastTime == Some(0.0) && !r.nmea.started
    ensures r.ui.pos == NoStatistics(g.ui.pos)
    ensures r.ui.buffer == g.ui.buffer && r.ui.scheduled == g.ui.scheduled && r.tree == g.tree && r.queue == g.queue
    ensures r.nmea.kin.latch == g.nmea.kin.latch && r.nmea.kin.velocity == g.nmea.kin.velocity
    ensures r.nmea.kin.plot == g.nmea.kin.plot && r.running == g.running
  {
    var kin := g.nmea.kin.(statusGga := false, firstTime := Some(0.0), lastTime := Some(0.0), currentUtc := 0.0);
    g.(nmea := Readers.NmeaState(kin, false), ui := g.ui.(pos := NoStatistics(g.ui.pos)))
  }

  /** `clear_data`: the buffer and the table are emptied and both plots
      start afresh; the labels it resets are not modelled. */
  function ClearData(g: Gui): (r: Gui)
    ensures r.ui.buffer == [] && r.tree.rows == [] && r.tree.next == g.tree.next
    ensures |r.nmea.kin.plot.points| == 0 && |r.ui.pos.plot.points| == 0
    ensures r.nmea.kin == g.nmea.kin.(plot := r.nmea.kin.plot) && r.nmea.started == g.nmea.started
    ensures r.ui.pos == g.ui.pos.(plot := r.ui.pos.plot)
    ensures r.running == g.running && r.queue == g.queue && r.ui.scheduled == g.ui.scheduled
  {
    g.(nmea := Readers.NmeaState(g.nmea.kin.(plot := Empty()), g.nmea.started),
       ui := g.ui.(buffer := [], pos := g.ui.pos.(plot := Empty())),
       tree := g.tree.(rows := []))
  }

  /** `update_table` with nothing buffered removes rows and allocates no
      item id. */
  lemma EmptyPass(t: Table.Tree)
    ensures Table.UpdateTable(t, []).0.next == t.next
  {
    var p := Table.Pass(t.rows, Table.ItemsOf(t.rows), t.next, []);
    assert Table.PassFrom(p, [], 0) == p;
  }

  /** `start_tcp_readers`. `logOk` is false when a log file was chosen and
      could not be opened: the state is reset but neither reader is started
      and no tick is scheduled. The second result says whether they are.
      The speed latch and the differences restart in the NMEA reader
      itself; the speed, the last position time and the parsed tokens
      survive a restart. */
  function StartTcpReaders(g: Gui, logOk: bool): (r: (Gui, bool))
    ensures r.1 == logOk && r.0.running
    ensures !r.0.nmea.kin.statusGga && r.0.nmea.kin.firstTime == Some(0.0) && r.0.nmea.kin.currentUtc == 0.0
    ensures r.0.nmea.kin.lastTime == Some(0.0) && r.0.nmea.kin.latch == Kinematics.Unset && !r.0.nmea.started
    ensures r.0.nmea.kin.oldVelocity == 0.0 && r.0.nmea.kin.oldAcceleration == 0.0
    ensures |r.0.nmea.kin.plot.points| == 0 && |r.0.ui.pos.plot.points| == 0
    ensures r.0.ui.buffer == [] && r.0.tree == Table.Tree([], g.tree.next) && r.0.queue == []
    ensures r.0.ui.pos.buffers == Stats.Buffers([], [], []) && r.0.ui.pos.cep == 0.0 && r.0.ui.pos.vrms == 0.0
    ensures !r.0.ui.pos.pvt
    ensures r.0.nmea.kin.velocity == g.nmea.kin.velocity && r.0.nmea.kin.velocityMs == g.nmea.kin.velocityMs
    ensures r.0.nmea.kin.maxJerk == g.nmea.kin.maxJerk
    ensures r.0.ui.pos.oldTime == g.ui.pos.oldTime && r.0.ui.pos.parts == g.ui.pos.parts
    ensures r.0.ui.scheduled == g.ui.scheduled
  {
    var g1 := ResetFlags(g);
    var kin := g1.nmea.kin.(oldVelocity := 0.0, oldAcceleration := 0.0, latch := Kinematics.Unset);
    var g2 := g1.(running := true, nmea := Readers.NmeaState(kin, false), ui := g1.ui.(buffer := []));
    EmptyPass(g2.tree);
    var g3 := g2.(tree := Table.UpdateTable(g2.tree, []).0);
    var g4 := ClearData(g3);
    (g4.(queue := []), logOk)
  }

  /** `stop_all`: the flags and the statistics are reset and `running` is
      cleared; threads, sockets and the log file are not modelled. */
  function StopAll(g: Gui): (r: Gui)
    ensures !r.running && !r.nmea.started && !r.ui.pos.pvt
    ensures r.ui.pos.buffers == Stats.Buffers([], [], [])
    ensures r.ui.buffer == g.ui.buffer && r.tree == g.tree && r.queue == g.queue
    ensures r.nmea.kin.latch == g.nmea.kin.latch && r.nmea.kin.plot == g.nmea.kin.plot
  {
    ResetFlags(g).(running := false)
  }

  /** Restarting needs no stop first: everything `stop_all` resets,
      `start_tcp_readers` resets as well. */
  lemma StopThenStart(g: Gui, logOk: bool)
    ensures StartTcpReaders(StopAll(g), logOk) == StartTcpReaders(g, logOk)
  {
    var s := StopAll(g);
    EmptyPass(g.tree);
    assert s.tree == g.tree;
  }

  /** Starting twice is starting once. */
  lemma StartIdempotent(g: Gui, logOk: bool)
    ensures StartTcpReaders(StartTcpReaders(g, logOk).0, logOk) == StartTcpReaders(g, logOk)
  {
    var g1 := StartTcpReaders(g, logOk).0;
    EmptyPass(g.tree);
    EmptyPass(g1.tree);
  }

  /** The position time survives a restart: a first position line whose
      time equals the last one seen before the restart is not a new fix. */
  lemma RestartKeepsOldTime(g: Gui, logOk: bool, p: seq<string>)
    requires |p| >= 12 && p[1] == g.ui.pos.oldTime
    ensures !IsNewFix(p, StartTcpReaders(g, logOk).0.ui.pos.oldTime)
  {
  }

  /** `update_ui`: the table is reconciled with the buffered rows in the
      buffer's order and the refresh flag is cleared; the plots it redraws
      are not modelled. */
  function UpdateUi(g: Gui): (r: Gui)
    ensures !r.ui.scheduled && r.ui.buffer == g.ui.buffer && r.ui.pos == g.ui.pos
    ensures r.nmea == g.nmea && r.queue == g.queue && r.running == g.running
    ensures g.tree.next <= r.tree.next
  {
    g.(tree := Table.UpdateTable(g.tree, Values(g.ui.buffer)).0, ui := g.ui.(scheduled := false))
  }

  /** The table shows the buffered rows: a (CH, SAT, SIG) is on screen
      exactly when some buffered tuple has it. */
  ghost predicate Shows(rows: seq<Table.Row>, buffer: Dict<Consumer.BufKey, SatTuple>)
  {
    forall k :: Table.KeyIn(rows, k) <==> exists i :: 0 <= i < |buffer| && Table.KeyOf(buffer[i].1) == k
  }

  /** What a displayed table keeps: distinct item ids, distinct keys, and
      channel numbers in the CH column. */
  ghost predicate Settled(t: Table.Tree)
  {
    && Table.ValidTree(t) && Table.UniqueTableKeys(t.rows)
    && forall m :: 0 <= m < |t.rows| ==> NumericChannel(t.rows[m].values)
  }

  /** After `update_ui` the table shows the buffer, provided no two
      buffered tuples share a (CH, SAT, SIG). It does so by deleting every
      shown row and inserting every buffered one afresh, in buffer order. */
  lemma UpdateUiShows(g: Gui)
    requires Settled(g.tree) && Table.DistinctKeys(Values(g.ui.buffer)) && Consumer.NumericChannels(g.ui.buffer)
    ensures Settled(UpdateUi(g).tree) && Shows(UpdateUi(g).tree.rows, g.ui.buffer)
    ensures UpdateUi(g).tree == Table.Tree(Table.Appended(g.tree.next, Values(g.ui.buffer), 0), g.tree.next + |g.ui.buffer|)
  {
    var data := Values(g.ui.buffer);
    Table.RefreshReplaces(g.tree, data);
    Table.AppendedShows(g.tree.next, data);
    var rows := UpdateUi(g).tree.rows;
    forall m | 0 <= m < |rows| ensures NumericChannel(rows[m].values) {
      assert rows[m].values == g.ui.buffer[m].1;
    }
    forall k ensures Table.DataHas(data, |data|, k) <==> exists i :: 0 <= i < |g.ui.buffer| && Table.KeyOf(g.ui.buffer[i].1) == k {
      if exists i :: 0 <= i < |g.ui.buffer| && Table.KeyOf(g.ui.buffer[i].1) == k {
        var i :| 0 <= i < |g.ui.buffer| && Table.KeyOf(g.ui.buffer[i].1) == k;
        assert Table.KeyOf(data[i]) == k;
      }
    }
  }

  /** The position handler of a tick: `parse_position_status` with the
      kinematic state and the distance function it reads. */
  function Handler(kin: Kinematics.Kin, dist: Stats.Distance): (h: (PosState, string) -> Step<PosState>)
    ensures forall s: PosState, line :: h(s, line).state.parts == Tokens(line)
  {
    (s: PosState, line: string) =>
      var r := PositionFix.ParsePositionStatus(s, line, kin, dist);
      Step(r.state, r.raised)
  }

  /** One GUI tick: `process_queue` with the NMEA side's current state,
      then the `update_ui` it scheduled, if any. The second result says
      whether the next tick is scheduled. */
  function GuiTick(g: Gui, dist: Stats.Distance): (r: (Gui, bool))
    ensures r.1 == g.running
    ensures !r.0.ui.scheduled || (!g.running && g.ui.scheduled)
    ensures |r.0.queue| <= |g.queue| && r.0.queue == g.queue[|g.queue| - |r.0.queue|..]
    ensures !g.running ==> r.0 == g
    ensures g.tree.next <= r.0.tree.next
  {
    var (c, rest, again) := Consumer.ProcessQueue(g.ui, g.queue, g.running, Handler(g.nmea.kin, dist));
    var g1 := g.(ui := c, queue := rest);
    if g.running && c.scheduled then (UpdateUi(g1), again) else (g1, again)
  }

  /** The invariant a running GUI keeps between ticks: every buffered CH
      is a channel number, and when no refresh is pending the table shows
      the buffer. */
  ghost predicate Fresh(g: Gui)
  {
    Settled(g.tree) && Consumer.NumericChannels(g.ui.buffer) && (!g.ui.scheduled ==> Shows(g.tree.rows, g.ui.buffer))
  }

  /** A tick keeps the table fresh: it either stores nothing, leaving the
      buffer as the table shows it, or schedules and runs the refresh,
      provided the buffer then holds no two tuples with one
      (CH, SAT, SIG). */
  lemma TickKeepsFresh(g: Gui, dist: Stats.Distance)
    requires g.running && Fresh(g) && !g.ui.scheduled
    requires Table.DistinctKeys(Values(GuiTick(g, dist).0.ui.buffer))
    ensures Fresh(GuiTick(g, dist).0) && !GuiTick(g, dist).0.ui.scheduled
  {
    var (c, rest, again) := Consumer.ProcessQueue(g.ui, g.queue, g.running, Handler(g.nmea.kin, dist));
    var g1 := g.(ui := c, queue := rest);
    if c.scheduled {
      UpdateUiShows(g1);
    } else {
      assert c.buffer == g.ui.buffer;
    }
  }
}

=== FILE: stats.dfy ===
/** The bounded statistics buffers of the TCP build: `calculate_cep` keeps
    the last 1000 latitudes and longitudes of position fixes and reports
    the median distance from their mean; `calculate_vrms` keeps the last
    1000 speeds and reports their mean square (the root is left out);
    `reset_cep` empties both and re-seeds them. */
module Stats {
  import opened Wrappers
  import opened Numeric
  import opened Percentile
  import opened PlotWindow

  /** `self.max_samples`. */
  const MaxSamples: nat := 1000

  /** Below this many latitudes the CEP is reported as 0. */
  const MinCepSamples: nat := 10

  /** `self.lat`, `self.lon` and `self.velocity_ar`. */
  datatype Buffers = Buffers(lat: seq<real>, lon: seq<real>, speeds: seq<real>)

  /** A longitude is appended only after its latitude, so the longitudes
      never outnumber the latitudes. */
  predicate Valid(b: Buffers)
  {
    |b.lon| <= |b.lat| <= MaxSamples && |b.speeds| <= MaxSamples
  }

  /** The geodesic distance in metres between two (latitude, longitude) points. */
  type Distance = (real, real, real, real) -> real

  /** `xs.pop(0)` when the buffer is full. */
  function Evict(xs: seq<real>): (r: seq<real>)
    ensures |xs| >= MaxSamples ==> r == xs[1..]
    ensures |xs| < MaxSamples ==> r == xs
  {
    if |xs| >= MaxSamples then xs[1..] else xs
  }

  /** The newest `MaxSamples` entries of a history. */
  function Latest(h: seq<real>): (r: seq<real>)
    ensures |r| == if |h| > MaxSamples then MaxSamples else |h|
    ensures forall i :: 0 <= i < |r| ==> r[i] == h[|h| - |r| + i]
  {
    if |h| > MaxSamples then h[|h| - MaxSamples..] else h
  }

  /** Evicting before appending keeps the buffer equal to the newest 1000
      samples of everything appended. */
  lemma EvictAppendLatest(h: seq<real>, x: real)
    ensures Evict(Latest(h)) + [x] == Latest(h + [x])
  {
    if |h| < MaxSamples {
      assert Latest(h) == h && Latest(h + [x]) == h + [x];
    } else {
      var k := |h| - MaxSamples;
      assert Latest(h) == h[k..];
      assert Evict(h[k..]) == h[k + 1..];
      assert Latest(h + [x]) == (h + [x])[k + 1..] == h[k + 1..] + [x];
    }
  }

  function Sum(xs: seq<real>): real
  {
    if |xs| == 0 then 0.0 else xs[0] + Sum(xs[1..])
  }

  /** `np.mean`. */
  function Mean(xs: seq<real>): real
    requires |xs| > 0
  {
    Sum(xs) / (|xs| as real)
  }

  function Squares(xs: seq<real>): (r: seq<real>)
    ensures |r| == |xs|
    ensures forall i :: 0 <= i < |xs| ==> r[i] == xs[i] * xs[i]
  {
    seq(|xs|, i requires 0 <= i < |xs| => xs[i] * xs[i])
  }

  lemma {:induction false} SumNonNegative(xs: seq<real>)
    requires forall i :: 0 <= i < |xs| ==> xs[i] >= 0.0
    ensures Sum(xs) >= 0.0
    decreases |xs|
  {
    if |xs| > 0 {
      SumNonNegative(xs[1..]);
    }
  }

  lemma {:induction false} SumConstant(xs: seq<real>, c: real)
    requires forall i :: 0 <= i < |xs| ==> xs[i] == c
    ensures Sum(xs) == (|xs| as real) * c
    decreases |xs|
  {
    if |xs| > 0 {
      SumConstant(xs[1..], c);
    }
  }

  /** `zip(lat, lon)` mapped to the distance from the mean point. */
  function Distances(lat: seq<real>, lon: seq<real>, mLat: real, mLon: real, dist: Distance): (r: seq<real>)
    ensures |r| == if |lat| < |lon| then |lat| else |lon|
    ensures forall i :: 0 <= i < |r| ==> r[i] == dist(lat[i], lon[i], mLat, mLon)
  {
    var n := if |lat| < |lon| then |lat| else |lon|;
    seq(n, i requires 0 <= i < n => dist(lat[i], lon[i], mLat, mLon))
  }

  /** What `calculate_cep` leaves: the buffers, the value it returns, and
      whether it raised. */
  datatype CepResult = CepResult(b: Buffers, cep: real, raised: bool)

  /** `float(parts[i])`, `None` where it raises (`IndexError` or `ValueError`). */
  function Field(parts: seq<string>, i: nat): Option<real>
  {
    if i < |parts| then ParseFloat(parts[i]) else None
  }

  /** The eviction step of `calculate_cep`: a full latitude buffer loses its
      oldest latitude and oldest longitude. */
  function PopOldest(b: Buffers): (r: Buffers)
    requires Valid(b) && !(|b.lat| >= MaxSamples && |b.lon| == 0)
    ensures |r.lon| <= |r.lat| < MaxSamples && r.speeds == b.speeds
    ensures r.lat == Evict(b.lat)
    ensures |b.lat| >= MaxSamples ==> r.lon == b.lon[1..]
    ensures |b.lat| < MaxSamples ==> r.lon == b.lon
  {
    if |b.lat| >= MaxSamples then b.(lat := b.lat[1..], lon := b.lon[1..]) else b
  }

  /** geopy's `Point` refuses a latitude outside [-90, 90] with a
      `ValueError`; a longitude out of range is wrapped instead. */
  predicate LatitudeOk(x: real)
  {
    -90.0 <= x <= 90.0
  }

  /** Whether the distances `calculate_cep` takes raise: each paired sample
      and the mean point go through `geodesic`, so a bad paired latitude or
      a bad mean latitude raises, and an empty pairing calls it never. */
  predicate GeodesicRaises(lat: seq<real>, lon: seq<real>)
    requires |lon| <= |lat|
  {
    |lon| > 0 && (!LatitudeOk(Mean(lat)) || exists i :: 0 <= i < |lon| && !LatitudeOk(lat[i]))
  }

  /** The recording step of `calculate_cep` on buffers with room: field 2
      joins the latitudes, then field 3 the longitudes, each only if it
      parses, and only then is a CEP computed from at least 10 samples. */
  function Record(b: Buffers, parts: seq<string>, dist: Distance): (r: CepResult)
    requires |b.lon| <= |b.lat| < MaxSamples && |b.speeds| <= MaxSamples
    ensures Valid(r.b) && r.b.speeds == b.speeds
    ensures Field(parts, 2).None? ==> r.b == b
    ensures Field(parts, 2).Some? ==> r.b.lat == b.lat + [Field(parts, 2).value]
    ensures Field(parts, 2).Some? && Field(parts, 3).None? ==> r.b.lon == b.lon
    ensures Field(parts, 2).Some? && Field(parts, 3).Some? ==> r.b.lon == b.lon + [Field(parts, 3).value]
    ensures Field(parts, 2).None? || Field(parts, 3).None? || |r.b.lat| < MinCepSamples ==> r.cep == 0.0
    ensures r.raised <==>
      Field(parts, 2).Some? && Field(parts, 3).Some? && |r.b.lat| >= MinCepSamples && GeodesicRaises(r.b.lat, r.b.lon)
    ensures Field(parts, 2).Some? && Field(parts, 3).Some? && |r.b.lat| >= MinCepSamples && !r.raised ==>
      r.cep == CepOf(r.b.lat, r.b.lon, dist)
  {
    match Field(parts, 2)
    case None => CepResult(b, 0.0, false)
    case Some(x) =>
      var b2 := b.(lat := b.lat + [x]);
      match Field(parts, 3)
      case None => CepResult(b2, 0.0, false)
      case Some(y) =>
        var b3 := b2.(lon := b2.lon + [y]);
        if |b3.lat| < MinCepSamples then CepResult(b3, 0.0, false)
        else if GeodesicRaises(b3.lat, b3.lon) then CepResult(b3, 0.0, true)
        else CepResult(b3, CepOf(b3.lat, b3.lon, dist), false)
  }

  /** `calculate_cep` against the last position line's tokens `parts`.
      Popping an empty longitude buffer raises, the latitude already
      popped; a missing or non-numeric field returns 0 at that point, so a
      latitude may be kept without its longitude; `geodesic` raises on a
      latitude out of range after both appends. */
  function CalculateCep(b: Buffers, parts: seq<string>, dist: Distance): (r: CepResult)
    requires Valid(b)
    ensures Valid(r.b) && r.b.speeds == b.speeds
    ensures |b.lat| >= MaxSamples && |b.lon| == 0 ==> r.raised && r.b.lat == b.lat[1..] && r.b.lon == b.lon
    ensures !(|b.lat| >= MaxSamples && |b.lon| == 0) ==> r == Record(PopOldest(b), parts, dist)
  {
    if |b.lat| >= MaxSamples && |b.lon| == 0 then
      CepResult(b.(lat := b.lat[1..]), 0.0, true)
    else Record(PopOldest(b), parts, dist)
  }

  /** The median distance of the paired samples from the mean point. An
      empty longitude buffer, which `Record` never passes, gives 0. */
  function CepOf(lat: seq<real>, lon: seq<real>, dist: Distance): (c: real)
    requires |lon| <= |lat|
    ensures |lon| > 0 ==> 2 * CountLe(Distances(lat, lon, Mean(lat), Mean(lon), dist), c) >= |lon|
    ensures |lon| > 0 ==> 2 * CountGe(Distances(lat, lon, Mean(lat), Mean(lon), dist), c) >= |lon|
  {
    if |lon| == 0 then 0.0 else Median(Distances(lat, lon, Mean(lat), Mean(lon), dist))
  }

  /** Fixes whose fields always parse keep both buffers equal to the newest
      1000 coordinates of the history. */
  lemma CepWindow(b: Buffers, hLat: seq<real>, hLon: seq<real>, parts: seq<string>, dist: Distance)
    requires Valid(b) && b.lat == Latest(hLat) && b.lon == Latest(hLon) && |hLat| == |hLon|
    requires Field(parts, 2).Some? && Field(parts, 3).Some?
    ensures var r := CalculateCep(b, parts, dist);
      && (r.raised ==> GeodesicRaises(r.b.lat, r.b.lon))
      && r.b.lat == Latest(hLat + [Field(parts, 2).value])
      && r.b.lon == Latest(hLon + [Field(parts, 3).value])
  {
    EvictAppendLatest(hLat, Field(parts, 2).value);
    EvictAppendLatest(hLon, Field(parts, 3).value);
  }

  /** Latitudes within [-90, 90] have their mean within it as well. */
  lemma {:induction false} SumBounded(xs: seq<real>)
    requires forall i :: 0 <= i < |xs| ==> LatitudeOk(xs[i])
    ensures -90.0 * (|xs| as real) <= Sum(xs) <= 90.0 * (|xs| as real)
    decreases |xs|
  {
    if |xs| > 0 {
      SumBounded(xs[1..]);
    }
  }

  lemma MeanBounded(xs: seq<real>)
    requires |xs| > 0 && forall i :: 0 <= i < |xs| ==> LatitudeOk(xs[i])
    ensures LatitudeOk(Mean(xs))
  {
    SumBounded(xs);
    var n := |xs| as real;
    assert Sum(xs) / n <= 90.0 by {
      assert Sum(xs) <= 90.0 * n;
    }
    assert -90.0 <= Sum(xs) / n by {
      assert -90.0 * n <= Sum(xs);
    }
  }

  /** Evicting and appending an in-range latitude keeps every latitude in range. */
  lemma EvictAppendInRange(lat: seq<real>, x: real)
    requires forall i :: 0 <= i < |lat| ==> LatitudeOk(lat[i])
    requires LatitudeOk(x)
    ensures forall i :: 0 <= i < |Evict(lat) + [x]| ==> LatitudeOk((Evict(lat) + [x])[i])
  {
    var e := Evict(lat) + [x];
    forall i | 0 <= i < |e|
      ensures LatitudeOk(e[i])
    {
      if i < |e| - 1 {
        assert e[i] == lat[if |lat| >= MaxSamples then i + 1 else i];
      }
    }
  }

  lemma NoGeodesicRaise(lat: seq<real>, lon: seq<real>)
    requires |lon| <= |lat| && |lat| > 0
    requires forall i :: 0 <= i < |lat| ==> LatitudeOk(lat[i])
    ensures !GeodesicRaises(lat, lon)
  {
    MeanBounded(lat);
  }

  /** While every latitude handed over lies within [-90, 90], `geodesic`
      never raises, and `calculate_cep` raises exactly when the latitude
      buffer is full and the longitude buffer empty. */
  lemma CepInRange(b: Buffers, parts: seq<string>, dist: Distance)
    requires Valid(b)
    requires forall i :: 0 <= i < |b.lat| ==> LatitudeOk(b.lat[i])
    requires Field(parts, 2).Some? ==> LatitudeOk(Field(parts, 2).value)
    ensures CalculateCep(b, parts, dist).raised <==> |b.lat| >= MaxSamples && |b.lon| == 0
  {
    if !(|b.lat| >= MaxSamples && |b.lon| == 0) && Field(parts, 2).Some? && Field(parts, 3).Some? {
      var r := Record(PopOldest(b), parts, dist);
      EvictAppendInRange(b.lat, Field(parts, 2).value);
      NoGeodesicRaise(r.b.lat, r.b.lon);
    }
  }

  /** A latitude out of range, once ten samples are paired, makes
      `calculate_cep` raise with both coordinates already appended. */
  lemma CepOutOfRange(b: Buffers, parts: seq<string>, dist: Distance)
    requires Valid(b) && |b.lon| == |b.lat| >= MinCepSamples
    requires Field(parts, 2).Some? && Field(parts, 3).Some? && !LatitudeOk(Field(parts, 2).value)
    ensures var r := CalculateCep(b, parts, dist);
      && r.raised
      && r.b.lat == Evict(b.lat) + [Field(parts, 2).value]
      && r.b.lon == Evict(b.lon) + [Field(parts, 3).value]
  {
    var p := PopOldest(b);
    assert |p.lat| == |p.lon|;
    var r := Record(p, parts, dist);
    assert |r.b.lat| == |r.b.lon| >= MinCepSamples;
    assert r.b.lat[|r.b.lon| - 1] == Field(parts, 2).value;
  }

  /** `calculate_vrms`: the newest speed joins the buffer, evicting the oldest
      of a full one; the value is the mean square of the buffer. */
  function CalculateVrms(b: Buffers, v: real): (r: (Buffers, real))
    requires Valid(b)
    ensures Valid(r.0)
    ensures r.0.lat == b.lat && r.0.lon == b.lon
    ensures |r.0.speeds| > 0 && r.0.speeds[|r.0.speeds| - 1] == v
    ensures r.0.speeds == Evict(b.speeds) + [v]
    ensures r.1 == Mean(Squares(r.0.speeds)) && r.1 >= 0.0
  {
    var speeds := Evict(b.speeds) + [v];
    SumNonNegative(Squares(speeds));
    (b.(speeds := speeds), Mean(Squares(speeds)))
  }

  /** A buffer holding one speed throughout has that speed's square as its
      mean square. */
  lemma VrmsConstant(b: Buffers, v: real)
    requires Valid(b) && forall i :: 0 <= i < |b.speeds| ==> b.speeds[i] == v
    ensures CalculateVrms(b, v).1 == v * v
  {
    var speeds := Evict(b.speeds) + [v];
    SumConstant(Squares(speeds), v * v);
  }

  /** The speed buffer is the newest 1000 speeds handed to it. */
  lemma VrmsWindow(b: Buffers, h: seq<real>, v: real)
    requires Valid(b) && b.speeds == Latest(h)
    ensures CalculateVrms(b, v).0.speeds == Latest(h + [v])
  {
    EvictAppendLatest(h, v);
  }

  /** `reset_cep`: empties the three buffers, runs both calculations (their
      results are discarded) and empties the CEP plot. */
  function ResetCep<V>(b: Buffers, parts: seq<string>, v: real, dist: Distance, plot: Window<V>): (r: (Buffers, Window<V>))
    ensures Valid(r.0)
    ensures r.0.speeds == [v]
    ensures Field(parts, 2).Some? ==> r.0.lat == [Field(parts, 2).value]
    ensures Field(parts, 2).None? ==> r.0.lat == [] && r.0.lon == []
    ensures Field(parts, 2).Some? && Field(parts, 3).Some? ==> r.0.lon == [Field(parts, 3).value]
    ensures Field(parts, 2).Some? && Field(parts, 3).None? ==> r.0.lon == []
    ensures |r.0.lon| <= 1 && |r.1.points| == 0
  {
    var c := CalculateCep(Buffers([], [], []), parts, dist);
    (CalculateVrms(c.b, v).0, Window(0.0, []))
  }

  /** A reset forgets the history: the buffers and the plot afterwards do
      not depend on what they held before. */
  lemma ResetForgets<V>(b: Buffers, b': Buffers, parts: seq<string>, v: real, dist: Distance,
                        plot: Window<V>, plot': Window<V>)
    ensures ResetCep(b, parts, v, dist, plot) == ResetCep(b', parts, v, dist, plot')
  {
  }
}

=== FILE: table.dfy ===
/** `update_table`: the satellite table is reconciled with the buffered
    rows. Existing rows are filed by their (CH, SAT, SIG) values as Tk
    reads them back; a buffered row whose (CH, SAT, SIG) strings find one
    updates it in place and crosses it off; unmatched buffered rows are
    appended; rows never crossed off are deleted. Rows are striped
    even/odd by their position in the buffer. */
module Table {
  import opened Wrappers
  import opened OrderedDict
  import opened Tracking
  import Numeric

  /** `evenrow` / `oddrow`. */
  datatype Tag = EvenRow | OddRow

  function TagOf(i: nat): (t: Tag)
    ensures t == EvenRow <==> i % 2 == 0
  {
    if i % 2 == 0 then EvenRow else OddRow
  }

  /** A value as `tree.item(iid)["values"]` hands it back: Tkinter's
      `_convert_stringval` returns every value that `int()` accepts as that
      `int`, and any other as the string. */
  datatype Cell = Str(s: string) | Int(n: int)

  function ReadBack(s: string): (c: Cell)
    ensures c.Str? <==> Numeric.IntOf(s).None?
    ensures c.Str? ==> c.s == s
  {
    match Numeric.IntOf(s)
    case Some(n) => Int(n)
    case None => Str(s)
  }

  /** A key of `current_items` or of a lookup: three read-back values. */
  datatype TableKey = TableKey(ch: Cell, sat: Cell, sig: Cell)

  /** The key `current_items` files a shown row under: its values 0, 1 and
      2 as read back. */
  function KeyOf(t: SatTuple): TableKey
  {
    TableKey(ReadBack(t.ch), ReadBack(t.sat), ReadBack(t.sig))
  }

  /** The key a buffered tuple is looked up by: `(data[0], data[1],
      data[2])`, three strings. */
  function Probe(t: SatTuple): TableKey
  {
    TableKey(Str(t.ch), Str(t.sat), Str(t.sig))
  }

  /** The CH, SAT and SIG of `t` read back as the strings they are. */
  predicate ReadsBack(t: SatTuple)
  {
    Numeric.IntOf(t.ch).None? && Numeric.IntOf(t.sat).None? && Numeric.IntOf(t.sig).None?
  }

  /** A tuple's lookup finds its own shown row exactly when its key values
      read back unchanged. */
  lemma ProbeFindsOwn(t: SatTuple)
    ensures Probe(t) == KeyOf(t) <==> ReadsBack(t)
  {
  }

  /** A lookup can only find a row whose key values are strings, and
      those are then the strings looked up. */
  lemma ProbeHit(row: SatTuple, d: SatTuple)
    requires KeyOf(row) == Probe(d)
    ensures ReadsBack(row) && ReadsBack(d)
    ensures row.ch == d.ch && row.sat == d.sat && row.sig == d.sig
  {
  }

  /** Every buffered tuple reads back unchanged. */
  ghost predicate AllReadBack(data: seq<SatTuple>)
  {
    forall j :: 0 <= j < |data| ==> ReadsBack(data[j])
  }

  /** A table row: its item id, its values and its stripe. */
  datatype Row = Row(iid: nat, values: SatTuple, tag: Tag)

  /** The rows in display order and the next fresh item id. */
  datatype Tree = Tree(rows: seq<Row>, next: nat)

  ghost predicate UniqueIids(rows: seq<Row>)
  {
    forall i, j :: 0 <= i < j < |rows| ==> rows[i].iid != rows[j].iid
  }

  /** Item ids are distinct and below the next fresh one. */
  ghost predicate ValidTree(t: Tree)
  {
    UniqueIids(t.rows) && forall i :: 0 <= i < |t.rows| ==> t.rows[i].iid < t.next
  }

  /** What one reconciliation did: `Updated(iid, i)` and `Inserted(iid, i)`
      for buffered row `i`, `Deleted(iid)` for a removed row. */
  datatype Op = Updated(iid: nat, i: nat) | Inserted(iid: nat, i: nat) | Deleted(iid: nat)

  /** `current_items`: later rows with the same key overwrite the item id of
      earlier ones, keeping the key's first position. */
  function ItemsOf(rows: seq<Row>): (d: Dict<TableKey, nat>)
    ensures UniqueKeys(d)
    decreases |rows|
  {
    if |rows| == 0 then []
    else
      var last := rows[|rows| - 1];
      Put(ItemsOf(rows[..|rows| - 1]), KeyOf(last.values), last.iid)
  }

  /** `tree.item(iid, values=..., tags=...)`. */
  function UpdateRow(rows: seq<Row>, iid: nat, values: SatTuple, tag: Tag): (r: seq<Row>)
    ensures |r| == |rows|
    ensures forall j :: 0 <= j < |rows| ==> r[j].iid == rows[j].iid
    ensures forall j :: 0 <= j < |rows| ==> r[j] == if rows[j].iid == iid then Row(iid, values, tag) else rows[j]
  {
    seq(|rows|, j requires 0 <= j < |rows| => if rows[j].iid == iid then Row(iid, values, tag) else rows[j])
  }

  /** The rows whose item id is not listed, in order (`tree.delete` of each). */
  function DeleteAll(rows: seq<Row>, iids: seq<nat>): (r: seq<Row>)
    ensures |r| <= |rows|
    ensures forall j :: 0 <= j < |r| ==> r[j] in rows && r[j].iid !in iids
    ensures forall j :: 0 <= j < |rows| && rows[j].iid !in iids ==> rows[j] in r
    ensures |iids| == 0 ==> r == rows
    decreases |rows|
  {
    if |rows| == 0 then []
    else if rows[0].iid in iids then DeleteAll(rows[1..], iids)
    else [rows[0]] + DeleteAll(rows[1..], iids)
  }

  /** The loop state of the pass over the buffer. */
  datatype Pass = Pass(rows: seq<Row>, items: Dict<TableKey, nat>, next: nat, ops: seq<Op>)

  /** One iteration for buffered row `d` at index `i`: a row whose key is
      still a candidate is rewritten in place and crossed off; otherwise a
      row is appended under a fresh item id. */
  function Visit(p: Pass, d: SatTuple, i: nat): (r: Pass)
    requires UniqueKeys(p.items)
    ensures UniqueKeys(r.items)
    ensures |r.ops| == |p.ops| + 1 && r.ops[..|p.ops|] == p.ops
    ensures !r.ops[|p.ops|].Deleted? && r.ops[|p.ops|].i == i
    ensures r.ops[|p.ops|].Updated? <==> HasKey(p.items, Probe(d))
    ensures p.next <= r.next
  {
    match Get(p.items, Probe(d))
    case Some(iid) =>
      Pass(UpdateRow(p.rows, iid, d, TagOf(i)), Del(p.items, Probe(d)), p.next, p.ops + [Updated(iid, i)])
    case None =>
      Pass(p.rows + [Row(p.next, d, TagOf(i))], p.items, p.next + 1, p.ops + [Inserted(p.next, i)])
  }

  /** The loop `for i, data in enumerate(sat_data_list)` from index `i` on. */
  function PassFrom(p: Pass, data: seq<SatTuple>, i: nat): (r: Pass)
    requires i <= |data| && UniqueKeys(p.items)
    ensures UniqueKeys(r.items)
    ensures |r.ops| == |p.ops| + |data| - i
    ensures r.ops[..|p.ops|] == p.ops
    ensures forall j :: |p.ops| <= j < |r.ops| ==> !r.ops[j].Deleted? && r.ops[j].i == i + j - |p.ops|
    ensures p.next <= r.next
    decreases |data| - i
  {
    if i == |data| then p
    else
      var step := Visit(p, data[i], i);
      var r := PassFrom(step, data, i + 1);
      OpsExtend(p.ops, step.ops, r.ops, i);
      r
  }

  /** One more operation for tuple `i`, followed by operations for the
      tuples after it, extends the log by operations for `i` on. */
  lemma OpsExtend(pre: seq<Op>, mid: seq<Op>, post: seq<Op>, i: nat)
    requires |mid| == |pre| + 1 && mid[..|pre|] == pre
    requires !mid[|pre|].Deleted? && mid[|pre|].i == i
    requires |post| >= |mid| && post[..|mid|] == mid
    requires forall j :: |mid| <= j < |post| ==> !post[j].Deleted? && post[j].i == i + 1 + j - |mid|
    ensures post[..|pre|] == pre
    ensures forall j :: |pre| <= j < |post| ==> !post[j].Deleted? && post[j].i == i + j - |pre|
  {
    assert post[..|pre|] == mid[..|pre|];
    assert post[|pre|] == mid[|pre|];
  }

  function Deletions(iids: seq<nat>): (ops: seq<Op>)
    ensures |ops| == |iids|
    ensures forall j :: 0 <= j < |iids| ==> ops[j] == Deleted(iids[j])
  {
    seq(|iids|, j requires 0 <= j < |iids| => Deleted(iids[j]))
  }

  /** `update_table` on the buffered rows `data` (`sat_data_buffer.values()`). */
  function UpdateTable(t: Tree, data: seq<SatTuple>): (r: (Tree, seq<Op>))
    ensures |r.1| >= |data|
    ensures forall j :: 0 <= j < |data| ==> !r.1[j].Deleted? && r.1[j].i == j
    ensures forall j :: |data| <= j < |r.1| ==> r.1[j].Deleted?
    ensures t.next <= r.0.next
  {
    var p := PassFrom(Pass(t.rows, ItemsOf(t.rows), t.next, []), data, 0);
    var leftover := Values(p.items);
    (Tree(DeleteAll(p.rows, leftover), p.next), p.ops + Deletions(leftover))
  }

  /** Every candidate key points at a row that has that key and that id. */
  ghost predicate Points(items: Dict<TableKey, nat>, rows: seq<Row>)
  {
    forall k :: HasKey(items, k) ==>
      exists m :: 0 <= m < |rows| && rows[m].iid == Get(items, k).value && KeyOf(rows[m].values) == k
  }

  /** What holds after `i` iterations: the item ids are distinct and below
      the fresh one, every candidate points at a live row, each visited
      buffered row is stored under its op's item id with its stripe, those
      item ids are distinct, and no candidate points at one of them. */
  ghost predicate Inv(p: Pass, data: seq<SatTuple>, i: nat)
  {
    && i <= |data| && |p.ops| == i && UniqueKeys(p.items)
    && UniqueIids(p.rows)
    && (forall m :: 0 <= m < |p.rows| ==> p.rows[m].iid < p.next)
    && Points(p.items, p.rows)
    && (forall j :: 0 <= j < i ==> !p.ops[j].Deleted? && p.ops[j].i == j && p.ops[j].iid < p.next)
    && (forall j :: 0 <= j < i ==> Row(p.ops[j].iid, data[j], TagOf(j)) in p.rows)
    && (forall j1, j2 :: 0 <= j1 < j2 < i ==> p.ops[j1].iid != p.ops[j2].iid)
    && (forall k, j :: HasKey(p.items, k) && 0 <= j < i ==> p.ops[j].iid != Get(p.items, k).value)
  }

  /** Two rows with the same item id are the same row. */
  lemma SameIid(rows: seq<Row>, a: nat, b: nat)
    requires UniqueIids(rows) && a < |rows| && b < |rows|
    ensures rows[a].iid == rows[b].iid <==> a == b
  {
  }

  lemma VisitUpdateInv(p: Pass, data: seq<SatTuple>, i: nat)
    requires Inv(p, data, i) && i < |data| && HasKey(p.items, Probe(data[i]))
    ensures Inv(Visit(p, data[i], i), data, i + 1)
  {
    var key := Probe(data[i]);
    var iid := Get(p.items, key).value;
    assert Visit(p, data[i], i)
      == Pass(UpdateRow(p.rows, iid, data[i], TagOf(i)), Del(p.items, key), p.next, p.ops + [Updated(iid, i)]);
    UpdateInv(p, data, i);
  }

  /** Overwriting the row of tuple `i`'s candidate and dropping the
      candidate keeps the invariant. */
  lemma UpdateInv(p: Pass, data: seq<SatTuple>, i: nat)
    requires Inv(p, data, i) && i < |data| && HasKey(p.items, Probe(data[i]))
    ensures var key := Probe(data[i]);
      var iid := Get(p.items, key).value;
      Inv(Pass(UpdateRow(p.rows, iid, data[i], TagOf(i)), Del(p.items, key), p.next, p.ops + [Updated(iid, i)]),
          data, i + 1)
  {
    var key := Probe(data[i]);
    var iid := Get(p.items, key).value;
    var rows := UpdateRow(p.rows, iid, data[i], TagOf(i));
    var items := Del(p.items, key);
    var ops := p.ops + [Updated(iid, i)];
    var m0 :| 0 <= m0 < |p.rows| && p.rows[m0].iid == iid && KeyOf(p.rows[m0].values) == key;
    PointsUpdate(p.items, p.rows, key, data[i], TagOf(i));
    UpdateStored(p, data, i, m0);
    UpdateFresh(p, data, i, m0);
  }

  /** No remaining candidate points at an item id the pass has touched. */
  lemma UpdateFresh(p: Pass, data: seq<SatTuple>, i: nat, m0: nat)
    requires Inv(p, data, i) && i < |data| && HasKey(p.items, Probe(data[i]))
    requires m0 < |p.rows| && p.rows[m0].iid == Get(p.items, Probe(data[i])).value
    requires KeyOf(p.rows[m0].values) == Probe(data[i])
    ensures var key := Probe(data[i]);
      var iid := Get(p.items, key).value;
      var items := Del(p.items, key);
      var ops := p.ops + [Updated(iid, i)];
      forall k, j :: HasKey(items, k) && 0 <= j < i + 1 ==> ops[j].iid != Get(items, k).value
  {
    var key := Probe(data[i]);
    var iid := Get(p.items, key).value;
    var items := Del(p.items, key);
    var ops := p.ops + [Updated(iid, i)];
    // A candidate other than `key` points at a row other than `m0`.
    forall k, m | HasKey(p.items, k) && k != key && 0 <= m < |p.rows| && p.rows[m].iid == Get(p.items, k).value
                  && KeyOf(p.rows[m].values) == k
      ensures p.rows[m].iid != iid
    {
      SameIid(p.rows, m, m0);
    }
    forall k, j | HasKey(items, k) && 0 <= j < i + 1
      ensures ops[j].iid != Get(items, k).value
    {
      assert Get(items, k) == Get(p.items, k);
      if j == i {
        var m :| 0 <= m < |p.rows| && p.rows[m].iid == Get(p.items, k).value && KeyOf(p.rows[m].values) == k;
      }
    }
  }

  /** After the update every visited buffered row is still stored under
      its op's item id, the new one included. */
  lemma UpdateStored(p: Pass, data: seq<SatTuple>, i: nat, m0: nat)
    requires Inv(p, data, i) && i < |data| && HasKey(p.items, Probe(data[i]))
    requires m0 < |p.rows| && p.rows[m0].iid == Get(p.items, Probe(data[i])).value
    ensures var iid := Get(p.items, Probe(data[i])).value;
      var rows := UpdateRow(p.rows, iid, data[i], TagOf(i));
      var ops := p.ops + [Updated(iid, i)];
      forall j :: 0 <= j < i + 1 ==> Row(ops[j].iid, data[j], TagOf(j)) in rows
  {
    var iid := Get(p.items, Probe(data[i])).value;
    var rows := UpdateRow(p.rows, iid, data[i], TagOf(i));
    var ops := p.ops + [Updated(iid, i)];
    forall j | 0 <= j < i + 1
      ensures Row(ops[j].iid, data[j], TagOf(j)) in rows
    {
      if j < i {
        assert p.ops[j].iid != iid;
        var m :| 0 <= m < |p.rows| && p.rows[m] == Row(p.ops[j].iid, data[j], TagOf(j));
        assert rows[m] == p.rows[m];
      } else {
        assert rows[m0] == Row(iid, data[i], TagOf(i));
      }
    }
  }

  /** Dropping a candidate and overwriting the values of its row leaves
      the other candidates pointing at their rows. */
  lemma PointsUpdate(items: Dict<TableKey, nat>, rows: seq<Row>, key: TableKey, values: SatTuple, tag: Tag)
    requires UniqueKeys(items) && HasKey(items, key) && UniqueIids(rows) && Points(items, rows)
    ensures Points(Del(items, key), UpdateRow(rows, Get(items, key).value, values, tag))
  {
    var iid := Get(items, key).value;
    var d := Del(items, key);
    var r := UpdateRow(rows, iid, values, tag);
    var m0 :| 0 <= m0 < |rows| && rows[m0].iid == iid && KeyOf(rows[m0].values) == key;
    forall k | HasKey(d, k)
      ensures exists m :: 0 <= m < |r| && r[m].iid == Get(d, k).value && KeyOf(r[m].values) == k
    {
      assert Get(d, k) == Get(items, k);
      var m :| 0 <= m < |rows| && rows[m].iid == Get(items, k).value && KeyOf(rows[m].values) == k;
      SameIid(rows, m, m0);
      assert r[m] == rows[m];
    }
  }

  lemma VisitInsertInv(p: Pass, data: seq<SatTuple>, i: nat)
    requires Inv(p, data, i) && i < |data| && !HasKey(p.items, Probe(data[i]))
    ensures Inv(Visit(p, data[i], i), data, i + 1)
  {
    var row := Row(p.next, data[i], TagOf(i));
    assert Visit(p, data[i], i) == Pass(p.rows + [row], p.items, p.next + 1, p.ops + [Inserted(p.next, i)]);
    InsertInv(p, data, i);
  }

  /** A new last row for tuple `i`, under a fresh item id, keeps the invariant. */
  lemma InsertInv(p: Pass, data: seq<SatTuple>, i: nat)
    requires Inv(p, data, i) && i < |data| && !HasKey(p.items, Probe(data[i]))
    ensures var row := Row(p.next, data[i], TagOf(i));
      Inv(Pass(p.rows + [row], p.items, p.next + 1, p.ops + [Inserted(p.next, i)]), data, i + 1)
  {
    var row := Row(p.next, data[i], TagOf(i));
    var rows := p.rows + [row];
    var ops := p.ops + [Inserted(p.next, i)];
    PointsAppend(p.items, p.rows, row);
    forall j | 0 <= j < i + 1
      ensures Row(ops[j].iid, data[j], TagOf(j)) in rows
    {
      if j == i {
        assert rows[|p.rows|] == row;
      } else {
        assert ops[j] == p.ops[j];
      }
    }
    CandidatesFresh(p, data, i);
  }

  /** Every candidate's item id is below the next fresh one. */
  lemma CandidatesFresh(p: Pass, data: seq<SatTuple>, i: nat)
    requires Inv(p, data, i)
    ensures forall k :: HasKey(p.items, k) ==> Get(p.items, k).value < p.next
  {
    forall k | HasKey(p.items, k)
      ensures Get(p.items, k).value < p.next
    {
      var m :| 0 <= m < |p.rows| && p.rows[m].iid == Get(p.items, k).value && KeyOf(p.rows[m].values) == k;
    }
  }

  /** Rows added after the ones the candidates point to leave them pointing. */
  lemma PointsAppend(items: Dict<TableKey, nat>, pre: seq<Row>, last: Row)
    requires Points(items, pre)
    ensures Points(items, pre + [last])
  {
    var rows := pre + [last];
    forall k | HasKey(items, k)
      ensures exists m :: 0 <= m < |rows| && rows[m].iid == Get(items, k).value && KeyOf(rows[m].values) == k
    {
      var m :| 0 <= m < |pre| && pre[m].iid == Get(items, k).value && KeyOf(pre[m].values) == k;
      assert rows[m] == pre[m];
    }
  }

  lemma {:induction false} PassInv(p: Pass, data: seq<SatTuple>, i: nat)
    requires Inv(p, data, i)
    ensures Inv(PassFrom(p, data, i), data, |data|)
    decreases |data| - i
  {
    if i < |data| {
      if HasKey(p.items, Probe(data[i])) {
        VisitUpdateInv(p, data, i);
      } else {
        VisitInsertInv(p, data, i);
      }
      PassInv(Visit(p, data[i], i), data, i + 1);
    }
  }

  /** The candidates built from the rows point into them. */
  lemma {:induction false} ItemsOfPoints(rows: seq<Row>)
    ensures Points(ItemsOf(rows), rows)
    decreases |rows|
  {
    if |rows| > 0 {
      var n := |rows| - 1;
      ItemsOfPoints(rows[..n]);
      assert rows == rows[..n] + [rows[n]];
      PointsPut(ItemsOf(rows[..n]), rows[..n], rows[n]);
    }
  }

  /** Registering a new last row keeps the candidates pointing into the rows. */
  lemma PointsPut(d: Dict<TableKey, nat>, pre: seq<Row>, last: Row)
    requires Points(d, pre)
    ensures Points(Put(d, KeyOf(last.values), last.iid), pre + [last])
  {
    var r := Put(d, KeyOf(last.values), last.iid);
    var rows := pre + [last];
    forall k | HasKey(r, k)
      ensures exists m :: 0 <= m < |rows| && rows[m].iid == Get(r, k).value && KeyOf(rows[m].values) == k
    {
      PutHasKey(d, KeyOf(last.values), last.iid, k);
      if k == KeyOf(last.values) {
        assert rows[|pre|] == last;
      } else {
        var m :| 0 <= m < |pre| && pre[m].iid == Get(d, k).value && KeyOf(pre[m].values) == k;
        assert rows[m] == pre[m];
      }
    }
  }

  /** A key is a candidate exactly when some row has it. */
  lemma {:induction false} ItemsOfKeys(rows: seq<Row>, k: TableKey)
    ensures HasKey(ItemsOf(rows), k) <==> KeyIn(rows, k)
    decreases |rows|
  {
    if |rows| > 0 {
      var n := |rows| - 1;
      ItemsOfKeys(rows[..n], k);
      PutHasKey(ItemsOf(rows[..n]), KeyOf(rows[n].values), rows[n].iid, k);
      KeyInLast(rows, k);
    }
  }

  lemma KeyInLast(rows: seq<Row>, k: TableKey)
    requires |rows| > 0
    ensures KeyIn(rows, k) <==> KeyOf(rows[|rows| - 1].values) == k || KeyIn(rows[..|rows| - 1], k)
  {
    var pre := rows[..|rows| - 1];
    if KeyIn(rows, k) && k != KeyOf(rows[|rows| - 1].values) {
      var m :| 0 <= m < |rows| && KeyOf(rows[m].values) == k;
      assert pre[m] == rows[m];
    }
    if KeyIn(pre, k) {
      var m :| 0 <= m < |pre| && KeyOf(pre[m].values) == k;
      assert rows[m] == pre[m];
    }
  }

  /** Some row has key `k`. */
  ghost predicate KeyIn(rows: seq<Row>, k: TableKey)
  {
    exists m :: 0 <= m < |rows| && KeyOf(rows[m].values) == k
  }

  lemma StartInv(t: Tree, data: seq<SatTuple>)
    requires ValidTree(t)
    ensures Inv(Pass(t.rows, ItemsOf(t.rows), t.next, []), data, 0)
  {
    ItemsOfPoints(t.rows);
  }

  /** Deleting keeps the item ids distinct. */
  lemma {:induction false} DeleteAllUnique(rows: seq<Row>, iids: seq<nat>)
    requires UniqueIids(rows)
    ensures UniqueIids(DeleteAll(rows, iids))
    decreases |rows|
  {
    if |rows| > 0 {
      DeleteAllUnique(rows[1..], iids);
      var rest := DeleteAll(rows[1..], iids);
      forall j | 0 <= j < |rest| ensures rest[j].iid != rows[0].iid {
        var m :| 0 <= m < |rows[1..]| && rows[1..][m] == rest[j];
        assert rows[0].iid != rows[m + 1].iid;
      }
    }
  }

  /** The reconciled table is well formed, every buffered row `j` is shown
      with its values and stripe under the item id its op names, and those
      item ids are distinct, so no row is updated twice in a pass. */
  lemma UpdateTableStores(t: Tree, data: seq<SatTuple>)
    requires ValidTree(t)
    ensures var (t', ops) := UpdateTable(t, data);
      && ValidTree(t')
      && (forall j :: 0 <= j < |data| ==> Row(ops[j].iid, data[j], TagOf(j)) in t'.rows)
      && (forall j1, j2 :: 0 <= j1 < j2 < |data| ==> ops[j1].iid != ops[j2].iid)
  {
    var p0 := Pass(t.rows, ItemsOf(t.rows), t.next, []);
    StartInv(t, data);
    PassInv(p0, data, 0);
    var p := PassFrom(p0, data, 0);
    var leftover := Values(p.items);
    var rows := DeleteAll(p.rows, leftover);
    DeleteAllUnique(p.rows, leftover);
    var ops := UpdateTable(t, data).1;
    assert ops[..|data|] == p.ops;
    StoredSurvive(p, data);
    forall j | 0 <= j < |data| ensures Row(ops[j].iid, data[j], TagOf(j)) in rows {
      assert ops[j] == p.ops[j];
    }
    forall j1, j2 | 0 <= j1 < j2 < |data| ensures ops[j1].iid != ops[j2].iid {
      assert ops[j1] == p.ops[j1] && ops[j2] == p.ops[j2];
    }
  }

  /** The rows a finished pass stored survive the deletion of the leftover
      candidates. */
  lemma StoredSurvive(p: Pass, data: seq<SatTuple>)
    requires Inv(p, data, |data|)
    ensures forall j :: 0 <= j < |data| ==> Row(p.ops[j].iid, data[j], TagOf(j)) in DeleteAll(p.rows, Values(p.items))
  {
    var leftover := Values(p.items);
    forall j | 0 <= j < |data| ensures Row(p.ops[j].iid, data[j], TagOf(j)) in DeleteAll(p.rows, leftover) {
      var m :| 0 <= m < |p.rows| && p.rows[m] == Row(p.ops[j].iid, data[j], TagOf(j));
      forall x | 0 <= x < |leftover| ensures leftover[x] != p.ops[j].iid {
        GetAt(p.items, x);
        assert HasKey(p.items, p.items[x].0);
      }
    }
  }

  /** No two rows show the same (CH, SAT, SIG). */
  ghost predicate UniqueTableKeys(rows: seq<Row>)
  {
    forall a, b :: 0 <= a < b < |rows| ==> KeyOf(rows[a].values) != KeyOf(rows[b].values)
  }

  /** No two buffered rows share a (CH, SAT, SIG). */
  ghost predicate DistinctKeys(data: seq<SatTuple>)
  {
    forall a, b :: 0 <= a < b < |data| ==> KeyOf(data[a]) != KeyOf(data[b])
  }

  /** One of the first `n` buffered rows has key `k`. */
  ghost predicate DataHas(data: seq<SatTuple>, n: nat, k: TableKey)
    requires n <= |data|
  {
    exists j :: 0 <= j < n && KeyOf(data[j]) == k
  }

  /** With distinct keys throughout, after `i` iterations over a table
      `rows0`: the candidates are the keys of `rows0` not yet visited, each
      with its original item id, the table shows the keys of `rows0` and of
      the visited rows once each, and a visited row was an update exactly
      when `rows0` had its key. */
  ghost predicate KeyInv(p: Pass, data: seq<SatTuple>, i: nat, rows0: seq<Row>)
  {
    && i <= |data| && |p.ops| == i && AllReadBack(data)
    && UniqueTableKeys(p.rows)
    && (forall k :: HasKey(p.items, k) <==> KeyIn(rows0, k) && !DataHas(data, i, k))
    && (forall k :: HasKey(p.items, k) ==> Get(p.items, k) == Get(ItemsOf(rows0), k))
    && (forall k :: KeyIn(p.rows, k) <==> KeyIn(rows0, k) || DataHas(data, i, k))
    && (forall j :: 0 <= j < i ==> (p.ops[j].Updated? <==> KeyIn(rows0, KeyOf(data[j]))))
  }

  lemma DataHasNext(data: seq<SatTuple>, i: nat, k: TableKey)
    requires i < |data|
    ensures DataHas(data, i + 1, k) <==> DataHas(data, i, k) || KeyOf(data[i]) == k
  {
    if DataHas(data, i + 1, k) && KeyOf(data[i]) != k {
      var j :| 0 <= j < i + 1 && KeyOf(data[j]) == k;
    }
  }

  /** Rewriting the row of a candidate with values of the same key leaves
      the keys shown in each position as they were. */
  lemma UpdateRowKeys(rows: seq<Row>, m0: nat, d: SatTuple, tag: Tag)
    requires UniqueIids(rows) && m0 < |rows| && KeyOf(rows[m0].values) == KeyOf(d)
    ensures var r := UpdateRow(rows, rows[m0].iid, d, tag);
      forall m :: 0 <= m < |rows| ==> KeyOf(r[m].values) == KeyOf(rows[m].values)
  {
    forall m | 0 <= m < |rows| {
      SameIid(rows, m, m0);
    }
  }

  /** Rows with the same keys position by position show the same keys. */
  lemma SameKeys(a: seq<Row>, b: seq<Row>)
    requires |a| == |b| && forall m :: 0 <= m < |a| ==> KeyOf(a[m].values) == KeyOf(b[m].values)
    ensures UniqueTableKeys(a) ==> UniqueTableKeys(b)
    ensures forall k :: KeyIn(a, k) <==> KeyIn(b, k)
  {
    forall k ensures KeyIn(a, k) <==> KeyIn(b, k) {
      if KeyIn(a, k) {
        var m :| 0 <= m < |a| && KeyOf(a[m].values) == k;
        assert KeyOf(b[m].values) == k;
      }
      if KeyIn(b, k) {
        var m :| 0 <= m < |b| && KeyOf(b[m].values) == k;
        assert KeyOf(a[m].values) == k;
      }
    }
  }

  lemma VisitUpdateKeys(p: Pass, data: seq<SatTuple>, i: nat, rows0: seq<Row>)
    requires UniqueKeys(p.items) && UniqueIids(p.rows) && Points(p.items, p.rows)
    requires KeyInv(p, data, i, rows0) && i < |data|
    requires HasKey(p.items, KeyOf(data[i]))
    ensures KeyInv(Visit(p, data[i], i), data, i + 1, rows0)
  {
    var key := KeyOf(data[i]);
    ProbeFindsOwn(data[i]);
    var iid := Get(p.items, key).value;
    var r := Visit(p, data[i], i);
    assert r == Pass(UpdateRow(p.rows, iid, data[i], TagOf(i)), Del(p.items, key), p.next, p.ops + [Updated(iid, i)]);
    UpdatedRowKeys(p, data[i], TagOf(i));
    forall k ensures HasKey(r.items, k) <==> k != key && HasKey(p.items, k) {
      DelHasKey(p.items, key, k);
    }
    assert r.ops[..i] == p.ops;
    UpdatedKeyInv(p, r, data, i, rows0);
  }

  /** Overwriting the candidate row of `d`'s key with `d` changes no shown key. */
  lemma UpdatedRowKeys(p: Pass, d: SatTuple, tag: Tag)
    requires UniqueKeys(p.items) && UniqueIids(p.rows) && Points(p.items, p.rows)
    requires UniqueTableKeys(p.rows) && HasKey(p.items, KeyOf(d))
    ensures var rows := UpdateRow(p.rows, Get(p.items, KeyOf(d)).value, d, tag);
      UniqueTableKeys(rows) && forall k :: KeyIn(p.rows, k) <==> KeyIn(rows, k)
  {
    var key := KeyOf(d);
    var iid := Get(p.items, key).value;
    var m0 :| 0 <= m0 < |p.rows| && p.rows[m0].iid == iid && KeyOf(p.rows[m0].values) == key;
    UpdateRowKeys(p.rows, m0, d, tag);
    SameKeys(p.rows, UpdateRow(p.rows, iid, d, tag));
  }

  /** The bookkeeping of `KeyInv` across an update of the row for `data[i]`. */
  lemma UpdatedKeyInv(p: Pass, r: Pass, data: seq<SatTuple>, i: nat, rows0: seq<Row>)
    requires KeyInv(p, data, i, rows0) && i < |data| && HasKey(p.items, KeyOf(data[i]))
    requires UniqueTableKeys(r.rows) && forall k :: KeyIn(p.rows, k) <==> KeyIn(r.rows, k)
    requires forall k :: HasKey(r.items, k) <==> k != KeyOf(data[i]) && HasKey(p.items, k)
    requires forall k :: k != KeyOf(data[i]) ==> Get(r.items, k) == Get(p.items, k)
    requires |r.ops| == i + 1 && r.ops[..i] == p.ops && r.ops[i].Updated?
    ensures KeyInv(r, data, i + 1, rows0)
  {
    UpdatedCandidates(p, r, data, i, rows0);
    UpdatedOps(p, r, data, i, rows0);
  }

  /** The update is logged as such, and earlier ops are kept. */
  lemma UpdatedOps(p: Pass, r: Pass, data: seq<SatTuple>, i: nat, rows0: seq<Row>)
    requires KeyInv(p, data, i, rows0) && i < |data| && HasKey(p.items, KeyOf(data[i]))
    requires |r.ops| == i + 1 && r.ops[..i] == p.ops && r.ops[i].Updated?
    ensures forall j :: 0 <= j < i + 1 ==> (r.ops[j].Updated? <==> KeyIn(rows0, KeyOf(data[j])))
  {
    forall j | 0 <= j < i + 1 ensures r.ops[j].Updated? <==> KeyIn(rows0, KeyOf(data[j])) {
      if j < i {
        assert r.ops[j] == p.ops[j];
      }
    }
  }

  /** The candidates and shown keys of `KeyInv` across that update. */
  lemma UpdatedCandidates(p: Pass, r: Pass, data: seq<SatTuple>, i: nat, rows0: seq<Row>)
    requires KeyInv(p, data, i, rows0) && i < |data| && HasKey(p.items, KeyOf(data[i]))
    requires forall k :: KeyIn(p.rows, k) <==> KeyIn(r.rows, k)
    requires forall k :: HasKey(r.items, k) <==> k != KeyOf(data[i]) && HasKey(p.items, k)
    requires forall k :: k != KeyOf(data[i]) ==> Get(r.items, k) == Get(p.items, k)
    ensures forall k :: HasKey(r.items, k) <==> KeyIn(rows0, k) && !DataHas(data, i + 1, k)
    ensures forall k :: HasKey(r.items, k) ==> Get(r.items, k) == Get(ItemsOf(rows0), k)
    ensures forall k :: KeyIn(r.rows, k) <==> KeyIn(rows0, k) || DataHas(data, i + 1, k)
  {
    forall k ensures DataHas(data, i + 1, k) <==> DataHas(data, i, k) || KeyOf(data[i]) == k {
      DataHasNext(data, i, k);
    }
  }

  lemma VisitInsertKeys(p: Pass, data: seq<SatTuple>, i: nat, rows0: seq<Row>)
    requires Inv(p, data, i) && KeyInv(p, data, i, rows0) && i < |data| && DistinctKeys(data)
    requires !HasKey(p.items, KeyOf(data[i]))
    ensures KeyInv(Visit(p, data[i], i), data, i + 1, rows0)
  {
    var key := KeyOf(data[i]);
    ProbeFindsOwn(data[i]);
    var r := Visit(p, data[i], i);
    assert r.rows == p.rows + [Row(p.next, data[i], TagOf(i))];
    assert !DataHas(data, i, key);
    assert !KeyIn(rows0, key);
    forall m | 0 <= m < |p.rows| ensures KeyOf(p.rows[m].values) != key {
      assert !KeyIn(p.rows, key);
    }
    forall k ensures KeyIn(r.rows, k) <==> KeyIn(p.rows, k) || key == k {
      KeyInLast(r.rows, k);
      assert r.rows[..|p.rows|] == p.rows;
    }
    forall k ensures DataHas(data, i + 1, k) <==> DataHas(data, i, k) || key == k {
      DataHasNext(data, i, k);
    }
  }

  lemma StartKeys(t: Tree, data: seq<SatTuple>)
    requires UniqueTableKeys(t.rows) && AllReadBack(data)
    ensures KeyInv(Pass(t.rows, ItemsOf(t.rows), t.next, []), data, 0, t.rows)
  {
    forall k ensures HasKey(ItemsOf(t.rows), k) <==> KeyIn(t.rows, k) {
      ItemsOfKeys(t.rows, k);
    }
  }

  lemma {:induction false} PassKeys(p: Pass, data: seq<SatTuple>, i: nat, rows0: seq<Row>)
    requires Inv(p, data, i) && KeyInv(p, data, i, rows0) && DistinctKeys(data)
    ensures KeyInv(PassFrom(p, data, i), data, |data|, rows0)
    decreases |data| - i
  {
    if i < |data| {
      ProbeFindsOwn(data[i]);
      if HasKey(p.items, KeyOf(data[i])) {
        VisitUpdateInv(p, data, i);
        VisitUpdateKeys(p, data, i, rows0);
      } else {
        VisitInsertInv(p, data, i);
        VisitInsertKeys(p, data, i, rows0);
      }
      PassInv(Visit(p, data[i], i), data, i + 1);
      PassKeys(Visit(p, data[i], i), data, i + 1, rows0);
    }
  }

  /** Deleting keeps the shown keys distinct. */
  lemma {:induction false} DeleteAllUniqueKeys(rows: seq<Row>, iids: seq<nat>)
    requires UniqueTableKeys(rows)
    ensures UniqueTableKeys(DeleteAll(rows, iids))
    decreases |rows|
  {
    if |rows| > 0 {
      DeleteAllUniqueKeys(rows[1..], iids);
      var rest := DeleteAll(rows[1..], iids);
      forall j | 0 <= j < |rest| ensures KeyOf(rest[j].values) != KeyOf(rows[0].values) {
        var m :| 0 <= m < |rows[1..]| && rows[1..][m] == rest[j];
        assert KeyOf(rows[0].values) != KeyOf(rows[m + 1].values);
      }
    }
  }

  /** Two rows showing the same key are the same row. */
  lemma SameKey(rows: seq<Row>, a: nat, b: nat)
    requires UniqueTableKeys(rows) && a < |rows| && b < |rows|
    ensures KeyOf(rows[a].values) == KeyOf(rows[b].values) <==> a == b
  {
  }

  /** A row whose key is still a candidate is the row the candidate names. */
  lemma CandidateRow(p: Pass, data: seq<SatTuple>, m: nat)
    requires Inv(p, data, |data|) && UniqueTableKeys(p.rows) && m < |p.rows|
    ensures HasKey(p.items, KeyOf(p.rows[m].values)) <==> p.rows[m].iid in Values(p.items)
  {
    var k := KeyOf(p.rows[m].values);
    var leftover := Values(p.items);
    if HasKey(p.items, k) {
      var m2 :| 0 <= m2 < |p.rows| && p.rows[m2].iid == Get(p.items, k).value && KeyOf(p.rows[m2].values) == k;
      SameKey(p.rows, m, m2);
      var x :| 0 <= x < |p.items| && p.items[x] == (k, Get(p.items, k).value);
      assert leftover[x] == p.rows[m].iid;
    }
    if p.rows[m].iid in leftover {
      var x :| 0 <= x < |leftover| && leftover[x] == p.rows[m].iid;
      GetAt(p.items, x);
      var k2 := p.items[x].0;
      assert HasKey(p.items, k2);
      var m2 :| 0 <= m2 < |p.rows| && p.rows[m2].iid == Get(p.items, k2).value && KeyOf(p.rows[m2].values) == k2;
      SameIid(p.rows, m, m2);
    }
  }

  /** After the deletions exactly the buffered keys are shown, once each. */
  lemma FinalKeys(p: Pass, data: seq<SatTuple>, rows0: seq<Row>)
    requires Inv(p, data, |data|) && KeyInv(p, data, |data|, rows0)
    ensures UniqueTableKeys(DeleteAll(p.rows, Values(p.items)))
    ensures forall k :: KeyIn(DeleteAll(p.rows, Values(p.items)), k) <==> DataHas(data, |data|, k)
  {
    DeleteAllUniqueKeys(p.rows, Values(p.items));
    FinalKeysBuffered(p, data, rows0);
    FinalKeysShown(p, data, rows0);
  }

  /** Every key left shown is buffered. */
  lemma FinalKeysBuffered(p: Pass, data: seq<SatTuple>, rows0: seq<Row>)
    requires Inv(p, data, |data|) && KeyInv(p, data, |data|, rows0)
    ensures forall k :: KeyIn(DeleteAll(p.rows, Values(p.items)), k) ==> DataHas(data, |data|, k)
  {
    var rows := DeleteAll(p.rows, Values(p.items));
    forall k | KeyIn(rows, k) ensures DataHas(data, |data|, k) {
      var a :| 0 <= a < |rows| && KeyOf(rows[a].values) == k;
      var m :| 0 <= m < |p.rows| && p.rows[m] == rows[a];
      CandidateRow(p, data, m);
    }
  }

  /** Every buffered key is left shown. */
  lemma FinalKeysShown(p: Pass, data: seq<SatTuple>, rows0: seq<Row>)
    requires Inv(p, data, |data|) && KeyInv(p, data, |data|, rows0)
    ensures forall k :: DataHas(data, |data|, k) ==> KeyIn(DeleteAll(p.rows, Values(p.items)), k)
  {
    var rows := DeleteAll(p.rows, Values(p.items));
    forall k | DataHas(data, |data|, k) ensures KeyIn(rows, k) {
      var m :| 0 <= m < |p.rows| && KeyOf(p.rows[m].values) == k;
      CandidateRow(p, data, m);
      var a :| 0 <= a < |rows| && rows[a] == p.rows[m];
    }
  }

  /** Each leftover candidate is an original row whose key is not buffered. */
  lemma LeftoverRows(p: Pass, data: seq<SatTuple>, rows0: seq<Row>)
    requires KeyInv(p, data, |data|, rows0) && UniqueKeys(p.items)
    ensures forall x :: 0 <= x < |p.items| ==>
      exists m :: 0 <= m < |rows0| && rows0[m].iid == Values(p.items)[x] && !DataHas(data, |data|, KeyOf(rows0[m].values))
    ensures (forall k :: KeyIn(rows0, k) ==> DataHas(data, |data|, k)) ==> |p.items| == 0
  {
    ItemsOfPoints(rows0);
    forall x | 0 <= x < |p.items|
      ensures exists m :: 0 <= m < |rows0| && rows0[m].iid == Values(p.items)[x] && !DataHas(data, |data|, KeyOf(rows0[m].values))
    {
      GetAt(p.items, x);
      var k := p.items[x].0;
      assert HasKey(p.items, k);
      assert Get(ItemsOf(rows0), k) == Some(p.items[x].1);
      var m :| 0 <= m < |rows0| && rows0[m].iid == Get(ItemsOf(rows0), k).value && KeyOf(rows0[m].values) == k;
    }
    if |p.items| > 0 {
      assert HasKey(p.items, p.items[0].0);
    }
  }

  /** The pass over the buffer ends with both invariants. */
  lemma PassDone(t: Tree, data: seq<SatTuple>)
    requires ValidTree(t) && UniqueTableKeys(t.rows) && DistinctKeys(data) && AllReadBack(data)
    ensures var p := PassFrom(Pass(t.rows, ItemsOf(t.rows), t.next, []), data, 0);
      Inv(p, data, |data|) && KeyInv(p, data, |data|, t.rows)
  {
    var p0 := Pass(t.rows, ItemsOf(t.rows), t.next, []);
    StartInv(t, data);
    StartKeys(t, data);
    PassInv(p0, data, 0);
    PassKeys(p0, data, 0, t.rows);
  }

  lemma PassRows(t: Tree, data: seq<SatTuple>)
    requires ValidTree(t) && UniqueTableKeys(t.rows) && DistinctKeys(data) && AllReadBack(data)
    ensures var p := PassFrom(Pass(t.rows, ItemsOf(t.rows), t.next, []), data, 0);
      && UniqueTableKeys(DeleteAll(p.rows, Values(p.items)))
      && (forall k :: KeyIn(DeleteAll(p.rows, Values(p.items)), k) <==> DataHas(data, |data|, k))
  {
    PassDone(t, data);
    FinalKeys(PassFrom(Pass(t.rows, ItemsOf(t.rows), t.next, []), data, 0), data, t.rows);
  }

  lemma PassOps(t: Tree, data: seq<SatTuple>)
    requires ValidTree(t) && UniqueTableKeys(t.rows) && DistinctKeys(data) && AllReadBack(data)
    ensures var p := PassFrom(Pass(t.rows, ItemsOf(t.rows), t.next, []), data, 0);
      forall j :: 0 <= j < |data| ==> (p.ops[j].Updated? <==> KeyIn(t.rows, KeyOf(data[j])))
  {
    PassDone(t, data);
  }

  lemma PassLeftover(t: Tree, data: seq<SatTuple>)
    requires ValidTree(t) && UniqueTableKeys(t.rows) && DistinctKeys(data) && AllReadBack(data)
    ensures var p := PassFrom(Pass(t.rows, ItemsOf(t.rows), t.next, []), data, 0);
      && (forall x :: 0 <= x < |p.items| ==>
            exists m :: 0 <= m < |t.rows| && t.rows[m].iid == Values(p.items)[x] && !DataHas(data, |data|, KeyOf(t.rows[m].values)))
      && ((forall k :: KeyIn(t.rows, k) ==> DataHas(data, |data|, k)) ==> |p.items| == 0)
  {
    PassDoneKeys(t, data);
    LeftoverRows(PassFrom(Pass(t.rows, ItemsOf(t.rows), t.next, []), data, 0), data, t.rows);
  }

  lemma PassDoneKeys(t: Tree, data: seq<SatTuple>)
    requires ValidTree(t) && UniqueTableKeys(t.rows) && DistinctKeys(data) && AllReadBack(data)
    ensures var p := PassFrom(Pass(t.rows, ItemsOf(t.rows), t.next, []), data, 0);
      KeyInv(p, data, |data|, t.rows) && UniqueKeys(p.items)
  {
    PassDone(t, data);
  }

  /** With distinct keys on both sides, a pass updates exactly the buffered
      rows whose key is shown, inserts the others, deletes exactly the
      shown rows whose key is not buffered, and leaves each buffered key
      shown once; when every shown key is buffered nothing is deleted. */
  lemma UpdateTableKeys(t: Tree, data: seq<SatTuple>)
    requires ValidTree(t) && UniqueTableKeys(t.rows) && DistinctKeys(data) && AllReadBack(data)
    ensures var (t', ops) := UpdateTable(t, data);
      && UniqueTableKeys(t'.rows)
      && (forall k :: KeyIn(t'.rows, k) <==> DataHas(data, |data|, k))
      && (forall j :: 0 <= j < |data| ==> (ops[j].Updated? <==> KeyIn(t.rows, KeyOf(data[j]))))
      && (forall j :: |data| <= j < |ops| ==>
            exists m :: 0 <= m < |t.rows| && t.rows[m].iid == ops[j].iid && !DataHas(data, |data|, KeyOf(t.rows[m].values)))
      && ((forall k :: KeyIn(t.rows, k) ==> DataHas(data, |data|, k)) ==> |ops| == |data|)
  {
    PassRows(t, data);
    PassOps(t, data);
    PassLeftover(t, data);
    var p := PassFrom(Pass(t.rows, ItemsOf(t.rows), t.next, []), data, 0);
    var ops := UpdateTable(t, data).1;
    var dels := Deletions(Values(p.items));
    assert ops == p.ops + dels;
    SplitOps(ops, p.ops, dels);
  }

  lemma SplitOps(ops: seq<Op>, a: seq<Op>, b: seq<Op>)
    requires ops == a + b
    ensures forall j :: 0 <= j < |a| ==> ops[j] == a[j]
    ensures forall j :: |a| <= j < |ops| ==> ops[j] == b[j - |a|]
  {
  }

  /** Each buffered row from index `i` on is shown with its values and stripe. */
  ghost predicate Displayed(rows: seq<Row>, data: seq<SatTuple>, i: nat)
  {
    forall j :: i <= j < |data| ==>
      exists m :: 0 <= m < |rows| && rows[m].values == data[j] && rows[m].tag == TagOf(j)
  }

  /** Updating a row to what it already shows changes nothing. */
  lemma SettledVisit(p: Pass, data: seq<SatTuple>, i: nat)
    requires UniqueKeys(p.items) && UniqueIids(p.rows) && Points(p.items, p.rows) && UniqueTableKeys(p.rows)
    requires i < |data| && HasKey(p.items, Probe(data[i])) && Displayed(p.rows, data, i)
    ensures Visit(p, data[i], i).rows == p.rows && Visit(p, data[i], i).next == p.next
  {
    var key := Probe(data[i]);
    var iid := Get(p.items, key).value;
    var m0 :| 0 <= m0 < |p.rows| && p.rows[m0].iid == iid && KeyOf(p.rows[m0].values) == key;
    ProbeHit(p.rows[m0].values, data[i]);
    ProbeFindsOwn(data[i]);
    var m1 :| 0 <= m1 < |p.rows| && p.rows[m1].values == data[i] && p.rows[m1].tag == TagOf(i);
    SameKey(p.rows, m0, m1);
    var r := UpdateRow(p.rows, iid, data[i], TagOf(i));
    forall m | 0 <= m < |p.rows| ensures r[m] == p.rows[m] {
      SameIid(p.rows, m, m0);
    }
    assert r == p.rows;
  }

  /** One settled iteration keeps both invariants and the rows. */
  lemma SettledStep(p: Pass, data: seq<SatTuple>, i: nat, rows0: seq<Row>)
    requires Inv(p, data, i) && KeyInv(p, data, i, rows0) && DistinctKeys(data)
    requires p.rows == rows0 && Displayed(rows0, data, i) && i < |data|
    ensures var q := Visit(p, data[i], i);
      && Inv(q, data, i + 1) && KeyInv(q, data, i + 1, rows0)
      && q.rows == rows0 && q.next == p.next && Displayed(rows0, data, i + 1)
  {
    SettledCandidate(p, data, i, rows0);
    SettledVisit(p, data, i);
    VisitUpdateInv(p, data, i);
    VisitUpdateKeys(p, data, i, rows0);
  }

  /** In a settled pass the next buffered row's key is still a candidate,
      and its lookup is that key. */
  lemma SettledCandidate(p: Pass, data: seq<SatTuple>, i: nat, rows0: seq<Row>)
    requires KeyInv(p, data, i, rows0) && DistinctKeys(data)
    requires Displayed(rows0, data, i) && i < |data|
    ensures Probe(data[i]) == KeyOf(data[i]) && HasKey(p.items, KeyOf(data[i]))
  {
    var key := KeyOf(data[i]);
    assert ReadsBack(data[i]);
    ProbeFindsOwn(data[i]);
    var m1 :| 0 <= m1 < |rows0| && rows0[m1].values == data[i] && rows0[m1].tag == TagOf(i);
    assert KeyIn(rows0, key);
    assert !DataHas(data, i, key);
  }

  lemma {:induction false} SettledPass(p: Pass, data: seq<SatTuple>, i: nat, rows0: seq<Row>)
    requires Inv(p, data, i) && KeyInv(p, data, i, rows0) && DistinctKeys(data)
    requires p.rows == rows0 && Displayed(rows0, data, i)
    ensures PassFrom(p, data, i).rows == rows0 && PassFrom(p, data, i).next == p.next
    decreases |data| - i
  {
    if i < |data| {
      SettledStep(p, data, i, rows0);
      SettledPass(Visit(p, data[i], i), data, i + 1, rows0);
    }
  }

  /** A pass over a table that already shows every buffered row, with its
      stripe, under distinct keys leaves the table as it is. */
  lemma SettledTable(t: Tree, data: seq<SatTuple>)
    requires ValidTree(t) && UniqueTableKeys(t.rows) && DistinctKeys(data) && AllReadBack(data) && Displayed(t.rows, data, 0)
    requires forall k :: KeyIn(t.rows, k) ==> DataHas(data, |data|, k)
    ensures UpdateTable(t, data).0 == t
  {
    var p0 := Pass(t.rows, ItemsOf(t.rows), t.next, []);
    StartInv(t, data);
    StartKeys(t, data);
    SettledPass(p0, data, 0, t.rows);
    PassLeftover(t, data);
  }

  /** Reconciliation is idempotent: when stored values read back unchanged,
      a second pass with the same buffer updates every row in place to what
      it already shows, inserts nothing and deletes nothing. */
  lemma UpdateTableIdempotent(t: Tree, data: seq<SatTuple>)
    requires ValidTree(t) && UniqueTableKeys(t.rows) && DistinctKeys(data) && AllReadBack(data)
    ensures var t1 := UpdateTable(t, data).0;
      var (t2, ops2) := UpdateTable(t1, data);
      && t2 == t1
      && |ops2| == |data|
      && forall j :: 0 <= j < |data| ==> ops2[j].Updated?
  {
    var t1 := UpdateTable(t, data).0;
    UpdateTableStores(t, data);
    UpdateTableKeys(t, data);
    UpdateTableDisplays(t, data);
    UpdateTableKeys(t1, data);
    forall j | 0 <= j < |data| ensures KeyIn(t1.rows, KeyOf(data[j])) {
      assert DataHas(data, |data|, KeyOf(data[j]));
    }
    SettledTable(t1, data);
  }

  /** After a pass every buffered row is shown with its stripe. */
  lemma UpdateTableDisplays(t: Tree, data: seq<SatTuple>)
    requires ValidTree(t)
    ensures Displayed(UpdateTable(t, data).0.rows, data, 0)
  {
    var (t1, ops1) := UpdateTable(t, data);
    UpdateTableStores(t, data);
    forall j | 0 <= j < |data|
      ensures exists m :: 0 <= m < |t1.rows| && t1.rows[m].values == data[j] && t1.rows[m].tag == TagOf(j)
    {
      var m :| 0 <= m < |t1.rows| && t1.rows[m] == Row(ops1[j].iid, data[j], TagOf(j));
    }
  }

  /** The rows a pass appends for `data[i..]` when every lookup misses:
      fresh item ids from `next` on, striped by buffer position. */
  function Appended(next: nat, data: seq<SatTuple>, i: nat): (r: seq<Row>)
    requires i <= |data|
    ensures |r| == |data| - i
    ensures forall j :: 0 <= j < |r| ==> r[j] == Row(next + j, data[i + j], TagOf(i + j))
  {
    seq(|data| - i, j requires 0 <= j < |data| - i => Row(next + j, data[i + j], TagOf(i + j)))
  }

  lemma AppendedCons(next: nat, data: seq<SatTuple>, i: nat)
    requires i < |data|
    ensures Appended(next, data, i) == [Row(next, data[i], TagOf(i))] + Appended(next + 1, data, i + 1)
  {
  }

  /** The ops logged for those rows. */
  function Insertions(next: nat, data: seq<SatTuple>, i: nat): (ops: seq<Op>)
    requires i <= |data|
    ensures |ops| == |data| - i
    ensures forall j :: 0 <= j < |ops| ==> ops[j] == Inserted(next + j, i + j)
  {
    seq(|data| - i, j requires 0 <= j < |data| - i => Inserted(next + j, i + j))
  }

  lemma InsertionsCons(next: nat, data: seq<SatTuple>, i: nat)
    requires i < |data|
    ensures Insertions(next, data, i) == [Inserted(next, i)] + Insertions(next + 1, data, i + 1)
  {
  }

  /** Every candidate key holds a CH that reads back as an `int`. */
  ghost predicate IntKeys(items: Dict<TableKey, nat>)
  {
    forall x :: 0 <= x < |items| ==> items[x].0.ch.Int?
  }

  /** A string lookup misses such candidates, so the row is appended. */
  lemma VisitMisses(p: Pass, d: SatTuple, i: nat)
    requires UniqueKeys(p.items) && IntKeys(p.items)
    ensures Visit(p, d, i) == Pass(p.rows + [Row(p.next, d, TagOf(i))], p.items, p.next + 1, p.ops + [Inserted(p.next, i)])
  {
    assert !HasKey(p.items, Probe(d));
  }

  lemma Regroup<T>(a: seq<T>, x: T, b: seq<T>)
    ensures (a + [x]) + b == a + ([x] + b)
  {
  }

  /** When no candidate can match a string lookup, the pass appends every
      buffered row and crosses nothing off. */
  lemma PassInserts(p: Pass, data: seq<SatTuple>, i: nat)
    requires i <= |data| && UniqueKeys(p.items) && IntKeys(p.items)
    ensures var r := PassFrom(p, data, i);
      && r.items == p.items && r.next == p.next + |data| - i
      && r.rows == p.rows + Appended(p.next, data, i)
      && r.ops == p.ops + Insertions(p.next, data, i)
  {
    PassAppends(p, data, i);
    PassLogsInserts(p, data, i);
  }

  lemma {:induction false} PassAppends(p: Pass, data: seq<SatTuple>, i: nat)
    requires i <= |data| && UniqueKeys(p.items) && IntKeys(p.items)
    ensures var r := PassFrom(p, data, i);
      && r.items == p.items && r.next == p.next + |data| - i
      && r.rows == p.rows + Appended(p.next, data, i)
    decreases |data| - i
  {
    if i < |data| {
      var row := Row(p.next, data[i], TagOf(i));
      VisitMisses(p, data[i], i);
      var q := Visit(p, data[i], i);
      assert q.next == p.next + 1 && q.rows == p.rows + [row];
      PassStep(p, data, i);
      PassAppends(q, data, i + 1);
      var rest := Appended(p.next + 1, data, i + 1);
      assert PassFrom(q, data, i + 1).rows == (p.rows + [row]) + rest;
      AppendedCons(p.next, data, i);
      Regroup(p.rows, row, rest);
    } else {
      assert Appended(p.next, data, i) == [];
    }
  }

  lemma {:induction false} PassLogsInserts(p: Pass, data: seq<SatTuple>, i: nat)
    requires i <= |data| && UniqueKeys(p.items) && IntKeys(p.items)
    ensures PassFrom(p, data, i).ops == p.ops + Insertions(p.next, data, i)
    decreases |data| - i
  {
    if i < |data| {
      var op := Inserted(p.next, i);
      VisitMisses(p, data[i], i);
      var q := Visit(p, data[i], i);
      assert q.next == p.next + 1 && q.ops == p.ops + [op];
      PassStep(p, data, i);
      PassLogsInserts(q, data, i + 1);
      var rest := Insertions(p.next + 1, data, i + 1);
      assert PassFrom(q, data, i + 1).ops == (p.ops + [op]) + rest;
      InsertionsCons(p.next, data, i);
      Regroup(p.ops, op, rest);
    } else {
      assert Insertions(p.next, data, i) == [];
    }
  }

  /** The loop from `i` is one visit and then the loop from `i + 1`. */
  lemma PassStep(p: Pass, data: seq<SatTuple>, i: nat)
    requires i < |data| && UniqueKeys(p.items)
    ensures PassFrom(p, data, i) == PassFrom(Visit(p, data[i], i), data, i + 1)
  {
  }

  /** Deleting from two stretches of rows deletes from each. */
  lemma {:induction false} DeleteAllConcat(a: seq<Row>, b: seq<Row>, iids: seq<nat>)
    ensures DeleteAll(a + b, iids) == DeleteAll(a, iids) + DeleteAll(b, iids)
    decreases |a|
  {
    if |a| == 0 {
      assert a + b == b;
    } else {
      assert (a + b)[1..] == a[1..] + b;
      DeleteAllConcat(a[1..], b, iids);
    }
  }

  /** Deleting ids no row has leaves the rows as they are. */
  lemma {:induction false} DeleteAllMissing(rows: seq<Row>, iids: seq<nat>)
    requires forall j :: 0 <= j < |rows| ==> rows[j].iid !in iids
    ensures DeleteAll(rows, iids) == rows
    decreases |rows|
  {
    if |rows| > 0 {
      DeleteAllMissing(rows[1..], iids);
      assert rows == [rows[0]] + rows[1..];
    }
  }

  /** The candidates of a table name its rows' ids and keys. */
  lemma ItemsOfRows(rows: seq<Row>)
    ensures forall x :: 0 <= x < |ItemsOf(rows)| ==>
      exists m :: 0 <= m < |rows| && rows[m].iid == ItemsOf(rows)[x].1 && KeyOf(rows[m].values) == ItemsOf(rows)[x].0
  {
    var d := ItemsOf(rows);
    ItemsOfPoints(rows);
    forall x | 0 <= x < |d|
      ensures exists m :: 0 <= m < |rows| && rows[m].iid == d[x].1 && KeyOf(rows[m].values) == d[x].0
    {
      GetAt(d, x);
      assert HasKey(d, d[x].0);
    }
  }

  /** The item ids in display order. */
  function Iids(rows: seq<Row>): (ids: seq<nat>)
    ensures |ids| == |rows| && forall m :: 0 <= m < |rows| ==> ids[m] == rows[m].iid
  {
    seq(|rows|, m requires 0 <= m < |rows| => rows[m].iid)
  }

  /** With distinct keys every row is its key's candidate, in display
      order. */
  lemma {:induction false} DistinctItems(rows: seq<Row>)
    requires UniqueTableKeys(rows)
    ensures Values(ItemsOf(rows)) == Iids(rows)
    decreases |rows|
  {
    if |rows| > 0 {
      var n := |rows| - 1;
      var pre := rows[..n];
      DistinctItems(pre);
      ItemsAppend(rows);
      IidsSnoc(rows);
    }
  }

  lemma IidsSnoc(rows: seq<Row>)
    requires |rows| > 0
    ensures Iids(rows) == Iids(rows[..|rows| - 1]) + [rows[|rows| - 1].iid]
  {
    var n := |rows| - 1;
    var a := Iids(rows);
    var b := Iids(rows[..n]) + [rows[n].iid];
    assert |a| == |b|;
    forall m | 0 <= m < |a| ensures a[m] == b[m] {
      if m < n {
        assert rows[..n][m] == rows[m];
      }
    }
  }

  /** A last row whose key no earlier row has becomes the last candidate. */
  lemma ItemsAppend(rows: seq<Row>)
    requires UniqueTableKeys(rows) && |rows| > 0
    ensures var n := |rows| - 1;
      Values(ItemsOf(rows)) == Values(ItemsOf(rows[..n])) + [rows[n].iid]
  {
    var n := |rows| - 1;
    var pre := rows[..n];
    var k := KeyOf(rows[n].values);
    forall m | 0 <= m < |pre| ensures KeyOf(pre[m].values) != k {
      assert pre[m] == rows[m];
    }
    ItemsOfKeys(pre, k);
    var d := ItemsOf(pre);
    assert !HasKey(d, k);
    assert ItemsOf(rows) == Put(d, k, rows[n].iid);
    ValuesAppend(d, (k, rows[n].iid));
  }

  lemma ValuesAppend<K, V>(d: Dict<K, V>, e: (K, V))
    ensures Values(d + [e]) == Values(d) + [e.1]
  {
  }

  /** Deleting every row's id deletes every row. */
  lemma {:induction false} DeleteAllListed(rows: seq<Row>, iids: seq<nat>)
    requires forall m :: 0 <= m < |rows| ==> rows[m].iid in iids
    ensures DeleteAll(rows, iids) == []
    decreases |rows|
  {
    if |rows| > 0 {
      DeleteAllListed(rows[1..], iids);
    }
  }

  /** CH values are channel numbers, which Tk hands back as `int`s, while
      a lookup uses the buffered strings: no lookup finds a shown row.
      Every buffered row is then inserted afresh, in buffer order, under
      new item ids, and the shown rows whose ids `current_items` holds are
      all deleted after them. */
  lemma Reinserts(t: Tree, data: seq<SatTuple>)
    requires ValidTree(t)
    requires forall m :: 0 <= m < |t.rows| ==> NumericChannel(t.rows[m].values)
    ensures var (t', ops) := UpdateTable(t, data);
      && t' == Tree(DeleteAll(t.rows, Values(ItemsOf(t.rows))) + Appended(t.next, data, 0), t.next + |data|)
      && ops == Insertions(t.next, data, 0) + Deletions(Values(ItemsOf(t.rows)))
  {
    var items := ItemsOf(t.rows);
    var p0 := Pass(t.rows, items, t.next, []);
    NumericKeys(t.rows);
    PassInserts(p0, data, 0);
    var p := PassFrom(p0, data, 0);
    var leftover := Values(items);
    var added := Appended(t.next, data, 0);
    AppendedMissing(t, data);
    DeleteAllMissing(added, leftover);
    DeleteAllConcat(t.rows, added, leftover);
    assert UpdateTable(t, data) == (Tree(DeleteAll(p.rows, leftover), p.next), p.ops + Deletions(leftover));
  }

  /** Rows with numeric channels are filed under `int` CH keys. */
  lemma NumericKeys(rows: seq<Row>)
    requires forall m :: 0 <= m < |rows| ==> NumericChannel(rows[m].values)
    ensures IntKeys(ItemsOf(rows))
  {
    ItemsOfRows(rows);
  }

  /** No appended row's id is a candidate. */
  lemma AppendedMissing(t: Tree, data: seq<SatTuple>)
    requires ValidTree(t)
    ensures forall j :: 0 <= j < |data| ==> Appended(t.next, data, 0)[j].iid !in Values(ItemsOf(t.rows))
  {
    var a := Appended(t.next, data, 0);
    var d := ItemsOf(t.rows);
    CandidatesBelow(t.rows, t.next);
    forall j | 0 <= j < |data| ensures a[j].iid !in Values(d) {
      assert a[j].iid == t.next + j;
    }
  }

  /** Every candidate's id is below the next fresh one. */
  lemma CandidatesBelow(rows: seq<Row>, next: nat)
    requires forall m :: 0 <= m < |rows| ==> rows[m].iid < next
    ensures forall x :: 0 <= x < |ItemsOf(rows)| ==> ItemsOf(rows)[x].1 < next
  {
    ItemsOfRows(rows);
  }

  /** A settled table of channel rows is replaced wholesale: each refresh
      deletes every shown row, in display order, and shows exactly the
      buffered rows, in buffer order, under fresh item ids. */
  lemma RefreshReplaces(t: Tree, data: seq<SatTuple>)
    requires ValidTree(t) && UniqueTableKeys(t.rows)
    requires forall m :: 0 <= m < |t.rows| ==> NumericChannel(t.rows[m].values)
    ensures var (t', ops) := UpdateTable(t, data);
      && t' == Tree(Appended(t.next, data, 0), t.next + |data|)
      && ops == Insertions(t.next, data, 0) + Deletions(Iids(t.rows))
  {
    Reinserts(t, data);
    DistinctItems(t.rows);
    DeleteAllListed(t.rows, Iids(t.rows));
  }

  /** The re-inserted rows form a well-formed table that shows each
      buffered key, and distinct buffered keys stay distinct. */
  lemma AppendedShows(next: nat, data: seq<SatTuple>)
    ensures var rows := Appended(next, data, 0);
      && ValidTree(Tree(rows, next + |data|))
      && (DistinctKeys(data) ==> UniqueTableKeys(rows))
      && (forall k :: KeyIn(rows, k) <==> DataHas(data, |data|, k))
  {
    var rows := Appended(next, data, 0);
    forall k ensures KeyIn(rows, k) <==> DataHas(data, |data|, k) {
      if DataHas(data, |data|, k) {
        var j :| 0 <= j < |data| && KeyOf(data[j]) == k;
        assert KeyOf(rows[j].values) == k;
      }
    }
  }

  /** Without distinct keys the table is not stable: two buffered rows with
      one (CH, SAT, SIG), which the buffer keeps apart when their PRNs
      differ, are both inserted, and the next pass shows one row more,
      whether or not the key values read back unchanged. */
  lemma DuplicateKeysGrow(a: SatTuple, b: SatTuple)
    requires KeyOf(a) == KeyOf(b)
    ensures var t1 := UpdateTable(Tree([], 0), [a, b]).0;
      && |t1.rows| == 2
      && |UpdateTable(t1, [a, b]).0.rows| == 3
  {
    FirstPassOfTwo(a, b);
    SecondPassOfTwo(a, b);
  }

  /** The loop over a two-row buffer is two visits. */
  lemma PassOfTwo(p: Pass, data: seq<SatTuple>)
    requires |data| == 2 && UniqueKeys(p.items)
    ensures PassFrom(p, data, 0) == Visit(Visit(p, data[0], 0), data[1], 1)
  {
    var p1 := Visit(p, data[0], 0);
    var p2 := Visit(p1, data[1], 1);
    assert PassFrom(p2, data, 2) == p2;
    assert PassFrom(p1, data, 1) == p2;
  }

  /** Into an empty table both rows are inserted. */
  lemma FirstPassOfTwo(a: SatTuple, b: SatTuple)
    ensures UpdateTable(Tree([], 0), [a, b]).0 == Tree([Row(0, a, EvenRow), Row(1, b, OddRow)], 2)
  {
    var p0 := Pass([], ItemsOf([]), 0, []);
    PassOfTwo(p0, [a, b]);
    var p1 := Visit(p0, a, 0);
    assert p1.rows == [Row(0, a, EvenRow)];
    var p2 := Visit(p1, b, 1);
    assert p2.rows == [Row(0, a, EvenRow), Row(1, b, OddRow)] && p2.items == [];
  }

  /** The second pass finds one candidate for the shared key (the later
      row's id). When the key reads back unchanged, the first buffered row
      rewrites that row and the second is inserted. Otherwise neither
      lookup finds it: both rows are inserted and the candidate deleted.
      Either way one row more is shown. */
  lemma SecondPassOfTwo(a: SatTuple, b: SatTuple)
    requires KeyOf(a) == KeyOf(b)
    ensures |UpdateTable(Tree([Row(0, a, EvenRow), Row(1, b, OddRow)], 2), [a, b]).0.rows| == 3
  {
    var k := KeyOf(a);
    var rows := [Row(0, a, EvenRow), Row(1, b, OddRow)];
    assert ItemsOf(rows) == [(k, 1)] by {
      assert rows[..1] == [Row(0, a, EvenRow)];
      assert ItemsOf(rows[..1]) == [(k, 0)];
    }
    var q0 := Pass(rows, [(k, 1)], 2, []);
    PassOfTwo(q0, [a, b]);
    if ReadsBack(a) {
      SecondPassFinds(a, b);
    } else {
      SecondPassMisses(a, b);
    }
  }

  lemma SecondPassFinds(a: SatTuple, b: SatTuple)
    requires KeyOf(a) == KeyOf(b) && ReadsBack(a)
    ensures var q0 := Pass([Row(0, a, EvenRow), Row(1, b, OddRow)], [(KeyOf(a), 1)], 2, []);
      var q2 := Visit(Visit(q0, a, 0), b, 1);
      |q2.rows| == 3 && q2.items == []
  {
    ProbeFindsOwn(a);
    var q0 := Pass([Row(0, a, EvenRow), Row(1, b, OddRow)], [(KeyOf(a), 1)], 2, []);
    var q1 := Visit(q0, a, 0);
    assert q1.items == [] && |q1.rows| == 2 && q1.next == 2;
  }

  lemma SecondPassMisses(a: SatTuple, b: SatTuple)
    requires KeyOf(a) == KeyOf(b) && !ReadsBack(a)
    ensures var q0 := Pass([Row(0, a, EvenRow), Row(1, b, OddRow)], [(KeyOf(a), 1)], 2, []);
      var q2 := Visit(Visit(q0, a, 0), b, 1);
      |DeleteAll(q2.rows, Values(q2.items))| == 3
  {
    ProbeFindsOwn(a);
    ProbeFindsOwn(b);
    var k := KeyOf(a);
    var items := [(k, 1)];
    assert Probe(a) != k && Probe(b) != k;
    var q0 := Pass([Row(0, a, EvenRow), Row(1, b, OddRow)], items, 2, []);
    var q1 := Visit(q0, a, 0);
    assert q1.items == items && q1.rows == q0.rows + [Row(2, a, EvenRow)] && q1.next == 3;
    var q2 := Visit(q1, b, 1);
    assert q2.items == items && q2.rows == q1.rows + [Row(3, b, OddRow)];
    assert Values(q2.items) == [1];
    assert q2.rows == [Row(0, a, EvenRow), Row(1, b, OddRow), Row(2, a, EvenRow), Row(3, b, OddRow)];
    DeleteOne(a, b);
  }

  /** Deleting item 1 from four rows with ids 0 to 3 leaves three. */
  lemma DeleteOne(a: SatTuple, b: SatTuple)
    ensures |DeleteAll([Row(0, a, EvenRow), Row(1, b, OddRow), Row(2, a, EvenRow), Row(3, b, OddRow)], [1])| == 3
  {
    var rows := [Row(0, a, EvenRow), Row(1, b, OddRow), Row(2, a, EvenRow), Row(3, b, OddRow)];
    assert DeleteAll(rows[4..], [1]) == [];
    assert DeleteAll(rows[3..], [1]) == [rows[3]] + DeleteAll(rows[4..], [1]);
    assert DeleteAll(rows[2..], [1]) == [rows[2]] + DeleteAll(rows[3..], [1]);
    assert DeleteAll(rows[1..], [1]) == DeleteAll(rows[2..], [1]);
    assert DeleteAll(rows, [1]) == [rows[0]] + DeleteAll(rows[1..], [1]);
  }
}

=== FILE: text.dfy ===
/** Python string primitives the scripts rely on: `str.isspace`, `strip`,
    `lstrip`/`rstrip` with a character set, `split()`, `split(sep)`,
    `sep.join`, `splitlines`, `in` and `startswith`. */
module Text {

  /** The characters for which Python's `str.isspace` holds; also what
      `strip()`, `split()` and `\s` in a `re` pattern treat as whitespace. */
  const Whitespace: set<char> := {
    ' ', '\t', '\n', '\U{0B}', '\U{0C}', '\r', '\U{1C}', '\U{1D}', '\U{1E}', '\U{1F}',
    '\U{85}', '\U{A0}', '\U{1680}', '\U{2000}', '\U{2001}', '\U{2002}', '\U{2003}',
    '\U{2004}', '\U{2005}', '\U{2006}', '\U{2007}', '\U{2008}', '\U{2009}', '\U{200A}',
    '\U{2028}', '\U{2029}', '\U{202F}', '\U{205F}', '\U{3000}'
  }

  predicate IsSpace(c: char)
  {
    c in Whitespace
  }

  predicate NoSpace(s: string)
  {
    forall i :: 0 <= i < |s| ==> !IsSpace(s[i])
  }

  predicate AllSpace(s: string)
  {
    forall i :: 0 <= i < |s| ==> IsSpace(s[i])
  }

  /** `s.lstrip(chars)`: drops the longest prefix made of characters in `drop`. */
  function LStrip(s: string, drop: set<char>): (r: string)
    ensures |r| <= |s| && r == s[|s| - |r|..]
    ensures forall i :: 0 <= i < |s| - |r| ==> s[i] in drop
    ensures |r| > 0 ==> r[0] !in drop
    decreases |s|
  {
    if |s| > 0 && s[0] in drop then LStrip(s[1..], drop) else s
  }

  /** `s.rstrip(chars)`: drops the longest suffix made of characters in `drop`. */
  function RStrip(s: string, drop: set<char>): (r: string)
    ensures |r| <= |s| && r == s[..|r|]
    ensures forall i :: |r| <= i < |s| ==> s[i] in drop
    ensures |r| > 0 ==> r[|r| - 1] !in drop
    decreases |s|
  {
    if |s| > 0 && s[|s| - 1] in drop then RStrip(s[..|s| - 1], drop) else s
  }

  /** `s.strip()` with no argument. */
  function Strip(s: string): string
  {
    RStrip(LStrip(s, Whitespace), Whitespace)
  }

  lemma StripNoSpace(s: string)
    requires NoSpace(s)
    ensures Strip(s) == s
  {
  }

  /** The longest prefix of `s` free of whitespace. */
  function Word(s: string): (w: string)
    ensures |w| <= |s| && w == s[..|w|]
    ensures NoSpace(w)
    ensures |w| < |s| ==> IsSpace(s[|w|])
    decreases |s|
  {
    if |s| == 0 || IsSpace(s[0]) then [] else [s[0]] + Word(s[1..])
  }

  /** What `split()` can return as one token. */
  predicate IsToken(w: string)
  {
    |w| > 0 && NoSpace(w)
  }

  /** Python's `s.split()` with no separator: maximal runs of non-whitespace. */
  function Tokens(s: string): (ts: seq<string>)
    ensures forall i :: 0 <= i < |ts| ==> IsToken(ts[i])
    decreases |s|
  {
    if |s| == 0 then []
    else if IsSpace(s[0]) then Tokens(s[1..])
    else
      var w := Word(s);
      [w] + Tokens(s[|w|..])
  }

  /** Writes `ts` out with `gaps[i]` before token `i` and `gaps[|ts|]`
      after the last one: any whitespace layout of the same tokens. */
  function Layout(ts: seq<string>, gaps: seq<string>): string
    requires |gaps| == |ts| + 1
  {
    if |ts| == 0 then gaps[0] else gaps[0] + ts[0] + Layout(ts[1..], gaps[1..])
  }

  predicate ValidGaps(ts: seq<string>, gaps: seq<string>)
  {
    && |gaps| == |ts| + 1
    && (forall i :: 0 <= i < |gaps| ==> AllSpace(gaps[i]))
    && (forall i :: 0 < i < |ts| ==> |gaps[i]| > 0)
  }

  lemma TokensSkipSpaces(g: string, rest: string)
    requires AllSpace(g)
    ensures Tokens(g + rest) == Tokens(rest)
    decreases |g|
  {
    if |g| > 0 {
      assert (g + rest)[1..] == g[1..] + rest;
      TokensSkipSpaces(g[1..], rest);
    } else {
      assert g + rest == rest;
    }
  }

  lemma WordOf(w: string, rest: string)
    requires NoSpace(w)
    requires |rest| == 0 || IsSpace(rest[0])
    ensures Word(w + rest) == w
  {
    var s := w + rest;
    var p := Word(s);
    assert forall i :: 0 <= i < |w| ==> s[i] == w[i];
    assert |rest| > 0 ==> s[|w|] == rest[0];
    assert p == s[..|w|] == w;
  }

  /** Whitespace reformatting does not change what `split()` returns: the
      tokens come back whatever whitespace surrounds and separates them. */
  lemma {:induction false} TokensOfLayout(ts: seq<string>, gaps: seq<string>)
    requires forall i :: 0 <= i < |ts| ==> IsToken(ts[i])
    requires ValidGaps(ts, gaps)
    ensures Tokens(Layout(ts, gaps)) == ts
    decreases |ts|
  {
    var s := Layout(ts, gaps);
    if |ts| == 0 {
      TokensSkipSpaces(gaps[0], []);
      assert gaps[0] + [] == gaps[0];
    } else {
      var tail := Layout(ts[1..], gaps[1..]);
      var t := ts[0] + tail;
      assert s == gaps[0] + t;
      TokensSkipSpaces(gaps[0], t);
      assert |tail| == 0 || IsSpace(tail[0]) by {
        if |ts| == 1 {
          assert tail == gaps[1];
        } else {
          assert tail == gaps[1] + (ts[1] + Layout(ts[2..], gaps[2..]));
          assert |gaps[1]| > 0;
        }
      }
      WordOf(ts[0], tail);
      assert t[|ts[0]|..] == tail;
      assert !IsSpace(t[0]);
      assert ValidGaps(ts[1..], gaps[1..]) by {
        forall i | 0 < i < |ts[1..]| ensures |gaps[1..][i]| > 0 {
          assert gaps[1..][i] == gaps[i + 1];
        }
      }
      TokensOfLayout(ts[1..], gaps[1..]);
      assert Tokens(s) == [ts[0]] + ts[1..];
    }
  }

  /** Python's `s.split(sep)` for a one-character separator: never empty,
      empty fields are kept. */
  function Split(s: string, sep: char): (r: seq<string>)
    ensures |r| >= 1
    ensures forall i :: 0 <= i < |r| ==> sep !in r[i]
    decreases |s|
  {
    if |s| == 0 then [[]]
    else
      var rest := Split(s[1..], sep);
      if s[0] == sep then [[]] + rest else [[s[0]] + rest[0]] + rest[1..]
  }

  /** Python's `sep.join(parts)`. */
  function Join(parts: seq<string>, sep: char): string
  {
    if |parts| == 0 then []
    else if |parts| == 1 then parts[0]
    else parts[0] + [sep] + Join(parts[1..], sep)
  }

  /** Joining the fields of a split restores the string. */
  lemma {:induction false} JoinSplit(s: string, sep: char)
    ensures Join(Split(s, sep), sep) == s
    decreases |s|
  {
    if |s| > 0 {
      var rest := Split(s[1..], sep);
      JoinSplit(s[1..], sep);
      if s[0] == sep {
        assert Join([[]] + rest, sep) == [] + [sep] + Join(rest, sep);
      } else {
        var r := [[s[0]] + rest[0]] + rest[1..];
        if |rest| == 1 {
          assert Join(r, sep) == [s[0]] + rest[0];
        } else {
          assert Join(rest, sep) == rest[0] + [sep] + Join(rest[1..], sep);
          assert Join(r, sep) == [s[0]] + rest[0] + [sep] + Join(r[1..], sep);
          assert r[1..] == rest[1..];
        }
      }
    }
  }

  /** The fields of a split hold only characters of the string. */
  lemma {:induction false} SplitChars(s: string, sep: char)
    ensures forall i, c :: 0 <= i < |Split(s, sep)| && c in Split(s, sep)[i] ==> c in s
    decreases |s|
  {
    if |s| > 0 {
      SplitChars(s[1..], sep);
      var rest := Split(s[1..], sep);
      assert forall i, c :: 0 <= i < |rest| && c in rest[i] ==> c in s by {
        forall i, c | 0 <= i < |rest| && c in rest[i] ensures c in s {
          assert c in s[1..];
        }
      }
    }
  }

  lemma SplitPlain(p: string, sep: char)
    requires sep !in p
    ensures Split(p, sep) == [p]
    decreases |p|
  {
    if |p| > 0 {
      SplitPlain(p[1..], sep);
      assert [p[0]] + p[1..] == p;
    }
  }

  lemma SplitFirst(p: string, sep: char, rest: string)
    requires sep !in p
    ensures Split(p + [sep] + rest, sep) == [p] + Split(rest, sep)
    decreases |p|
  {
    var s := p + [sep] + rest;
    if |p| == 0 {
      assert s[1..] == rest;
    } else {
      assert s[1..] == p[1..] + [sep] + rest;
      SplitFirst(p[1..], sep, rest);
      assert [p[0]] + p[1..] == p;
    }
  }

  /** Splitting a join gives the parts back when no part holds the separator. */
  lemma {:induction false} SplitJoin(parts: seq<string>, sep: char)
    requires |parts| >= 1
    requires forall i :: 0 <= i < |parts| ==> sep !in parts[i]
    ensures Split(Join(parts, sep), sep) == parts
    decreases |parts|
  {
    if |parts| == 1 {
      SplitPlain(parts[0], sep);
    } else {
      SplitFirst(parts[0], sep, Join(parts[1..], sep));
      SplitJoin(parts[1..], sep);
      assert [parts[0]] + parts[1..] == parts;
    }
  }

  /** `s.startswith(p)`. */
  predicate StartsWith(s: string, p: string)
  {
    |p| <= |s| && s[..|p|] == p
  }

  /** Python's `p in s` for strings. */
  predicate Contains(s: string, p: string)
    decreases |s|
  {
    StartsWith(s, p) || (|s| > 0 && Contains(s[1..], p))
  }

  lemma ContainsAt(s: string, p: string, i: nat)
    requires i + |p| <= |s| && s[i..i + |p|] == p
    ensures Contains(s, p)
    decreases i
  {
    if i > 0 {
      assert s[1..][i - 1..i - 1 + |p|] == s[i..i + |p|];
      ContainsAt(s[1..], p, i - 1);
    }
  }

  /** The line boundaries of Python's `str.splitlines`. */
  predicate IsLineBreak(c: char)
  {
    var n := c as int;
    10 <= n <= 13 || 28 <= n <= 30 || n == 0x85 || n == 0x2028 || n == 0x2029
  }

  /** Python's `s.splitlines()`: no trailing empty line, `\r\n` is one break. */
  function SplitLines(s: string): (r: seq<string>)
    ensures forall i :: 0 <= i < |r| ==> forall j :: 0 <= j < |r[i]| ==> !IsLineBreak(r[i][j])
    decreases |s|
  {
    if |s| == 0 then []
    else
      var line := LinePrefix(s);
      if |line| == |s| then [s]
      else
        var skip := if s[|line|] == '\r' && |line| + 1 < |s| && s[|line| + 1] == '\n' then 2 else 1;
        [line] + SplitLines(s[|line| + skip..])
  }

  /** A line followed by a boundary: the line is the prefix before it. */
  lemma LinePrefixBefore(line: string, rest: string)
    requires forall j :: 0 <= j < |line| ==> !IsLineBreak(line[j])
    requires |rest| == 0 || IsLineBreak(rest[0])
    ensures LinePrefix(line + rest) == line
  {
    var s := line + rest;
    var w := LinePrefix(s);
    assert forall j :: 0 <= j < |line| ==> s[j] == line[j];
    assert |s| > |line| ==> s[|line|] == rest[0];
    assert s[..|line|] == line;
  }

  /** `splitlines` undoes a join on `\n` of lines without boundaries whose
      last line is not empty. */
  lemma {:induction false} SplitLinesJoin(lines: seq<string>)
    requires |lines| > 0 && |lines[|lines| - 1]| > 0
    requires forall i :: 0 <= i < |lines| ==> forall j :: 0 <= j < |lines[i]| ==> !IsLineBreak(lines[i][j])
    ensures SplitLines(Join(lines, '\n')) == lines
    decreases |lines|
  {
    if |lines| == 1 {
      LinePrefixBefore(lines[0], []);
      assert lines[0] + [] == lines[0];
    } else {
      var rest := Join(lines[1..], '\n');
      SplitLinesNewline(lines[0], rest);
      SplitLinesJoin(lines[1..]);
      assert [lines[0]] + lines[1..] == lines;
    }
  }

  /** A line ended by `\n` is split off the front. */
  lemma SplitLinesNewline(line: string, rest: string)
    requires forall j :: 0 <= j < |line| ==> !IsLineBreak(line[j])
    ensures SplitLines(line + ['\n'] + rest) == [line] + SplitLines(rest)
  {
    var s := line + ['\n'] + rest;
    assert s == line + (['\n'] + rest);
    LinePrefixBefore(line, ['\n'] + rest);
    assert s[|line|] == '\n';
    assert s[|line| + 1..] == rest;
  }

  /** `strip()` leaves text alone whose ends are not whitespace. */
  lemma StripKeeps(s: string)
    requires |s| > 0 && !IsSpace(s[0]) && !IsSpace(s[|s| - 1])
    ensures Strip(s) == s
  {
    assert LStrip(s, Whitespace) == s;
  }

  /** `strip()` leaves nothing exactly when the text is all whitespace. */
  lemma StripAllSpace(s: string)
    ensures AllSpace(s) <==> Strip(s) == []
  {
    var l := LStrip(s, Whitespace);
    assert |l| > 0 ==> l[0] == s[|s| - |l|];
    if !AllSpace(s) {
      var k :| 0 <= k < |s| && !IsSpace(s[k]);
      assert |l| > 0;
      assert RStrip(l, Whitespace) != [] by {
        assert l[k - (|s| - |l|)] == s[k];
      }
    }
  }

  /** The first and last characters of a join are those of its first and
      last parts when they are not empty. */
  lemma {:induction false} JoinEnds(parts: seq<string>, sep: char)
    requires |parts| > 0
    ensures |parts[0]| > 0 ==> Join(parts, sep)[0] == parts[0][0]
    ensures var last := parts[|parts| - 1];
      |last| > 0 ==> |Join(parts, sep)| >= |last| && Join(parts, sep)[|Join(parts, sep)| - 1] == last[|last| - 1]
    decreases |parts|
  {
    if |parts| > 1 {
      JoinEnds(parts[1..], sep);
    }
  }

  /** The longest prefix of `s` without a line boundary. */
  function LinePrefix(s: string): (w: string)
    ensures |w| <= |s| && w == s[..|w|]
    ensures forall j :: 0 <= j < |w| ==> !IsLineBreak(w[j])
    ensures |w| < |s| ==> IsLineBreak(s[|w|])
    decreases |s|
  {
    if |s| == 0 || IsLineBreak(s[0]) then [] else [s[0]] + LinePrefix(s[1..])
  }
}

=== FILE: tracking.dfy ===
/** The tracking-status side of `process_queue`: stripping ANSI colour and
    cursor sequences (ECMA-48 control sequences ending in SGR `m` or CUU
    `A`), classifying the cleaned line by the two `re.match` patterns, and
    the whitespace-token parsers of satellite and position lines. */
module Tracking {
  import opened Wrappers
  import opened Text
  import opened Numeric

  const Esc: char := '\U{1B}'

  /** The tracking table's header, which is skipped. */
  const Header: string := "CH  RF  SAT  SIG"

  /** What the parameter bytes of `[0-9;]*` may be. */
  predicate IsParam(c: char)
  {
    ('0' <= c <= '9') || c == ';'
  }

  /** The longest prefix of parameter characters. */
  function ParamRun(s: string): (p: string)
    ensures |p| <= |s| && p == s[..|p|]
    ensures forall i :: 0 <= i < |p| ==> IsParam(p[i])
    ensures |p| < |s| ==> !IsParam(s[|p|])
    decreases |s|
  {
    if |s| == 0 || !IsParam(s[0]) then [] else [s[0]] + ParamRun(s[1..])
  }

  /** The length of a match of `\033\[[0-9;]*[mA]` at the start of `s`. As no
      final byte is a parameter character, the greedy run is the only one
      that can be followed by the final byte. */
  function SequenceAt(s: string): (n: Option<nat>)
    ensures n.Some? ==> 3 <= n.value <= |s| && s[0] == Esc && s[n.value - 1] in {'m', 'A'}
    ensures |s| == 0 || s[0] != Esc ==> n.None?
  {
    if |s| >= 2 && s[0] == Esc && s[1] == '[' then
      var k := |ParamRun(s[2..])|;
      if 2 + k < |s| && (s[2 + k] == 'm' || s[2 + k] == 'A') then Some(3 + k) else None
    else None
  }

  /** `re.sub(r'\033\[[0-9;]*[mA]', '', line)`: matches are removed left to
      right, scanning on after each one. Text without `ESC` is left as it is. */
  function StripAnsi(s: string): (r: string)
    ensures |r| <= |s|
    ensures Esc !in s ==> r == s
    decreases |s|
  {
    if |s| == 0 then []
    else match SequenceAt(s)
      case Some(n) => StripAnsi(s[n..])
      case None =>
        assert s == [s[0]] + s[1..];
        [s[0]] + StripAnsi(s[1..])
  }

  /** The removal only deletes: every character left was in the text, as
      often at most. */
  lemma {:induction false} StripDeletes(s: string)
    ensures multiset(StripAnsi(s)) <= multiset(s)
    decreases |s|
  {
    if |s| > 0 {
      match SequenceAt(s)
      case Some(n) =>
        StripDeletes(s[n..]);
        assert s == s[..n] + s[n..];
      case None =>
        StripDeletes(s[1..]);
        assert s == [s[0]] + s[1..];
    }
  }

  /** A colour sequence `ESC [ params m`. */
  function Sgr(params: string): (q: string)
    requires forall i :: 0 <= i < |params| ==> IsParam(params[i])
    ensures |q| == |params| + 3
  {
    [Esc, '['] + params + ['m']
  }

  lemma ParamRunOf(params: string, rest: string)
    requires forall i :: 0 <= i < |params| ==> IsParam(params[i])
    requires |rest| > 0 && !IsParam(rest[0])
    ensures ParamRun(params + rest) == params
  {
    var s := params + rest;
    var p := ParamRun(s);
    assert forall i :: 0 <= i < |params| ==> s[i] == params[i];
    assert s[|params|] == rest[0];
    assert p == s[..|params|] == params;
  }

  /** A colour sequence in front of the text is removed whole. */
  lemma StripSgr(params: string, s: string)
    requires forall i :: 0 <= i < |params| ==> IsParam(params[i])
    ensures StripAnsi(Sgr(params) + s) == StripAnsi(s)
  {
    var t := Sgr(params) + s;
    assert t[2..] == params + (['m'] + s);
    ParamRunOf(params, ['m'] + s);
    assert SequenceAt(t) == Some(|params| + 3);
    assert t[|params| + 3..] == s;
  }

  /** Text free of escapes passes through, and what follows it is stripped on its own. */
  lemma {:induction false} StripPlainPrefix(a: string, s: string)
    requires Esc !in a
    ensures StripAnsi(a + s) == a + StripAnsi(s)
    decreases |a|
  {
    if |a| == 0 {
      assert a + s == s;
    } else {
      StripPlainPrefix(a[1..], s);
      StripCons(a[0], a[1..] + s);
      ConsSplit(a, s, StripAnsi(s));
    }
  }

  lemma ConsSplit(a: string, s: string, x: string)
    requires |a| > 0
    ensures a + s == [a[0]] + (a[1..] + s)
    ensures a + x == [a[0]] + (a[1..] + x)
  {
    assert a == [a[0]] + a[1..];
  }

  /** A character other than `ESC` in front is kept, and the rest is
      stripped on its own. */
  lemma StripCons(c: char, t: string)
    requires c != Esc
    ensures StripAnsi([c] + t) == [c] + StripAnsi(t)
  {
    var u := [c] + t;
    assert u[0] == c && u[1..] == t;
  }

  /** Where no sequence starts, the first character is kept and the rest
      is stripped on its own. */
  lemma StripStep(t: string)
    requires |t| > 0 && SequenceAt(t).None?
    ensures StripAnsi(t) == [t[0]] + StripAnsi(t[1..])
  {
  }

  /** Removal is not idempotent: deleting the inner sequence of
      `ESC ESC [ m [ m` leaves the sequence `ESC [ m`. */
  lemma StripNotIdempotent()
    ensures StripAnsi([Esc, Esc, '[', 'm', '[', 'm']) == [Esc, '[', 'm']
    ensures StripAnsi(StripAnsi([Esc, Esc, '[', 'm', '[', 'm'])) == []
  {
    StripNested();
    assert [Esc, '[', 'm'] == Sgr([]) + [];
    StripSgr([], []);
  }

  lemma StripNested()
    ensures StripAnsi([Esc, Esc, '[', 'm', '[', 'm']) == [Esc, '[', 'm']
  {
    var s := [Esc, Esc, '[', 'm', '[', 'm'];
    var t := [Esc, '[', 'm', '[', 'm'];
    assert t == Sgr([]) + ['[', 'm'];
    assert s[1..] == t;
    assert SequenceAt(s) == None;
    StripStep(s);
    StripSgr([], ['[', 'm']);
    StripPlainPrefix(['[', 'm'], []);
    assert ['[', 'm'] + [] == ['[', 'm'];
    assert StripAnsi(t) == ['[', 'm'];
  }

  /** `re.sub(...).strip()`. */
  function Clean(line: string): string
  {
    Strip(StripAnsi(line))
  }

  /** How `process_queue` routes a cleaned line. */
  datatype Kind = Skip | Position | Satellite | Other

  /** ASCII digits, as the receiver emits them; `\d` also accepts other
      Unicode decimal digits. */
  function DigitRun(s: string): (d: string)
    ensures |d| <= |s| && d == s[..|d|] && AllDigits(d)
    ensures |d| < |s| ==> !IsDigit(s[|d|])
    decreases |s|
  {
    if |s| == 0 || !IsDigit(s[0]) then [] else [s[0]] + DigitRun(s[1..])
  }

  function SpaceRun(s: string): (w: string)
    ensures |w| <= |s| && w == s[..|w|] && AllSpace(w)
    ensures |w| < |s| ==> !IsSpace(s[|w|])
    decreases |s|
  {
    if |s| == 0 || !IsSpace(s[0]) then [] else [s[0]] + SpaceRun(s[1..])
  }

  /** `re.match(r"\d{4}-\d{2}-\d{2}", s)`. */
  predicate DatePrefix(s: string)
  {
    && |s| >= 10
    && AllDigits(s[..4]) && s[4] == '-' && AllDigits(s[5..7]) && s[7] == '-' && AllDigits(s[8..10])
  }

  /** `re.match(r"\s*\d+\s+\d+\s+[A-Z]\d+", s)`: every run is greedy, and no
      shorter run can be followed by what the pattern needs next. */
  predicate TrackPrefix(s: string)
  {
    var s0 := s[|SpaceRun(s)|..];
    var d1 := DigitRun(s0);
    var s1 := s0[|d1|..];
    var w1 := SpaceRun(s1);
    var s2 := s1[|w1|..];
    var d2 := DigitRun(s2);
    var s3 := s2[|d2|..];
    var w2 := SpaceRun(s3);
    var s4 := s3[|w2|..];
    |d1| > 0 && |w1| > 0 && |d2| > 0 && |w2| > 0
      && |s4| >= 2 && 'A' <= s4[0] <= 'Z' && IsDigit(s4[1])
  }

  /** A line the tracking pattern matches starts with a token of ASCII
      digits: its CH. */
  lemma TrackChannel(s: string)
    requires TrackPrefix(s)
    ensures |Tokens(s)| > 0 && |Tokens(s)[0]| > 0 && AllDigits(Tokens(s)[0])
  {
    var s0 := s[|SpaceRun(s)|..];
    TrackHead(s);
    assert s == SpaceRun(s) + s0;
    TokensSkipSpaces(SpaceRun(s), s0);
    DigitsThenSpace(s0);
  }

  /** What the pattern needs first, after the leading whitespace: digits
      followed by whitespace. */
  lemma TrackHead(s: string)
    requires TrackPrefix(s)
    ensures var s0 := s[|SpaceRun(s)|..];
      var d1 := DigitRun(s0);
      |d1| > 0 && |d1| < |s0| && IsSpace(s0[|d1|])
  {
    var s0 := s[|SpaceRun(s)|..];
    var d1 := DigitRun(s0);
    var s1 := s0[|d1|..];
    assert |SpaceRun(s1)| > 0;
  }

  /** No ASCII digit is whitespace. */
  lemma DigitsNoSpace(d: string)
    requires AllDigits(d)
    ensures NoSpace(d)
  {
    forall i | 0 <= i < |d| ensures !IsSpace(d[i]) {
      var c := d[i];
      assert '0' <= c <= '9';
    }
  }

  /** A run of digits ended by whitespace is the first token. */
  lemma DigitsThenSpace(s: string)
    requires |DigitRun(s)| > 0 && |DigitRun(s)| < |s| && IsSpace(s[|DigitRun(s)|])
    ensures |Tokens(s)| > 0 && Tokens(s)[0] == DigitRun(s)
  {
    var d := DigitRun(s);
    assert s == d + s[|d|..];
    DigitsNoSpace(d);
    WordOf(d, s[|d|..]);
    assert !IsSpace(s[0]);
  }

  /** The routing of `process_queue`: skip, then the date pattern, then the
      tracking pattern. */
  function Classify(line: string): (k: Kind)
    ensures k == Skip <==> |Clean(line)| == 0 || Contains(Clean(line), Header)
    ensures k == Position <==> k != Skip && DatePrefix(Clean(line))
    ensures k == Satellite <==> k != Skip && !DatePrefix(Clean(line)) && TrackPrefix(Clean(line))
    ensures k == Other <==> k != Skip && !DatePrefix(Clean(line)) && !TrackPrefix(Clean(line))
  {
    var c := Clean(line);
    if |c| == 0 || Contains(c, Header) then Skip
    else if DatePrefix(c) then Position
    else if TrackPrefix(c) then Satellite
    else Other
  }

  /** A date-prefixed line is a position line, never a satellite line, even
      when the tracking pattern would also match it. */
  lemma DateFirst(line: string)
    requires DatePrefix(Clean(line)) && !Contains(Clean(line), Header)
    ensures Classify(line) == Position
  {
  }

  /** A colour sequence and surrounding whitespace do not change the route. */
  lemma ClassifyColoured(params: string, line: string)
    requires forall i :: 0 <= i < |params| ==> IsParam(params[i])
    ensures Classify(Sgr(params) + line) == Classify(line)
  {
    StripSgr(params, line);
  }

  /** One row of the tracking table: tokens 0, 2, 3, 4, 5, 6, 8, 9, 12, 14
      and 15 of the line (CH, SAT, SIG, PRN, LOCK, C/N0, COFF, DOP, NAV, LOL,
      FEC), in that order. */
  datatype SatTuple = SatTuple(
    ch: string, sat: string, sig: string, prn: string, lock: string, cn0: string,
    coff: string, dop: string, nav: string, lol: string, fec: string)

  /** The tuple's CH is a value `int()` accepts, so Tk hands it back as an
      `int`. */
  predicate NumericChannel(t: SatTuple)
  {
    IntOf(t.ch).Some?
  }

  /** `parse_satellite_data`: `None` below sixteen whitespace tokens. */
  function ParseSatellite(line: string): (r: Option<SatTuple>)
    ensures r.Some? <==> |Tokens(line)| >= 16
    ensures r.Some? ==>
      var p := Tokens(line);
      && r.value.ch == p[0] && r.value.sat == p[2] && r.value.sig == p[3] && r.value.prn == p[4]
      && r.value.lock == p[5] && r.value.cn0 == p[6] && r.value.coff == p[8] && r.value.dop == p[9]
      && r.value.nav == p[12] && r.value.lol == p[14] && r.value.fec == p[15]
  {
    var p := Tokens(line);
    if |p| < 16 then None
    else Some(SatTuple(p[0], p[2], p[3], p[4], p[5], p[6], p[8], p[9], p[12], p[14], p[15]))
  }

  /** The parsed row depends on the tokens only, not on how they are spaced. */
  lemma ParseSatelliteLayout(ts: seq<string>, gaps: seq<string>, gaps': seq<string>)
    requires forall i :: 0 <= i < |ts| ==> IsToken(ts[i])
    requires ValidGaps(ts, gaps) && ValidGaps(ts, gaps')
    ensures ParseSatellite(Layout(ts, gaps)) == ParseSatellite(Layout(ts, gaps'))
    ensures |ts| >= 16 ==> ParseSatellite(Layout(ts, gaps)).Some?
  {
    TokensOfLayout(ts, gaps);
    TokensOfLayout(ts, gaps');
  }

  /** The latitude text of a position line before a fix is available. */
  const NoFix: string := "0.00000000"

  /** The fix test of `parse_position_status` on tokens `p` (at least 12):
      a non-zero latitude at a time other than the last one seen. */
  predicate IsNewFix(p: seq<string>, oldTime: string)
    requires |p| >= 12
  {
    p[2] != NoFix && p[1] != oldTime
  }

  /** What the older build's `parse_position_status` does to the labels:
      nothing, the fix styling, or the plain repeat labels. */
  datatype Display = Untouched | FixShown | RepeatShown

  /** `old_time` after the call, the labels written, and whether it raised.
      A raise comes at the Lock label, after the Time, Latitude, Longitude,
      Altitude, Fix, Buffer and Search labels are written, so `shown` also
      records a raising call's labels. */
  datatype LegacyPos = LegacyPos(oldTime: string, shown: Display, raised: bool)

  /** `parse_position_status` of the older build: below twelve tokens
      nothing; otherwise the labels are written, raising at `parts[12]`/
      `parts[13]` for a line of twelve or thirteen tokens before `old_time`
      is assigned. */
  function LegacyPosition(oldTime: string, line: string): (r: LegacyPos)
    ensures |Tokens(line)| < 12 ==> r == LegacyPos(oldTime, Untouched, false)
    ensures r.raised <==> 12 <= |Tokens(line)| < 14
    ensures r.raised ==> r.oldTime == oldTime
    ensures !r.raised && |Tokens(line)| >= 14 ==> r.oldTime == Tokens(line)[1]
    ensures r.shown == Untouched <==> |Tokens(line)| < 12
    ensures r.shown == FixShown <==> |Tokens(line)| >= 12 && IsNewFix(Tokens(line), oldTime)
    ensures r.shown == RepeatShown <==> |Tokens(line)| >= 12 && !IsNewFix(Tokens(line), oldTime)
  {
    var p := Tokens(line);
    if |p| < 12 then LegacyPos(oldTime, Untouched, false)
    else
      var shown := if IsNewFix(p, oldTime) then FixShown else RepeatShown;
      if |p| < 14 then LegacyPos(oldTime, shown, true)
      else LegacyPos(p[1], shown, false)
  }

  /** Repeating a complete position line is never a new fix the second time. */
  lemma RepeatIsNoFix(oldTime: string, line: string)
    requires |Tokens(line)| >= 14
    ensures LegacyPosition(LegacyPosition(oldTime, line).oldTime, line).shown == RepeatShown
  {
  }
}

=== FILE: wrappers.dfy ===
/** Small failure-carrying datatypes shared by the whole model. */
module Wrappers {

  /** Python's `None` / a present value. */
  datatype Option<+T> = None | Some(value: T)

  /** The state a stateful Python routine leaves behind, and whether it
      left by raising an exception (so the caller's `try` takes over). */
  datatype Step<+S> = Step(state: S, raised: bool)

  /** `max` where `None` stands for `float('-inf')`. */
  function MaxExt(a: Option<real>, b: real): (r: Option<real>)
    ensures r.Some?
    ensures r.value >= b
    ensures a.Some? ==> r.value >= a.value
    ensures a.None? || r.value == a.value || r.value == b
  {
    match a
    case None => Some(b)
    case Some(x) => if b > x then Some(b) else Some(x)
  }

  /** The order on extended reals with `None` as negative infinity. */
  predicate LeExt(a: Option<real>, b: Option<real>)
  {
    a.None? || (b.Some? && a.value <= b.value)
  }
}
